=== FILE: README.md ===
# Repair-shop service desk, modelled in Dafny

This project models the decision rules of a repair-shop management web
application with a Turkish interface. The application tracks repair tickets
("services") for customers, assigns them to technicians, keeps an
income/expense ledger, e-mails customers at fixed points of the repair and
shows dashboards and reports. The model covers the following:

- the ticket status workflow (nine statuses and the table of allowed next
  statuses) and the two client paths that change a ticket's status;
- ticket, customer and ledger-entry creation and listing, with their
  validation, search filters and pagination;
- the choice of e-mail template for a notification;
- customer loyalty tiers and RFM segments, and technician grouping and
  revenue ranking;
- dashboard counters, month and year reports, trend rows, percentage
  changes and "time ago" labels;
- the pure helpers of the pages: form payloads, CSV export, chart data, the
  settings merge, the notification log filters and the search page.

Each handler or component is one module, named after it. `Status` holds the
workflow, `Records` the stored entities, and `Util`, `Numeric` and `Js` the
sequence helpers and the JavaScript behaviour the code relies on: truthiness,
`parseInt`, `parseFloat` and number-to-text. These are left as parameters:

- the database, as in-memory sequences handed to each handler;
- the current time, and `Math.random` (a real in [0, 1));
- calendar arithmetic, as a `Calendar` function or a local-midnight function;
- number rendering, as a `show` function;
- the mail service's answer, as a boolean.

Money is a real amount. Timestamps are integer milliseconds.

## Model

| member | source | states |
|---|---|---|
| Status.ParseName | src/components/services/service-status-update.tsx:70-80 | a string parses to a status exactly when it is that status' stored name, for all nine keys of the table |
| Status.TerminalIff | src/components/services/service-status-update.tsx:77-79 | a status offers no successor exactly when it is DELIVERED, CANCELLED or RETURNED |
| Status.EdgeShape | src/components/services/service-status-update.tsx:71-79 | no status lists itself, and no status lists RECEIVED or RETURNED as a successor |
| Status.DeliveredOnlyFromReady | src/components/services/service-status-update.tsx:76 | DELIVERED is a successor of COMPLETED_READY_FOR_DELIVERY and of nothing else, and that status offers DELIVERED only, so it cannot be cancelled |
| Status.CancelledPredecessors | src/components/services/service-status-update.tsx:71-75 | CANCELLED is offered exactly from RECEIVED, DIAGNOSIS_PENDING, CUSTOMER_APPROVAL_PENDING, PARTS_PENDING and REPAIRING |
| Status.ReachableFromReceived | src/components/services/service-status-update.tsx:70-80 | every status other than RETURNED is reached from RECEIVED by a walk through the table |
| Status.ReachableStep | src/components/services/service-status-update.tsx:70-80 | a walk extended by one table transition is still a walk |
| Status.ReturnedUnreachable | src/components/services/service-status-update.tsx:70-80 | no walk from another status ever reaches RETURNED |
| Status.EdgeRank | src/components/services/service-status-update.tsx:70-80 | every transition moves forward in the workflow order, except REPAIRING to PARTS_PENDING and back, which keep their position |
| Status.PathRank | src/components/services/service-status-update.tsx:70-80 | along any walk the workflow position never decreases, and a walk that ends at its starting position stays there throughout |
| Status.OnlyCycle | src/components/services/service-status-update.tsx:70-80 | every status on a closed walk is REPAIRING or PARTS_PENDING: that is the only cycle |
| Status.RepairPartsCycle | src/components/services/service-status-update.tsx:74-75 | the cycle REPAIRING, PARTS_PENDING, REPAIRING is a walk of the table |
| StatusUpdate.OfferedIffEdge | src/components/services/service-status-update.tsx:142 | a string is offered for a known current status exactly when it names a table successor of it |
| StatusUpdate.UnknownStatusOffersNothing | src/components/services/service-status-update.tsx:142 | a current status missing from the table gets the empty option list |
| StatusUpdate.CurrentNeverOffered | src/components/services/service-status-update.tsx:142 | the current status is never among its own options, and a terminal status offers none |
| StatusUpdate.SubmitRequest | src/components/services/service-status-update.tsx:116-126 | the request goes to `/api/services/{id}/status` with the chosen status and notes; the technician is null exactly when UNASSIGNED was chosen, otherwise the chosen one; the fee text is sent unparsed exactly when the status is DELIVERED |
| StatusUpdate.SameStatusRequestPossible | src/components/services/service-status-update.tsx:83-269 | the untouched dialog can be submitted and sends the ticket's own status, which is never one of the offered options |
| StatusUpdate.TechnicianRoundTrip | src/components/services/service-status-update.tsx:85-124 | leaving the technician untouched sends null when none was assigned and the assigned technician otherwise |
| StatusTracker.TrackerOffersSuperset | src/components/services/service-status-tracker.tsx:56-66 | the tracker offers every status the update dialog can offer from any current status, plus RETURNED, which the dialog never offers |
| StatusTracker.HandleStatusUpdate | src/components/services/service-status-tracker.tsx:103-124 | an empty selection gives an error toast and no request; otherwise `PUT /api/services/{id}` with the status and notes, the fee left out exactly when the field is empty, else the parsed fee |
| StatusTracker.ContractsDisagree | src/components/services/service-status-tracker.tsx:115-123 | for the same non-DELIVERED choice and a typed fee, the tracker and the dialog use different endpoints and only the tracker sends the fee |
| StatusTracker.FeeInputStatuses | src/components/services/service-status-tracker.tsx:240 | the fee input is shown exactly for DELIVERED and COMPLETED_READY_FOR_DELIVERY |
| StatusTracker.OnUpdated | src/components/services/service-status-tracker.tsx:127-135 | a successful update closes the dialog, clears the notes, keeps the ticket and takes the status the store reports |
| StatusTracker.UpdateResetsSelection | src/components/services/service-status-tracker.tsx:89 | after an update the selection differs from the one just chosen whenever the store reports another status |
| StatusTracker.BadgeMatchesWorkflow | src/components/services/service-status-tracker.tsx:150-162 | the destructive badge marks exactly the terminal statuses other than DELIVERED, the default badge exactly DELIVERED, the outline badge exactly the open statuses other than COMPLETED_READY_FOR_DELIVERY |
| StatusTracker.BadgeOfUnknown | src/components/services/service-status-tracker.tsx:159-160 | a string that is not a status gets the outline badge |
| ServicesApi.RandomSuffix | src/app/api/services/route.ts:107 | the suffix is the whole part of a thousand times the draw, so it lies between 0 and 999 |
| ServicesApi.ServiceNumberRoundTrip | src/app/api/services/route.ts:107 | a service number reads back as the creation time and the suffix, which is at most 999 |
| ServicesApi.StoredFeeCases | src/app/api/services/route.ts:121 | an estimated fee of 0, the empty string, null or a missing fee is stored as null; a positive whole-number text is stored as its value |
| ServicesApi.CreateService | src/app/api/services/route.ts:99-160 | creation fails with 400 and writes nothing exactly when customer, device type, brand, model or problem description is falsy; with those present, a customer identifier naming no stored customer, or a technician identifier naming no stored user, is refused with 500 and nothing written; otherwise it answers 201 with a RECEIVED ticket carrying the given customer, device type, brand, model, problem description, technician, serial number, IMEI, accessories and physical condition, the fee as `estimatedFee ? parseFloat(estimatedFee) : null` stores it, no completion, delivery or final fee, a number that reads back as time and suffix, appends the ticket and one RECEIVED history row by `system`, and leaves customers, users, finance records and logs alone |
| ServicesApi.CreateAddsOneHistoryRow | src/app/api/services/route.ts:143-151 | a creation adds one history row when it succeeds, none when it fails, and the new row belongs to the new ticket and has its status |
| ServicesApi.ServicesPage | src/app/api/services/route.ts:36-72 | the page is the `limit`-sized slice of the newest-first selection starting at `(page - 1) * limit`; it echoes page and limit, the total is the number of selected tickets, the page count is the least one whose pages hold the total, and the page holds at most `limit` selected tickets from the store, newest first |
| ServicesApi.ListServices | src/app/api/services/route.ts:4-80 | the list fails with 500 exactly when page or limit does not read as a positive whole number (defaults 1 and 10); otherwise it answers 200 with that page of the selection |
| ServicesApi.PageOfSelection | src/app/api/services/route.ts:40-44 | every page of the selection is newest first and holds only selected store tickets |
| ServicesApi.ListCoversSelection | src/app/api/services/route.ts:36-44 | the selected ticket at position j appears on page j div limit + 1, at position j mod limit, and that page is within the page count |
| ServicesApi.PageParamRoundTrip | src/app/api/services/route.ts:9 | the decimal text of a page number is read back as that page number |
| ServicesApi.ListHonoursStatus | src/app/api/services/route.ts:28-33 | with a non-empty status parameter, every listed ticket has that status |
| ServicesApi.SelectionExact | src/app/api/services/route.ts:14-33 | a ticket is selected exactly when it is in the store, has the status asked for (when one is given), and, when a search term is given, one of its seven searched fields contains the term ignoring case |
| CustomersApi.CreateCustomer | src/app/api/customers/route.ts:51-71 | creation fails with 400 and leaves the list alone exactly when name or phone is falsy; otherwise it answers 201 with the customer built from the body and appends exactly that customer |
| CustomersApi.ListCustomers | src/app/api/customers/route.ts:22-40 | the listed customers are newest first and never more than the stored ones |
| CustomersApi.ListExact | src/app/api/customers/route.ts:9-24 | a customer is listed exactly when stored and, for a non-empty search, its name, email, phone or address contains the term ignoring case |
| CustomersApi.NoSearchListsAll | src/app/api/customers/route.ts:9-24 | without a search the list is a reordering of all stored customers, each as often as stored |
| CustomersApi.CreatedIsFound | src/app/api/customers/route.ts:11-71 | a customer just created is found by a search for its own name |
| FinanceApi.CreateRecord | src/app/api/finance/route.ts:105-146 | an entry is refused with 400 and nothing written when amount or type is falsy; with both given it is stored, and answered with 201, exactly when the amount parses to a number and the ticket identifier, if any, names a stored ticket, and is otherwise refused with 500; the stored entry has the parsed amount, the upper-cased type, the given description and ticket, and is the only one appended |
| FinanceApi.ZeroAmountCases | src/app/api/finance/route.ts:109-118 | a numeric amount of 0 is refused as missing, while the text "0" passes the check and is stored as an amount of 0 |
| FinanceApi.UpperIdempotent | src/app/api/finance/route.ts:119 | upper-casing twice is upper-casing once, so a stored type sent back unchanged is stored unchanged |
| FinanceApi.NetIsSignedSum | src/app/api/finance/route.ts:66-79 | the net of the summary equals the sum over the matching entries of +amount for income, -amount for expense and 0 for any other type |
| FinanceApi.LedgerPage | src/app/api/finance/route.ts:42-95 | the page echoes page and limit, total and transaction count are the number of matching entries, the page count is the least one whose pages hold the total; the page is the `skip`/`take` slice of the matching entries sorted latest first, so at most `limit` of them, and the summary is that of all matching entries, not just the page |
| FinanceApi.LedgerCoversSelection | src/app/api/finance/route.ts:12-60 | the selected entry at position j appears on page j div limit + 1, at position j mod limit, and that page is within the page count |
| FinanceApi.ListRecords | src/app/api/finance/route.ts:4-103 | the ledger fails with 500 exactly when page or limit does not read as a positive whole number (defaults 1 and 10); otherwise it answers 200 with that page |
| FinanceApi.PageOfSelection | src/app/api/finance/route.ts:42-61 | every page of the selection is latest first and holds only matching ledger entries |
| FinanceApi.SelectionExact | src/app/api/finance/route.ts:14-44 | an entry is selected exactly when it is in the ledger, has the upper-cased type when a type other than "all" is given, and is recorded no earlier than the period start when a period other than "all" is given |
| FinanceApi.UnfilteredCountsAll | src/app/api/finance/route.ts:14-93 | with no type and no period filter, the total and the transaction count are the size of the whole ledger |
| FinanceApi.CountIsNotPageSize | src/app/api/finance/route.ts:62-93 | the transaction count is at least the number of entries on the page, and larger whenever more entries match than one page holds |
| FinanceApi.KindFilterSummary | src/app/api/finance/route.ts:16-79 | under a type filter every listed entry has that type, and the other type's total is 0, so an income listing's net is its income |
| FinanceForm.InitialForm | src/components/finance/finance-form.tsx:95-111 | with no entry the form is blank; for an entry it holds the amount's text, the lower-cased type, the description or '' and the ticket or "none" |
| FinanceForm.Body | src/components/finance/finance-form.tsx:141-145 | the body carries the parsed amount, or null when the text does not parse, the type and description as typed, and the ticket, or null exactly when "none" is selected |
| FinanceForm.Submit | src/components/finance/finance-form.tsx:133-145 | an edited entry is sent with PUT to `/api/finance/{id}`, a new one with POST to `/api/finance`, both with the same body |
| FinanceForm.OnSaved | src/components/finance/finance-form.tsx:154-160 | after a successful save the form is blank and the submit button is disabled |
| FinanceForm.KindSelectRoundTrip | src/components/finance/finance-form.tsx:99-274 | both select values are stored as INCOME or EXPENSE, and a stored INCOME or EXPENSE lower-cases to a select value that upper-cases back to it |
| FinanceForm.CreateFromEdited | src/components/finance/finance-form.tsx:95-145 | an untouched edit form for a non-zero INCOME or EXPENSE entry, sent to the creation endpoint, is stored exactly when the entry has no ticket or its ticket is still stored, and then with the same amount, type and ticket and a missing description stored as ''; otherwise the endpoint answers 500 |
| FinanceForm.ZeroAmountRefused | src/components/finance/finance-form.tsx:141-342 | an amount text that parses to 0 enables the submit button whenever a type is chosen, yet the creation endpoint refuses it with 400 |
| EmailNotify.DetailPieces | src/app/api/notifications/email/route.ts:68-110 | the detail table reads as caption, value, caption, value, in row order |
| Records.FindById | src/app/api/notifications/email/route.ts:48-53 | a lookup by identifier finds the first row with that identifier, and finds nothing exactly when no row has it; the e-mail route looks tickets and customers up with it, and the creation handlers use it to decide whether a written relation names a stored row |
| EmailNotify.Notify | src/app/api/notifications/email/route.ts:36-258 | a missing type, ticket or address gives 400, an unknown ticket 404, and a 400 sends no mail; a success means the three parameters were given, the type is one of the three templates and the mail service accepted the mail addressed to the given address under that type's subject, and exactly one SENT log row with that subject is appended; a failure writes no log row |
| EmailNotify.AcceptedIff | src/app/api/notifications/email/route.ts:40-240 | a notification succeeds exactly when the parameters are present, the ticket and its customer exist, the type is SERVICE_RECEIVED, CUSTOMER_APPROVAL_PENDING or SERVICE_COMPLETED, an approval request carries a truthy fee, and the mail service accepts it; PAYMENT_REMINDER is always refused with 400 |
| EmailNotify.ApprovalNeedsFee | src/app/api/notifications/email/route.ts:113-119 | an approval request whose fee is missing, empty or 0 is refused with 400 and writes no log row |
| EmailNotify.MailNamesCustomerAndTicket | src/app/api/notifications/email/route.ts:68-220 | every mail sent contains the ticket's customer name and the ticket's service number |
| EmailNotify.ApprovalMailQuotesFee | src/app/api/notifications/email/route.ts:121-166 | the approval mail contains the fee as the request sent it, followed by " TL" |
| DashboardStats.StatusSetsPartition | src/app/api/dashboard/stats/route.ts:36-52 | every one of the nine statuses is in exactly one of the pending set, the completed set and the remaining CANCELLED/RETURNED set, and the pending set is exactly the non-terminal statuses other than COMPLETED_READY_FOR_DELIVERY |
| DashboardStats.CountsPartition | src/app/api/dashboard/stats/route.ts:36-52 | when every stored status is one of the nine, pending, completed and closed tickets add up to all tickets |
| DashboardStats.GuardedChange | src/app/api/dashboard/stats/route.ts:83-91 | with a positive previous figure the change times that figure is a hundred times the difference; otherwise it is 0 |
| DashboardStats.GuardedChangeSign | src/app/api/dashboard/stats/route.ts:83-91 | with a positive previous figure the change is positive exactly when the figure rose and 0 exactly when it stayed; with no previous figure it is 0 even when the figure rose |
| DashboardStats.CountsFor | src/app/api/dashboard/stats/route.ts:94-99 | one count per key, in key order, each the number of tickets in that status |
| DashboardStats.StatusCounts | src/app/api/dashboard/stats/route.ts:94-99 | one row per distinct stored status and for every stored status, each counting exactly the tickets in that status, so at least 1 |
| DashboardStats.CountSumIsGroupSizes | src/app/api/dashboard/stats/route.ts:94-99 | the counts of the rows add up to the sizes of the groups they count |
| DashboardStats.StatusCountsConserve | src/app/api/dashboard/stats/route.ts:94-99 | the per-status counts add up to the number of tickets |
| DashboardStats.ZeroMap | src/app/api/dashboard/stats/route.ts:119-125 | the map has exactly the given month keys, each at 0 |
| DashboardStats.FillSums | src/app/api/dashboard/stats/route.ts:128-135 | filling keeps the key set, and each key ends with its start value plus the fees of the deliveries in that month |
| DashboardStats.MonthlyRevenueMeaning | src/app/api/dashboard/stats/route.ts:101-135 | the monthly map has exactly the month keys, six when they are distinct, and each holds the fees of the tickets delivered since the cut-off in that month; deliveries in other months are dropped |
| DashboardStats.DashboardStats | src/app/api/dashboard/stats/route.ts:4-148 | today's intake counts the tickets created within today's window, pending and completed count the open and finished sets, today's revenue sums the fees of tickets DELIVERED within today's window, both changes are the guarded percentage against yesterday's figures, and the status breakdown and monthly revenue are the per-status counts and the per-month sums of the tickets |
| DashboardStats.OpenAndDoneBounded | src/app/api/dashboard/stats/route.ts:36-52 | pending plus completed tickets never exceed all tickets, whatever the stored statuses |
| DashboardStats.StatsBounded | src/app/api/dashboard/stats/route.ts:36-148 | in the reply, pending plus completed never exceed all tickets and the per-status counts add up to all of them |
| ServiceStats.Stats | src/app/api/services/stats/route.ts:4-132 | the active, completed and waiting counts cover all tickets whenever created, the revenue sums the fees of tickets DELIVERED since the first of this month, and each change is the guarded percentage against the same figure limited to last month's range |
| ServiceStats.StatsOrdering | src/app/api/services/stats/route.ts:12-62 | waiting tickets never outnumber active ones, and active plus completed never exceed all tickets |
| ServiceStats.LastDayExcluded | src/app/api/services/stats/route.ts:8-9 | a ticket created or delivered on last month's final day after midnight is left out of every last-month figure, because the range ends at that day's midnight |
| Reports.TotalsIn | src/app/api/reports/route.ts:101-111 | income and expense are the sums of the INCOME and the EXPENSE entries recorded in the window, the net profit is their difference and the count is the number of those entries |
| Reports.TotalsOfWindow | src/app/api/reports/route.ts:101-111 | the net profit is the signed sum of the ledger entries in the window, the count never exceeds the entries in the window, and equals it when every entry is INCOME or EXPENSE |
| Reports.PeriodRoundTrip | src/app/api/reports/route.ts:106 | the period text of a year and a 0-based month reads back as that year and the 1-based month |
| Reports.ParsePeriodOfJoin | src/app/api/reports/route.ts:106 | two digit strings joined by a dash read back as their two values |
| Reports.PaddedValue | src/app/api/reports/route.ts:106 | padding a month to two digits keeps it all digits and keeps its value |
| Reports.MonthlyReportOf | src/app/api/reports/route.ts:40-120 | the monthly report's period is the month's "YYYY-MM" text, its totals are those of the month's window, and an entry is listed as income (expense) exactly when it is an INCOME (EXPENSE) entry recorded from the first of the month to midnight starting its last day; the totals are the sums of those lists |
| Reports.OfKindMembers | src/app/api/reports/route.ts:45-63 | the entries of a type in a window are exactly the ledger's entries of that type recorded inside it, ends included |
| Reports.MonthWindowMissesLastDay | src/app/api/reports/route.ts:41-42 | an entry recorded after midnight on a month's last day, before the next month starts, is in neither that month's report nor the next month's |
| Reports.WindowMembers | src/app/api/reports/route.ts:45-63 | an entry is listed for a type and window exactly when it is in the ledger, has that type and is recorded inside the window, ends included |
| Reports.YearlyReportOf | src/app/api/reports/route.ts:122-217 | the yearly report carries the year asked for, totals over the year's window from 1 January to midnight starting 31 December, and twelve breakdown rows numbered 1 to 12 whose income, expense and count are those of each month's window, net being income minus expense |
| Reports.BreakdownMatchesMonthly | src/app/api/reports/route.ts:128-171 | each breakdown row carries the same income, expense, net and count as the monthly report of that month |
| Reports.ChangeOf | src/app/api/reports/route.ts:233-235 | the change is a finite percentage exactly when the base is non-zero, and then the percentage times the base is a hundred times the difference |
| Reports.ComparisonOf | src/app/api/reports/route.ts:220-240 | the comparison holds the summaries of the year asked for and the year before, and each change is finite exactly when the previous year's income, expense or profit is non-zero |
| Reports.ComparisonSigns | src/app/api/reports/route.ts:229-237 | the income change is relative to last year's income, and the profit change is positive exactly when the profit grew, even from a loss |
| Reports.ProfitChangeSign | src/app/api/reports/route.ts:235 | a change measured against the absolute previous figure is positive exactly when the figure grew |
| Reports.MonthShift | src/app/api/reports/route.ts:248 | shifting by d months gives a month between 0 and 11 whose absolute month count is the original plus d, carrying into the year |
| Reports.TrendsOf | src/app/api/reports/route.ts:242-287 | there are six trend rows, each with net equal to income minus expense |
| Reports.TrendRowsAreMonthlyTotals | src/app/api/reports/route.ts:247-268 | trend row k carries the period and the income, expense and net of the monthly report of the month 5 - k months back |
| Reports.TrendPeriods | src/app/api/reports/route.ts:247-280 | the six trend periods are consecutive months, oldest first, each reading back as a year and a month from 1 to 12, the last one being the current month |
| Reports.Report | src/app/api/reports/route.ts:4-38 | the report fails with 500 exactly when a monthly request's year or month, or a yearly or comparison request's year, does not parse; a trends request gives the six-month trend and any other type the general report of the current month and year with the trend |
| Reports.MonthlyDefaultsToCurrent | src/app/api/reports/route.ts:8-27 | a monthly request without year or month gives the same monthly report the general report shows |
| Reports.MonthlyOfCurrent | src/app/api/reports/route.ts:8-15 | a monthly request without year or month reports the current month |
| Reports.GeneralOfCurrent | src/app/api/reports/route.ts:290-305 | the general report's monthly part is the current month's report |
| Reports.DefaultParams | src/app/api/reports/route.ts:8-9 | absent year and month parameters read back as the current year and 0-based month |
| ReportsPage.MonthName | src/app/reports/page.tsx:111-117 | a month has a name exactly when it is between 1 and 12 |
| ReportsPage.MonthNamesDistinct | src/app/reports/page.tsx:111-117 | different months between 1 and 12 get different names |
| ReportsPage.MonthText | src/app/reports/page.tsx:111-138 | months 1 to 12 print as their Turkish names and any other month prints as "undefined" |
| ReportsPage.YearOptions | src/app/reports/page.tsx:337-345 | the year select offers five years, the current one first, each one less than the one before |
| ReportsPage.MonthOptions | src/app/reports/page.tsx:353-357 | the month select offers values 0 to 11, option i labelled with the name of month i + 1 |
| ReportsPage.SelectorsReachServer | src/app/reports/page.tsx:82-88 | any year and month the selectors offer reach the report handler as those numbers, and every report type is then served |
| ReportsPage.Breakdown | src/app/reports/page.tsx:136 | the page finds a yearly breakdown exactly in the general reply, under its `currentYear` key |
| ReportsPage.TrendRows | src/app/reports/page.tsx:443-463 | the trend rows are found exactly in the replies that have a `trends` key |
| ReportsPage.TrendTableNeverFilled | src/app/reports/page.tsx:443 | for every successful reply the page's nested trends reading finds nothing, although trends and general replies carry six rows under `trends`; a breakdown, when present, has twelve rows |
| ReportsPage.CsvLineFields | src/app/reports/page.tsx:138 | a CSV line has no newline and splits at its commas into exactly the month name, income, expense, net and count |
| ReportsPage.CsvRowsLines | src/app/reports/page.tsx:137-139 | the rows' text splits at newlines into one line per row, in order, then the empty text |
| ReportsPage.CsvContentLines | src/app/reports/page.tsx:133-142 | an export splits into the header, one line per breakdown row carrying that row's fields, and the empty text |
| ReportsPage.HeaderLine | src/app/reports/page.tsx:134 | the header is the first line of any export |
| ReportsPage.YearlyCsv | src/app/reports/page.tsx:133-142 | a yearly breakdown exports as the header and twelve lines, line k naming month k + 1 and carrying its figures; with no breakdown the export is the header alone |
| ReportsPage.TrendBadge | src/app/reports/page.tsx:463-490 | the first trend row has no badge; every other row's badge points up exactly when its net is at least the previous row's |
| ReportsPage.BadgeAgreesWithPercent | src/app/reports/page.tsx:465-488 | the badge's percentage is finite exactly when the previous net is non-zero, and then it is non-negative exactly when the badge points up |
| DashboardVisual.ProcessChartData | src/app/dashboard-visual/page.tsx:184-191 | with no trends the chart is empty; otherwise it has one row per trend row, in order, with the same figures and the period relabelled |
| DashboardVisual.ChartLabelOfPeriod | src/app/dashboard-visual/page.tsx:176-190 | the server's period text for a year and a 0-based month is relabelled as that month's Turkish name, a space and the year |
| DashboardVisual.TrendChartOfGeneralReport | src/app/dashboard-visual/page.tsx:146-191 | for the general report the page's nested reading gives an empty chart, while reading `trends` itself gives six rows, row k labelled with the name and year of the month five minus k months back |
| DashboardVisual.ChartOfTrends | src/app/dashboard-visual/page.tsx:184-191 | six trend rows relabel to six chart rows, row k showing its month's name and year |
| DashboardVisual.Labelled | src/app/dashboard-visual/page.tsx:198-203 | one slice per group, the i-th named "Servis i+1" with the group's amount and count and the i-th colour, cycling through eight |
| DashboardVisual.ServiceDataTopEight | src/app/dashboard-visual/page.tsx:193-206 | the pie has the eight largest positive groups, or all of them when fewer, largest first, each a labelled positive group, and no group left out is larger than a slice shown |
| DashboardVisual.LabelledPositive | src/app/dashboard-visual/page.tsx:197-203 | every labelled slice has a positive value |
| DashboardVisual.FirstNameNotLargest | src/app/dashboard-visual/page.tsx:198-204 | names follow the input order, not the size: with a smaller group first, the largest slice is named "Servis 2" |
| DashboardVisual.LargerSecondComesFirst | src/app/dashboard-visual/page.tsx:197-205 | of two positive groups, a larger second one becomes the first slice |
| DashboardVisual.PositiveKept | src/app/dashboard-visual/page.tsx:197 | when every group is positive the filter keeps them all, in order |
| DashboardVisual.SortedPair | src/app/dashboard-visual/page.tsx:204 | two slices with the second one larger sort into the swapped order |
| DashboardOverview.Slices | src/components/dashboard/dashboard-overview.tsx:131-135 | one slice per reply entry, in order, each named by the overview's label of its status and sized by its count |
| DashboardOverview.TotalOfSlices | src/components/dashboard/dashboard-overview.tsx:131-137 | the slices' total is the sum of the reply's per-status counts |
| DashboardOverview.PieCountsEveryTicket | src/components/dashboard/dashboard-overview.tsx:131-137 | for the stats reply each slice carries its status' label and count, and the total in the middle of the pie is the number of tickets in the store |
| DashboardOverview.PieOfStats | src/components/dashboard/dashboard-overview.tsx:131-137 | for any stats reply there is one slice per count, labelled by status, and the total is the sum of the counts |
| DashboardOverview.TopLevelNumber | src/components/dashboard/dashboard-overview.tsx:25-32 | a top-level field of the reply reads as a number only when the reply carries that key |
| DashboardOverview.ChangesNeverShown | src/components/dashboard/dashboard-overview.tsx:218-300 | the reply has no top-level `revenueChange` or `todayServiceChange`, so both captions read "Hesaplanıyor..." whatever the figures |
| DashboardOverview.RevenueCaptionMeaning | src/components/dashboard/dashboard-overview.tsx:296-300 | a known revenue change never shows the placeholder; it reads "Değişiklik yok" exactly when it is 0 and ends in "artış" exactly when it is positive |
| DashboardOverview.CorrectedRevenueMeaning | src/components/dashboard/dashboard-overview.tsx:296-300 | read from `changes`, the revenue caption is never the placeholder, reads "Değişiklik yok" exactly when yesterday had no revenue or today matched it, and ends in "artış" exactly when today beat a positive yesterday |
| Activities.FloorTwice | src/app/api/dashboard/activities/route.ts:105-113 | flooring a quotient and flooring again is flooring by the product, so hours and days are whole hours and days of the elapsed time |
| Activities.AgoOf | src/app/api/dashboard/activities/route.ts:103-117 | under a minute, a time in the future included, reads "now"; otherwise the elapsed time lies within the whole minutes (1 to 59), hours (1 to 23) or days (1 to 6) reported, and from seven days on the date is shown |
| Activities.AgoMonotone | src/app/api/dashboard/activities/route.ts:103-117 | a longer elapsed time never falls in an earlier bucket, and within one bucket never shows a smaller count |
| Activities.TicketActivities | src/app/api/dashboard/activities/route.ts:45-69 | a ticket gives two entries when its status is COMPLETED with a completion time, and one otherwise |
| Activities.CustomerActivities | src/app/api/dashboard/activities/route.ts:72-82 | one CUSTOMER_ADDED entry per customer, in order |
| Activities.Top | src/app/api/dashboard/activities/route.ts:84-87 | the six newest merged entries, or all when fewer, newest first, drawn from the merged entries no more often than they occur there, none older than any entry left behind it |
| Activities.RecentActivities | src/app/api/dashboard/activities/route.ts:84-93 | the reply holds min(6, merged) entries, the six newest of the merged list, newest first, each with its relative time at `now` |
| Activities.NoCompletionEntries | src/app/api/dashboard/activities/route.ts:58 | when every stored status is one of the nine, no completion entry is made, so the list has one entry per recent ticket and customer, at most eight |
| Activities.StoredStatusNotCompleted | src/app/api/dashboard/activities/route.ts:58 | a ticket whose status is one of the nine never shows a completion |
| Activities.OnlyCreations | src/app/api/dashboard/activities/route.ts:45-69 | tickets that show no completion give exactly one SERVICE_CREATED entry each |
| Activities.ActivityIdInjective | src/app/api/dashboard/activities/route.ts:48-74 | with dash-free entity ids, equal activity ids have the same prefix and the same entity id |
| Activities.TicketIdsDistinct | src/app/api/dashboard/activities/route.ts:45-69 | tickets with distinct dash-free ids give entries with distinct ids, each derived from one of those tickets |
| Activities.MergedIdsDistinct | src/app/api/dashboard/activities/route.ts:45-82 | ticket and customer entries of distinct dash-free entities have distinct ids |
| CustomerAnalytics.StepMatchesAcc | src/app/api/customer-analytics/route.ts:54-71 | one step of the loop, from nothing or from a customer's totals so far, gives the totals of that customer's tickets with the new one appended |
| CustomerAnalytics.RecordStep | src/app/api/customer-analytics/route.ts:54-71 | recording one more ticket keeps the map equal to the per-customer totals of the tickets seen, with the keys in first-seen order |
| CustomerAnalytics.AccumulateByCustomer | src/app/api/customer-analytics/route.ts:52-71 | the loop's map has exactly the customers of the tickets, in first-seen order, each with its ticket count, the sum of its INCOME amounts, and the times of the first and last of its tickets seen |
| CustomerAnalytics.TierMonotone | src/app/api/customer-analytics/route.ts:94-102 | more tickets never give a lower tier |
| CustomerAnalytics.DaysSince | src/app/api/customer-analytics/route.ts:91 | the day count is the whole number of days elapsed, rounded down |
| CustomerAnalytics.LoyaltyEntryOf | src/app/api/customer-analytics/route.ts:82-92 | a customer's loyalty entry holds its ticket count (at least 1), the sum of its INCOME amounts, the average per ticket, and the first and last of its tickets in newest-first order |
| CustomerAnalytics.LoyaltyEntries | src/app/api/customer-analytics/route.ts:35-103 | one loyalty entry per customer, in first-seen order of the newest-first ticket list |
| CustomerAnalytics.FirstIsNewestLastIsOldest | src/app/api/customer-analytics/route.ts:46-70 | because tickets come newest first, a customer's `firstService` is its newest ticket and `lastService` its oldest, every ticket of the customer lying between them |
| CustomerAnalytics.TierCountsPartition | src/app/api/customer-analytics/route.ts:94-121 | every customer is in exactly one tier, so the four tier counts add up to the number of customers |
| CustomerAnalytics.ServiceCountsConserve | src/app/api/customer-analytics/route.ts:54-71 | the per-customer ticket counts add up to the number of tickets |
| CustomerAnalytics.SegmentConditions | src/app/api/customer-analytics/route.ts:193-205 | Champions needs at least 5 tickets, 5000 spent and a ticket within 90 days; NewCustomers exactly one recent ticket; AtRisk 2000 spent, a last ticket between a year and 90 days old and no better segment; Lost a last ticket over a year old; a recent segment exactly a ticket within 90 days and either one ticket or two with 1000 spent |
| CustomerAnalytics.SegmentGaps | src/app/api/customer-analytics/route.ts:193-205 | a recent customer with two tickets and under 1000 spent, a customer whose last ticket is exactly 90 days old, and a low spender between 90 days and a year fall in no segment |
| CustomerAnalytics.SegmentEntryOf | src/app/api/customer-analytics/route.ts:139-190 | a customer's segmentation entry holds its ticket count (at least 1), the sum of its INCOME amounts and the time of its last ticket in the store's order |
| CustomerAnalytics.SegmentEntries | src/app/api/customer-analytics/route.ts:126-190 | one segmentation entry per customer, in first-seen order |
| CustomerAnalytics.SegmentSizes | src/app/api/customer-analytics/route.ts:209-217 | the group sizes over the six segments are the six segment counts added up |
| CustomerAnalytics.SegmentCountsBounded | src/app/api/customer-analytics/route.ts:193-217 | no customer is in two segments, so the six counts add up to the segmented customers, at most all customers |
| CustomerAnalytics.LoyaltyRoute | src/app/api/customer-analytics/route.ts:4-49 | the loyalty request answers 500 with the analysis error exactly when the ORM refuses the query's `include`, and otherwise 200 with one entry per customer and the tier summary of those entries |
| CustomerAnalytics.SegmentationRoute | src/app/api/customer-analytics/route.ts:126-137 | the segmentation request answers 500 with the analysis error exactly when the ORM refuses the query's `include`, and otherwise 200 with the segmentation entries |
| CustomerAnalytics.AnalysesFailAsWritten | src/app/api/customer-analytics/route.ts:37-49 | as written both queries put a `where` on the to-one `financialRecord`, so loyalty and segmentation answer 500 for every store |
| CustomerAnalytics.AnalysesAnswerCorrected | src/app/api/customer-analytics/route.ts:67-69 | reading the ledger entry whole makes both requests answer 200 with their analyses |
| CustomerAnalyticsPage.RiskMonotone | src/app/customer-analytics/page.tsx:463-467 | a higher churn probability never gets a lower risk label; the label is high exactly from 0.8 and medium exactly from 0.6 below 0.8 |
| CustomerAnalyticsPage.LoyaltyWedgesTotal | src/app/customer-analytics/page.tsx:354-363 | the five loyalty wedges add up to the four tier counts, the diamond wedge counting 0 |
| CustomerAnalyticsPage.LoyaltyChartCoversCustomers | src/app/customer-analytics/page.tsx:354-363 | the loyalty pie has at most four wedges, none empty and none Diamond, and together they count every customer once |
| CustomerAnalyticsPage.SegmentWedgesTotal | src/app/customer-analytics/page.tsx:366-379 | the nine segment wedges add up to the six segment counts, the three segments the reply lacks counting 0 |
| CustomerAnalyticsPage.SegmentChartCoversSegmented | src/app/customer-analytics/page.tsx:366-379 | the segment pie's wedges are non-empty and together count each segmented customer once, at most every customer |
| CustomerAnalyticsPage.TopLabelVersusTier | src/app/customer-analytics/page.tsx:974-978 | for a gold or platinum customer the printed level equals its tier exactly when it has neither exactly 10 tickets nor 15 or more |
| CustomerAnalyticsPage.TopRowsShape | src/app/customer-analytics/page.tsx:974-975 | the top table has at most 15 rows, all gold or platinum customers, every platinum row above every gold row |
| CustomerAnalyticsPage.Tagged | src/app/customer-analytics/page.tsx:1156-1157 | a segment contributes at most three rows, each a customer of that segment tagged with it |
| CustomerAnalyticsPage.FlatTagged | src/app/customer-analytics/page.tsx:1155-1158 | the flattened rows number at most three per segment, each tagged with the segment its customer is in |
| CustomerAnalyticsPage.SegmentRowsUncapped | src/app/customer-analytics/page.tsx:1155-1159 | six segments of at most three rows give at most 18, so the 20-row cap never cuts the table, and every row sits in the segment it is tagged with |
| TechnicianAnalytics.ServiceTimes | src/app/api/technician-analytics/route.ts:113-116 | one duration is collected per ticket that has a completion time and none for the others |
| TechnicianAnalytics.Ratio | src/app/api/technician-analytics/route.ts:121-127 | a guarded average is the quotient when the count is positive (result times count gives back the total) and 0 over nothing |
| TechnicianAnalytics.EntryOf | src/app/api/technician-analytics/route.ts:86-128 | a technician's entry counts its at least one ticket, only COMPLETED ones as completed, sums their incomes, and derives completion rate, average revenue and average service time (0 when no ticket has a completion time) |
| TechnicianAnalytics.CountsConserved | src/app/api/technician-analytics/route.ts:86-144 | the entry counts add up to the number of assigned tickets, which is at most the number of tickets |
| TechnicianAnalytics.OneEntryPerTechnician | src/app/api/technician-analytics/route.ts:86-101 | one entry per distinct technician, never for an unassigned ticket, and every assigned ticket's technician has an entry |
| TechnicianAnalytics.CompletedNeverCounted | src/app/api/technician-analytics/route.ts:108-110 | when every ticket carries one of the nine workflow statuses, no entry counts a completed ticket and every completion rate is 0 |
| TechnicianAnalytics.SortRanked | src/app/api/technician-analytics/route.ts:131-132 | the sorted entries are a permutation of the entries with no entry outranked (more revenue, or equal revenue and more completions) by a later one |
| TechnicianAnalytics.Ranking | src/app/api/technician-analytics/route.ts:131-137 | ranks are positions plus one, the order is by revenue then completions descending, and the ranked entries are a permutation of the entries |
| TechnicianAnalytics.TopRankHasMostRevenue | src/app/api/technician-analytics/route.ts:131-137 | rank 1 has the highest revenue of all technicians |
| TechnicianAnalytics.TechnicianPerformance | src/app/api/technician-analytics/route.ts:37-152 | one ranked entry per technician of the period's tickets, the ranked entries a permutation of the period's per-technician entries, ordered by revenue then completions descending, ranks numbered from 1; the summary counts and sums every ticket of the period, assigned or not |
| TechnicianAnalytics.FilterKeepsOneTechnician | src/app/api/technician-analytics/route.ts:38-41 | with a technician filter every ranked entry is that technician |
| TechnicianAnalytics.UtilizationRate | src/app/api/technician-analytics/route.ts:325-331 | utilization is two hours per ticket over 176 possible hours, in percent, i.e. 25n/22 |
| TechnicianAnalytics.DaysBetweenOneAndCount | src/app/api/technician-analytics/route.ts:316-323 | a non-empty ticket list spans between one and n distinct days, so tickets per day lie between 1 and n |
| TechnicianAnalytics.QuotientBounds | src/app/api/technician-analytics/route.ts:322 | n divided by a day count between 1 and n lies between 1 and n |
| TechnicianAnalytics.EfficiencyOf | src/app/api/technician-analytics/route.ts:216-226 | revenue per hour is the technician's revenue over two hours per ticket, tickets per day lie between 1 and the ticket count, and utilization follows the ticket count |
| TechnicianAnalytics.Efficiency | src/app/api/technician-analytics/route.ts:154-229 | one efficiency entry per technician of the period's tickets, in first-seen order |
| TechnicianAnalytics.PerformanceRoute | src/app/api/technician-analytics/route.ts:4-80 | the performance request answers 500 with the analysis error exactly when the ORM refuses the query's `include` (a name that is no ticket relation, or a `where` on a to-one relation), and otherwise 200 with the performance analysis |
| TechnicianAnalytics.EfficiencyRoute | src/app/api/technician-analytics/route.ts:154-193 | the efficiency request answers 500 with the analysis error exactly when the ORM refuses the query's `include`, and otherwise 200 with the efficiency entries |
| TechnicianAnalytics.AnalysesFailAsWritten | src/app/api/technician-analytics/route.ts:69-77 | as written both queries include `financialRecords`, which is not a ticket relation, so performance and efficiency answer 500 for every store |
| TechnicianAnalytics.AnalysesAnswerCorrected | src/app/api/technician-analytics/route.ts:102-105 | including the ticket's ledger entry as `financialRecord` makes both requests answer 200 with their analyses |
| TechnicianPage.FormatTimeBounds | src/app/technician-analytics/page.tsx:152-156 | for a non-negative duration the minutes lie in 0..59 and the hours and minutes shown account for the duration to within one minute |
| TechnicianPage.NegativeDuration | src/app/technician-analytics/page.tsx:152-156 | a duration one millisecond below zero shows as -1 hours and -1 minutes, since floor and the truncating remainder round differently |
| TechnicianPage.FirstWord | src/app/technician-analytics/page.tsx:162 | the chart name is a prefix of the full name containing no space, and the whole name when it has no space |
| TechnicianPage.ChartData | src/app/technician-analytics/page.tsx:158-167 | no bars without data, else one bar for each of the first ten technicians in order, carrying the first word of its name and its count, revenue and completion rate unchanged |
| TechnicianPage.FirstBarHasMostRevenue | src/app/technician-analytics/page.tsx:158-167 | charting the ranking, the first bar carries the highest revenue of every technician, charted or not |
| TechnicianPage.ChartThrowsWithAnyTechnician | src/app/technician-analytics/page.tsx:161-162 | as written, one assigned ticket in the period makes the chart read the missing name key and throw |
| NotificationsPage.CalculateStats | src/app/notifications/page.tsx:80-94 | the total is the number of fetched logs; sent and failed count the logs with status SENT and FAILED, and today counts the logs, of any status, whose sending time falls on today's local day; none exceeds the total |
| NotificationsPage.SentPlusFailed | src/app/notifications/page.tsx:85-87 | when every log is SENT or FAILED, the sent and failed counters add up to the total |
| NotificationsPage.DisplayedIsFilter | src/app/notifications/page.tsx:158-179 | the shown list is an order-preserving subsequence of the fetched logs holding exactly those with the chosen status (any status for "all") that match the lower-cased query in subject, e-mail, ticket number or customer name (any log for a blank query) |
| NotificationsPage.TypeLabels | src/app/notifications/page.tsx:196-204 | the four known types get four distinct labels, none itself a type name, and any other type is shown unchanged; keys inherited from `Object.prototype` (such as `toString`) count as other types here, unlike in the page |
| ServiceForm.FilteredCustomersExact | src/components/services/service-form.tsx:128-141 | the picker is an order-preserving subsequence of the customers: all of them for a blank search, else exactly those whose name, phone or e-mail contains the lower-cased term |
| ServiceForm.TextOr | src/components/services/service-form.tsx:103-110 | an optional text field falls back to its default exactly when it is absent or empty |
| ServiceForm.InitialForm | src/components/services/service-form.tsx:98-110 | a new form is all empty with no technician chosen; an edit form copies the ticket's fields, '' for absent ones, and "UNASSIGNED" when it has no technician |
| ServiceForm.Submit | src/components/services/service-form.tsx:177-183 | the body is the form unchanged except that "UNASSIGNED" becomes null; a ticket with an id is updated with PUT at its own path, anything else is created with POST |
| ServiceForm.UntouchedTechnician | src/components/services/service-form.tsx:98-180 | submitting an untouched edit form sends back the ticket's technician, or null when it had none |
| ServiceForm.AsCreateBody | src/components/services/service-form.tsx:177-188 | the creation endpoint receives the chosen technician and the estimate as the typed text |
| ServiceForm.CreateFromForm | src/components/services/service-form.tsx:177-188 | a new ticket from the form is created exactly when customer, device type, brand, model and problem are non-empty, the chosen customer is stored and the chosen technician is "UNASSIGNED" or a stored user; it then holds the form's values, an empty estimate stored as null and "UNASSIGNED" as no technician |
| ServiceList.QueryOf | src/components/services/service-list.tsx:97-102 | the request asks for the component's page with a limit of 10, carries the status exactly when a real status (not "ALL") is chosen and the search exactly when it is non-empty |
| ServiceList.QueryPaging | src/components/services/service-list.tsx:97-102 | the server reads back the component's page and a limit of 10, and accepts the paging exactly when the page is at least 1 |
| ServiceList.QuerySelection | src/components/services/service-list.tsx:97-102 | a ticket is listed exactly when it matches the non-empty search and has the chosen status |
| ServiceList.StatusLabels | src/components/services/service-list.tsx:353-358 | each of the nine statuses shows its own label, never its stored name, and any other string is shown as it is |
| ServiceList.LabelLengths | src/components/services/service-list.tsx:65-75 | the nine labels have nine different lengths, none equal to that of its status name |
| ServiceList.FilterOptionsMatchLabels | src/components/services/service-list.tsx:43-54 | the filter select offers "ALL" then the nine statuses in workflow order, each with the label its rows show |
| ServiceList.FeeCellOf | src/components/services/service-list.tsx:364-368 | a ledger amount is always shown; without one the estimate is shown exactly when it is a finite non-zero number, otherwise "-" |
| ServiceList.ZeroFees | src/components/services/service-list.tsx:364-368 | a zero ledger amount is shown as an amount while a zero estimate is shown as "-" |
| ServiceList.PressKeepsRange | src/components/services/service-list.tsx:417-434 | pager presses keep the page within 1..totalPages, move it by at most one and change nothing else; a disabled button does nothing |
| ServiceList.Cleared | src/components/services/service-list.tsx:242-250 | clearing the filters leaves no filter to clear, returns to page 1 and keeps the page count |
| ServiceList.ClearShownIffFiltered | src/components/services/service-list.tsx:242-250 | the clear button shows exactly when the request carries a search or status, and after clearing it carries neither |
| ServiceList.Searched | src/components/services/service-list.tsx:162-166 | submitting the search returns to page 1 and keeps the search and status filter |
| ServiceList.OnListed | src/components/services/service-list.tsx:106-108 | a successful fetch stores the server's page count |
| ServiceList.PagerAfterFetch | src/components/services/service-list.tsx:106-108 | a fetch at a page from 1 on succeeds, and the pager then shows exactly when more than ten tickets match |
| SearchPage.Requests | src/app/search/page.tsx:65-85 | a query that is blank once trimmed sends nothing; any other sends the untrimmed query with limit 50 to the ticket list and to the customer list |
| SearchPage.TicketRequestPaging | src/app/search/page.tsx:77-83 | the ticket request is served as page 1 of at most 50 tickets, every one matching the query |
| SearchPage.SearchPaging | src/app/search/page.tsx:77-80 | a request with no page and limit "50" is read as page 1 of 50 |
| SearchPage.CardTitles | src/app/search/page.tsx:91-99 | every ticket card is titled "Servis #" followed by its number |
| SearchPage.MergeShape | src/app/search/page.tsx:87-120 | every ticket and every customer gets exactly one card, the cards are a permutation of the two lists and come newest first |
| SearchPage.PerformSearch | src/app/search/page.tsx:64-132 | a blank query only shows the no-term toast; a customers reply that is a bare array ends in the failure toast; on any toast the previous results stay; otherwise one card per returned ticket and customer, newest first |
| SearchPage.SearchNeverShowsResults | src/app/search/page.tsx:103-128 | as written, whenever the customer list answers, the search ends in the failure toast and keeps the previous results |
| SearchPage.CorrectedSearchShowsBoth | src/app/search/page.tsx:87-122 | read as an array, a search shows one card per matching ticket and customer, newest first, and a customer appears exactly when the customer list returns it |
| SettingsPage.LoadPrefersSaved | src/app/settings/page.tsx:129-160 | on load a saved group key wins over its default, a missing key takes the default, and a missing top-level field stays missing instead of taking the initial value |
| SettingsPage.EmptySavedDiffers | src/app/settings/page.tsx:53-160 | loading an empty saved object gives the initial groups except the SMTP sender address, and leaves the top-level fields missing |
| SettingsPage.SaveLoadRoundTrip | src/app/settings/page.tsx:110-160 | saving the settings as JSON and loading them back gives exactly the settings saved |
| SettingsPage.LoadSettles | src/app/settings/page.tsx:110-160 | saving what was loaded and loading it again changes nothing |
| SettingsPage.Mount | src/app/settings/page.tsx:166-178 | on mount, unparseable stored text is removed and the initial state stays, nothing stored keeps the initial state, and a parsed object is loaded |
| SettingsPage.SaveThenMount | src/app/settings/page.tsx:110-178 | after a save, a later visit shows exactly what was saved |
| SettingsPage.UpdateNotificationOnly | src/app/settings/page.tsx:180-193 | a notification switch reads back the value set, every other switch keeps its value, and nothing outside the notification group changes |
| SettingsPage.UpdateAppearanceOnly | src/app/settings/page.tsx:195-206 | an appearance setter changes exactly its own key and nothing outside the appearance group |
| SettingsPage.PortFromInput | src/app/settings/page.tsx:511 | the stored port is never 0 |
| SettingsPage.PortRoundTrip | src/app/settings/page.tsx:511 | a non-zero port typed as its decimal text is stored as that port, while 0 and text that does not parse fall back to 587 |
| SettingsPage.SetPort | src/app/settings/page.tsx:508-512 | the port input sets the parsed port and keeps every other SMTP field and every other setting |
| Records.PaginationOf | src/app/api/services/route.ts:37 | the page count is the least number of limit-sized pages that hold the total: enough pages, and no empty last page |
| Js.FilledIsTruthy | src/app/api/customers/route.ts:55 | a string field passes a `!field` guard exactly when it is present and non-empty |
| Js.ParseNumber | src/app/api/services/route.ts:121 | parsing a number gives NaN exactly when the text has no decimal prefix, and otherwise the prefix's value |
| Numeric.ParseIntOfIntToString | src/app/api/services/route.ts:9 | reading an integer's decimal text back with parseInt gives the same integer, negative ones included |
| Numeric.ParseIntOfNatToString | src/app/api/finance/route.ts:9 | reading a natural number's decimal text back with parseInt gives the same number |

## Left out

- Database and ORM behaviour: the store is a set of sequences. Case-insensitive matching, relation includes and `groupBy`/`aggregate` are modelled by their results, except that the analytics routes check an `include` against the ticket relations (Records.IncludeAccepted): per-ticket sums instead of grouped sums, and a null sum as 0. Of the schema's constraints only the relations the two creation handlers write are checked (a ticket's customer and technician, an entry's ticket); uniqueness constraints are not part of this model, since the schema is not.
- Server-side status update handlers (`PUT /api/services/{id}` and `/api/services/{id}/status`): only what the clients send them is modelled. Timestamp stamping, ledger upserts and notification calls on update are not part of this model.
- The mail transport: sending is an opaque yes/no answer. A "no" answer or an exception gives a 500 reply with the log unchanged. The FAILED log in the e-mail route's catch block is not promised, since it uses names declared inside the `try` block.
- A ticket whose customer row is missing gives a 500 reply in the e-mail route, standing for the exception thrown on `service.customer.name`.
- Calendar arithmetic (`new Date(y, m, 0)`, `setHours`, `setMonth`, UTC month keys, `toDateString`): supplied as functions, so daylight-saving and month-length effects are not modelled. The technician period start is a parameter.
- Number formatting (`toFixed`, `toLocaleString`, `Intl.NumberFormat`): rendering is the `show` parameter or not modelled. JavaScript's general number-to-text conversion is modelled only for integers.
- Case mapping and white space: `toLowerCase` and `toUpperCase` (Util.Lower, Util.Upper) map ASCII letters only and keep the length, so Turkish-locale mapping (dotted and dotless i) and expansions such as "ß" to "SS" are not modelled; this reaches the stored ledger type (FinanceApi.CreateRecord, FinanceApi.SelectionExact, FinanceApi.KindFilterSummary, FinanceApi.UpperIdempotent). White space for `trim()`, the blank checks and `parseInt`/`parseFloat` (Util.IsWhitespace) is the six ASCII characters space, tab, LF, CR, VT and FF; no-break space, the byte order mark, the line and paragraph separators and the other Unicode spaces are treated as text, so a query of one no-break space sends requests in the model (SearchPage.Requests) where JavaScript sends none.
- `parseInt`/`parseFloat`: decimal text only. Hexadecimal, exponents and `Infinity` are not modelled.
- ServicesApi.ListServices: a page or limit below 1, or one that does not parse, gives a 500 reply. The ORM refuses only a negative or NaN `skip`. So the source answers 500 for a page below 1 or an unparsed value, but 200 in two cases the model refuses. With `limit=0` it answers 200 with an empty page and a null page count (`Math.ceil` of a division by zero). With a negative limit and a `skip` of at least 0 (page 1, say) it answers 200 with that many tickets taken from the end of the ordering, and a negative page count. Neither case is modelled.
- FinanceApi.ListRecords: the same. `limit=0` and a negative limit with a non-negative `skip` are answered 200 by the source, as described for ServicesApi.ListServices, and 500 by the model.
- Technician analytics: `getTechnicianComparison`, `getGeneralTechnicianAnalytics`, `calculateEfficiency`, `calculateOverallScore` and the averages in the efficiency summary are not modelled. They are weighted floating-point scores with no stated promise.
- TechnicianAnalytics.SortRanked: the contract states order and permutation; stability is not stated in it. The insertion puts each entry before the first entry that does not outrank it, so ties keep their input order as `Array.prototype.sort` does, but no lemma says so.
- Customer analytics: the retention analysis (src/app/api/customer-analytics/route.ts:222-316) is not modelled. As written its query puts the same refused `where` on `financialRecord`, so it answers 500 like loyalty and segmentation; it also reads `financialRecords` where the query would give `financialRecord`.
- The visual dashboard's service pie: the page reads `serviceAnalysis` at the top level of the general report, where the report does not put it. Only `processServiceData` is modelled, over the groups it is given.
- ServiceList.FeeCellOf: the list reply includes no financial record, so for listed tickets only the estimate branch is reachable. The record branch is modelled as written.
- NotificationsPage.TypeLabels: keys inherited from `Object.prototype` (such as `toString`) are treated as unknown types.
- Reports.Report: a year or month that parses but lies outside the Date range (about 275,760 years either side of 1970, e.g. `?type=monthly&month=4000000`) makes an Invalid Date, which the ORM refuses, so the source answers 500. The model answers 200, since the `Calendar` parameter is total.
- Reports.MonthlyReportOf: the monthly reply's `serviceAnalysis` (INCOME sums grouped by ticket) and `dailyTrends` (sums grouped by type and timestamp) are not modelled. They are `groupBy` results with no promise beyond the store's own.
- SettingsPage.Mount: stored text that parses to something other than an object (such as `null`) is not modelled.
- Browser storage I/O, React state, effects, polling, toasts, charts and animation are not modelled. The settings page's storage content is a parameter.
- Authentication, routing, layout and navigation, seed scripts, and the thin list routes for users and notification logs are outside this model.

## Findings

| source | as written | input that shows it | evidently intended | confidence | as-written member | corrected member |
|---|---|---|---|---|---|---|
| src/app/reports/page.tsx:443 | the trend table reads `data.trends?.trends`, but the report's `trends` key holds the row array itself | any trends or general report | the six rows under `data.trends` are shown | not executed | ReportsPage.TrendTableNeverFilled | ReportsPage.TrendRows |
| src/app/dashboard-visual/page.tsx:184-191 | the trend chart reads the nested `trends.trends` of the general report, so it is always empty | any general report | six chart rows, each labelled with its month and year | not executed | DashboardVisual.TrendChartOfGeneralReport | DashboardVisual.ChartOfTrends |
| src/components/dashboard/dashboard-overview.tsx:296-300 | the change captions read `revenueChange` and `todayServiceChange` at the top level, but the stats reply nests them under `changes` | any stats reply | the caption shows the reported revenue change | not executed | DashboardOverview.ChangesNeverShown | DashboardOverview.CorrectedRevenueMeaning |
| src/app/search/page.tsx:103-106 | reads `customerData.customers`, but the customer list replies with a bare array, so `forEach` on undefined throws | any non-blank query while the customer list answers | the matching tickets and customers are shown, newest first | not executed | SearchPage.SearchNeverShowsResults | SearchPage.CorrectedSearchShowsBoth |
| src/app/technician-analytics/page.tsx:161-162 | the chart reads `tech.name`, but each ranked entry keeps the name under `technician`, so `split` on undefined throws | once the route's relation name is corrected (next row), a period with one assigned ticket | bars named by the first word of the technician's name | not executed | TechnicianPage.ChartThrowsWithAnyTechnician | TechnicianPage.FirstBarHasMostRevenue |
| src/app/api/technician-analytics/route.ts:69-77 | the performance and efficiency queries include `financialRecords`, which is not a relation of a ticket (the ticket detail includes the to-one `financialRecord`), so the ORM refuses them and every analysis type answers 500 | `?type=performance` on any store | each ticket's INCOME amounts are summed into its technician's revenue | not executed | TechnicianAnalytics.AnalysesFailAsWritten | TechnicianAnalytics.AnalysesAnswerCorrected |
| src/app/api/customer-analytics/route.ts:37-49 | the loyalty and segmentation queries put `where: { type: 'INCOME' }` on `financialRecord`, a to-one relation, which the ORM refuses, so every analysis type answers 500; the handlers then call `reduce` on it as if it were a list | `?type=loyalty` on any store | each ticket's INCOME amount is added to its customer's spending | not executed | CustomerAnalytics.AnalysesFailAsWritten | CustomerAnalytics.AnalysesAnswerCorrected |

=== FILE: activities.dfy ===
/** `GET /api/dashboard/activities`: the five newest tickets and three newest
    customers become activity entries, which are merged, sorted newest first,
    cut to six and labelled with a relative time. The current time and the
    date rendering for old entries are parameters. */
module Activities {
  import opened Util
  import opened Numeric
  import opened Records
  import opened Status

  // ---------------------------------------------------------------------------
  // Relative time
  // ---------------------------------------------------------------------------

  const MinuteMs := 60000
  const HourMs := 3600000

  /** The bucket `getTimeAgo` picks for an elapsed time, with its whole count. */
  datatype Ago = JustNow | MinutesAgo(n: nat) | HoursAgo(n: nat) | DaysAgo(n: nat) | OnDate

  /** `Math.floor` of a quotient by a positive divisor, taken twice, is the
      floor of the quotient by the product. */
  lemma {:induction false} FloorTwice(a: int, b: int, c: int)
    requires b > 0 && c > 0
    ensures (a / b) / c == a / (b * c)
  {
    var q := a / b;
    var r := a % b;
    var q2 := q / c;
    var r2 := q % c;
    var rem := b * r2 + r;
    assert a == b * q + r;
    assert q == c * q2 + r2;
    Distribute(b, c, q2, r2);
    assert b * q == (b * c) * q2 + b * r2;
    assert a == (b * c) * q2 + rem;
    RemainderBelow(b, c, r2, r);
    DivUnique(a, b * c, q2, rem);
  }

  lemma {:induction false} Distribute(b: int, c: int, q2: int, r2: int)
    ensures b * (c * q2 + r2) == (b * c) * q2 + b * r2
  {
  }

  lemma {:induction false} RemainderBelow(b: int, c: int, r2: int, r: int)
    requires b > 0 && 0 <= r2 < c && 0 <= r < b
    ensures 0 <= b * r2 + r < b * c
  {
    assert b * r2 <= b * (c - 1);
  }

  /** A multiple of `d` strictly between `-d` and `d` is 0. */
  lemma {:induction false} MulBetween(d: int, k: int, x: int)
    requires d > 0 && d * k == x && -d < x < d
    ensures k == 0
  {
  }

  lemma {:induction false} DivUnique(a: int, d: int, q: int, r: int)
    requires d > 0 && a == d * q + r && 0 <= r < d
    ensures a / d == q
  {
    var q' := a / d;
    var r' := a % d;
    assert d * q' + r' == d * q + r;
    MulBetween(d, q' - q, r - r');
  }

  /** The bucket of an elapsed time in milliseconds (`now - time`): under a
      minute (including a time in the future), whole minutes under an hour,
      whole hours under a day, whole days under a week, or a calendar date. */
  function AgoOf(elapsed: int): (a: Ago)
    ensures a == JustNow <==> elapsed < MinuteMs
    ensures a.MinutesAgo? ==> 1 <= a.n < 60 && a.n * MinuteMs <= elapsed < (a.n + 1) * MinuteMs
    ensures a.HoursAgo? ==> 1 <= a.n < 24 && a.n * HourMs <= elapsed < (a.n + 1) * HourMs
    ensures a.DaysAgo? ==> 1 <= a.n < 7 && a.n * DayMs <= elapsed < (a.n + 1) * DayMs
    ensures a == OnDate <==> elapsed >= 7 * DayMs
  {
    var minutes := elapsed / MinuteMs;
    if minutes < 1 then JustNow
    else if minutes < 60 then MinutesAgo(minutes)
    else
      var hours := minutes / 60;
      FloorTwice(elapsed, MinuteMs, 60);
      if hours < 24 then HoursAgo(hours)
      else
        var days := hours / 24;
        FloorTwice(elapsed, HourMs, 24);
        if days < 7 then DaysAgo(days) else OnDate
  }

  /** `getTimeAgo(time)` at `now`; `dateText` renders a date. */
  function TimeAgo(now: int, time: int, dateText: int -> string): string
  {
    match AgoOf(now - time)
    case JustNow => "Şimdi"
    case MinutesAgo(n) => NatToString(n) + " dakika önce"
    case HoursAgo(n) => NatToString(n) + " saat önce"
    case DaysAgo(n) => NatToString(n) + " gün önce"
    case OnDate => dateText(time)
  }

  /** Later times never read as further back: the bucket order follows the
      elapsed time. */
  function AgoRank(a: Ago): nat
  {
    match a
    case JustNow => 0
    case MinutesAgo(_) => 1
    case HoursAgo(_) => 2
    case DaysAgo(_) => 3
    case OnDate => 4
  }

  lemma {:induction false} AgoMonotone(e1: int, e2: int)
    requires e1 <= e2
    ensures AgoRank(AgoOf(e1)) <= AgoRank(AgoOf(e2))
    ensures AgoOf(e1).MinutesAgo? && AgoOf(e2).MinutesAgo? ==> AgoOf(e1).n <= AgoOf(e2).n
    ensures AgoOf(e1).HoursAgo? && AgoOf(e2).HoursAgo? ==> AgoOf(e1).n <= AgoOf(e2).n
    ensures AgoOf(e1).DaysAgo? && AgoOf(e2).DaysAgo? ==> AgoOf(e1).n <= AgoOf(e2).n
  {
  }

  // ---------------------------------------------------------------------------
  // Activity entries
  // ---------------------------------------------------------------------------

  datatype Activity = Activity(id: string, kind: string, title: string, description: string,
                               time: int, icon: string, color: string)

  /** The description reads `deviceModel`, which a ticket does not have, so
      it renders as "undefined". */
  function TicketLine(s: Service): string
  {
    s.serviceNumber + " - undefined"
  }

  function CreatedActivity(s: Service): Activity
  {
    Activity("service-" + s.id, "SERVICE_CREATED", "Yeni servis kaydı oluşturuldu", TicketLine(s),
             s.createdAt, "Package", "blue")
  }

  /** A completion entry needs the status "COMPLETED" and a completion time. */
  predicate ShowsCompletion(s: Service)
  {
    s.status == "COMPLETED" && s.completedAt.Some?
  }

  function CompletedActivity(s: Service): Activity
    requires s.completedAt.Some?
  {
    Activity("service-completed-" + s.id, "SERVICE_COMPLETED", "Servis tamamlandı", TicketLine(s),
             s.completedAt.value, "CheckCircle", "green")
  }

  function CustomerActivity(c: Customer): Activity
  {
    Activity("customer-" + c.id, "CUSTOMER_ADDED", "Yeni müşteri eklendi", c.name, c.createdAt, "Users", "purple")
  }

  /** The entries of one ticket: its creation, then its completion if shown. */
  function TicketActivities(s: Service): (r: seq<Activity>)
    ensures |r| == if ShowsCompletion(s) then 2 else 1
  {
    [CreatedActivity(s)] + (if ShowsCompletion(s) then [CompletedActivity(s)] else [])
  }

  function ServiceActivities(ss: seq<Service>): seq<Activity>
    decreases |ss|
  {
    if |ss| == 0 then [] else ServiceActivities(ss[..|ss| - 1]) + TicketActivities(ss[|ss| - 1])
  }

  function CustomerActivities(cs: seq<Customer>): (r: seq<Activity>)
    ensures |r| == |cs|
    ensures forall i :: 0 <= i < |cs| ==> r[i] == CustomerActivity(cs[i])
  {
    seq(|cs|, i requires 0 <= i < |cs| => CustomerActivity(cs[i]))
  }

  function ActivityTime(a: Activity): real { a.time as real }

  /** The five newest tickets and three newest customers. */
  function RecentServices(services: seq<Service>): seq<Service>
  {
    Take(SortDesc(services, ServiceCreated), 5)
  }

  function RecentCustomers(customers: seq<Customer>): seq<Customer>
  {
    Take(SortDesc(customers, CustomerCreated), 3)
  }

  /** Ticket entries followed by customer entries, before sorting. */
  function Merged(services: seq<Service>, customers: seq<Customer>): seq<Activity>
  {
    ServiceActivities(RecentServices(services)) + CustomerActivities(RecentCustomers(customers))
  }

  /** The merged entries, newest first (a stable sort). */
  function NewestFirst(services: seq<Service>, customers: seq<Customer>): seq<Activity>
  {
    SortDesc(Merged(services, customers), ActivityTime)
  }

  datatype Shown = Shown(activity: Activity, timeAgo: string)

  /** The six newest entries. */
  function Top(services: seq<Service>, customers: seq<Customer>): (r: seq<Activity>)
    ensures |r| == Min(6, |Merged(services, customers)|)
    ensures SortedDesc(r, ActivityTime)
    ensures multiset(r) <= multiset(Merged(services, customers))
    ensures forall i :: 0 <= i < |r| ==> r[i] in Merged(services, customers)
    ensures forall i, j :: 0 <= i < |r| && i <= j < |NewestFirst(services, customers)| ==>
      r[i].time >= NewestFirst(services, customers)[j].time
  {
    var sorted := NewestFirst(services, customers);
    var merged := Merged(services, customers);
    SortDescLength(merged, ActivityTime);
    TakeOfSorted(merged, ActivityTime, 6);
    TakeOfSortedBag(merged, ActivityTime, 6);
    Take(sorted, 6)
  }

  /** Each entry paired with its relative time at `now`. */
  function Stamped(entries: seq<Activity>, now: int, dateText: int -> string): (r: seq<Shown>)
    ensures |r| == |entries|
    ensures forall i :: 0 <= i < |r| ==>
      r[i].activity == entries[i] && r[i].timeAgo == TimeAgo(now, entries[i].time, dateText)
  {
    seq(|entries|, i requires 0 <= i < |entries| => Shown(entries[i], TimeAgo(now, entries[i].time, dateText)))
  }

  /** The handler: the six newest entries, each with its relative time. */
  function RecentActivities(services: seq<Service>, customers: seq<Customer>, now: int,
                            dateText: int -> string): (r: seq<Shown>)
    ensures |r| == |Top(services, customers)| == Min(6, |Merged(services, customers)|)
    ensures forall i :: 0 <= i < |r| ==>
      r[i].activity == Top(services, customers)[i] && r[i].timeAgo == TimeAgo(now, r[i].activity.time, dateText)
    ensures forall i, j :: 0 <= i < j < |r| ==> r[i].activity.time >= r[j].activity.time
  {
    var top := Top(services, customers);
    var r := Stamped(top, now, dateText);
    forall i, j | 0 <= i < j < |r| ensures r[i].activity.time >= r[j].activity.time {
      assert ActivityTime(top[i]) >= ActivityTime(top[j]);
    }
    r
  }

  // ---------------------------------------------------------------------------
  // Counting and identifiers
  // ---------------------------------------------------------------------------

  /** No ticket in one of the nine stored statuses produces a completion
      entry, so the merged list has one entry per recent ticket and customer:
      at most five plus three. */
  lemma {:induction false} NoCompletionEntries(services: seq<Service>, customers: seq<Customer>)
    requires forall i :: 0 <= i < |services| ==> Parse(services[i].status).Some?
    ensures |Merged(services, customers)| == |RecentServices(services)| + |RecentCustomers(customers)|
    ensures |Merged(services, customers)| <= 8
    ensures forall i :: 0 <= i < |Merged(services, customers)| ==>
      Merged(services, customers)[i].kind != "SERVICE_COMPLETED"
  {
    var recent := RecentServices(services);
    var sorted := SortDesc(services, ServiceCreated);
    forall i | 0 <= i < |recent| ensures !ShowsCompletion(recent[i]) {
      assert recent[i] == sorted[i];
      SortedMember(services, ServiceCreated, i);
      var k :| 0 <= k < |services| && services[k] == sorted[i];
      StoredStatusNotCompleted(services[k]);
    }
    OnlyCreations(recent);
  }

  lemma {:induction false} StoredStatusNotCompleted(s: Service)
    requires Parse(s.status).Some?
    ensures !ShowsCompletion(s)
  {
    ParseName(Parse(s.status).value, s.status);
  }

  lemma {:induction false} OnlyCreations(ss: seq<Service>)
    requires forall i :: 0 <= i < |ss| ==> !ShowsCompletion(ss[i])
    ensures |ServiceActivities(ss)| == |ss|
    ensures forall i :: 0 <= i < |ss| ==> ServiceActivities(ss)[i].kind == "SERVICE_CREATED"
    decreases |ss|
  {
    if |ss| > 0 {
      OnlyCreations(ss[..|ss| - 1]);
    }
  }

  predicate DashFree(s: string)
  {
    '-' !in s
  }

  /** Identifiers are built from three prefixes; with dash-free entity ids,
      equal activity ids mean the same prefix and the same entity. */
  lemma {:induction false} ActivityIdInjective(p1: string, id1: string, p2: string, id2: string)
    requires p1 in {"service-", "service-completed-", "customer-"}
    requires p2 in {"service-", "service-completed-", "customer-"}
    requires DashFree(id1) && DashFree(id2)
    ensures p1 + id1 == p2 + id2 ==> p1 == p2 && id1 == id2
  {
    var t1 := p1 + id1;
    var t2 := p2 + id2;
    if p1 == p2 {
      assert t1 == t2 ==> id1 == t1[|p1|..] == t2[|p2|..] == id2;
    } else if p1 == "service-" && p2 == "service-completed-" {
      if |t1| == |t2| {
        assert t1[17] == id1[9] && id1[9] != '-';
        assert t2[17] == '-';
      }
    } else if p1 == "service-completed-" && p2 == "service-" {
      if |t1| == |t2| {
        assert t2[17] == id2[9] && id2[9] != '-';
        assert t1[17] == '-';
      }
    } else {
      assert t1[0] == p1[0] && t2[0] == p2[0];
    }
  }

  /** A service-derived entry's id is one of the two ticket prefixes followed
      by the id of a ticket in the list. */
  ghost predicate FromTicket(a: Activity, ss: seq<Service>)
  {
    exists k :: 0 <= k < |ss| && (a.id == "service-" + ss[k].id || a.id == "service-completed-" + ss[k].id)
  }

  predicate DistinctIds(acts: seq<Activity>)
  {
    forall i, j :: 0 <= i < j < |acts| ==> acts[i].id != acts[j].id
  }

  /** Tickets with distinct, dash-free ids give entries with distinct ids. */
  lemma {:induction false} TicketIdsDistinct(ss: seq<Service>)
    requires forall i :: 0 <= i < |ss| ==> DashFree(ss[i].id)
    requires forall i, j :: 0 <= i < j < |ss| ==> ss[i].id != ss[j].id
    ensures DistinctIds(ServiceActivities(ss))
    ensures forall i :: 0 <= i < |ServiceActivities(ss)| ==> FromTicket(ServiceActivities(ss)[i], ss)
    decreases |ss|
  {
    if |ss| > 0 {
      var init := ss[..|ss| - 1];
      var s := ss[|ss| - 1];
      TicketIdsDistinct(init);
      var a := ServiceActivities(init);
      var b := TicketActivities(s);
      var all := a + b;
      assert ServiceActivities(ss) == all;
      forall i | 0 <= i < |all| ensures FromTicket(all[i], ss) {
        if i < |a| {
          var k :| 0 <= k < |init| && (a[i].id == "service-" + init[k].id || a[i].id == "service-completed-" + init[k].id);
          assert ss[k] == init[k];
        } else {
          assert ss[|ss| - 1] == s;
        }
      }
      forall i, j | 0 <= i < j < |all| ensures all[i].id != all[j].id {
        if j >= |a| && i < |a| {
          var k :| 0 <= k < |init| && (a[i].id == "service-" + init[k].id || a[i].id == "service-completed-" + init[k].id);
          assert init[k].id != s.id by { assert ss[k] == init[k]; }
          var pi := if a[i].id == "service-" + init[k].id then "service-" else "service-completed-";
          var pj := if j == |a| then "service-" else "service-completed-";
          if all[i].id == all[j].id {
            ActivityIdInjective(pi, init[k].id, pj, s.id);
          }
        } else if i >= |a| {
          if all[i].id == all[j].id {
            ActivityIdInjective("service-", s.id, "service-completed-", s.id);
          }
        }
      }
    }
  }

  /** Ticket and customer entries never share an id, and customers with
      distinct ids give entries with distinct ids, so the merged entries of
      distinct entities have distinct ids. */
  lemma {:induction false} MergedIdsDistinct(ss: seq<Service>, cs: seq<Customer>)
    requires forall i :: 0 <= i < |ss| ==> DashFree(ss[i].id)
    requires forall i, j :: 0 <= i < j < |ss| ==> ss[i].id != ss[j].id
    requires forall i :: 0 <= i < |cs| ==> DashFree(cs[i].id)
    requires forall i, j :: 0 <= i < j < |cs| ==> cs[i].id != cs[j].id
    ensures DistinctIds(ServiceActivities(ss) + CustomerActivities(cs))
  {
    TicketIdsDistinct(ss);
    var a := ServiceActivities(ss);
    var b := CustomerActivities(cs);
    var all := a + b;
    forall i, j | 0 <= i < j < |all| ensures all[i].id != all[j].id {
      if i < |a| && j >= |a| {
        var k :| 0 <= k < |ss| && (a[i].id == "service-" + ss[k].id || a[i].id == "service-completed-" + ss[k].id);
        var pi := if a[i].id == "service-" + ss[k].id then "service-" else "service-completed-";
        if all[i].id == all[j].id {
          ActivityIdInjective(pi, ss[k].id, "customer-", cs[j - |a|].id);
        }
      } else if i >= |a| {
        if all[i].id == all[j].id {
          ActivityIdInjective("customer-", cs[i - |a|].id, "customer-", cs[j - |a|].id);
        }
      }
    }
  }
}

=== FILE: customer_analytics.dfy ===
/** `GET /api/customer-analytics`, loyalty and segmentation analyses: tickets
    are grouped per customer, counted and summed, and each customer is put in
    a loyalty tier by ticket count and in at most one RFM segment. */
module CustomerAnalytics {
  import opened Util
  import opened Records

  /** A ticket with the amounts of its INCOME records. */
  datatype Visit = Visit(customerId: string, createdAt: int, incomes: seq<real>)

  function CustomerOf(v: Visit): Option<string> { Some(v.customerId) }

  function VisitCreated(v: Visit): real { v.createdAt as real }

  /** A customer's running totals: ticket count, money spent, and the
      `createdAt` of the first and of the last ticket seen. */
  datatype Acc = Acc(count: nat, spent: real, first: int, last: int)

  function VisitIncome(v: Visit): real { Sum(v.incomes) }

  /** Money spent over a customer's tickets. */
  function SpentOf(m: seq<Visit>): real
  {
    SumOf(m, VisitIncome)
  }

  /** The totals of one customer's tickets, in the order they were seen. */
  function AccOf(m: seq<Visit>): Acc
    requires |m| >= 1
  {
    Acc(|m|, SpentOf(m), m[0].createdAt, m[|m| - 1].createdAt)
  }

  /** One step of the `forEach`: a first ticket starts the entry, a later one
      bumps the count, adds its income and overwrites `lastService`. */
  function Step(prior: Option<Acc>, v: Visit): Acc
  {
    match prior
    case None => Acc(1, Sum(v.incomes), v.createdAt, v.createdAt)
    case Some(a) => Acc(a.count + 1, a.spent + Sum(v.incomes), a.first, v.createdAt)
  }

  lemma {:induction false} MembersSnoc(s: seq<Visit>, v: Visit, k: string)
    ensures Members(s + [v], CustomerOf, k)
         == Members(s, CustomerOf, k) + (if v.customerId == k then [v] else [])
  {
    assert (s + [v])[..|s|] == s;
    assert CustomerOf(v) == Some(v.customerId);
    assert HasKey(CustomerOf, k)(v) == (CustomerOf(v) == Some(k));
    assert Filter(s + [v], HasKey(CustomerOf, k))
        == if HasKey(CustomerOf, k)(v) then Filter(s, HasKey(CustomerOf, k)) + [v] else Filter(s, HasKey(CustomerOf, k));
  }

  lemma {:induction false} StepMatchesAcc(m: seq<Visit>, v: Visit)
    ensures |m| >= 1 ==> Step(Some(AccOf(m)), v) == AccOf(m + [v])
    ensures |m| == 0 ==> Step(None, v) == AccOf(m + [v])
  {
    assert (m + [v])[..|m|] == m;
    if |m| == 0 {
      assert m + [v] == [v];
      assert SpentOf([v]) == SpentOf([]) + Sum(v.incomes);
    }
  }

  /** `keys` and `stats` hold, for the tickets `s`, the customers in first-seen
      order and each customer's totals. */
  ghost predicate Summarises(s: seq<Visit>, keys: seq<string>, stats: map<string, Acc>)
  {
    && keys == GroupKeys(s, CustomerOf)
    && (forall k :: k in stats <==> k in keys)
    && forall k :: k in stats ==>
         |Members(s, CustomerOf, k)| >= 1 && stats[k] == AccOf(Members(s, CustomerOf, k))
  }

  function Lookup(stats: map<string, Acc>, k: string): Option<Acc>
  {
    if k in stats then Some(stats[k]) else None
  }

  lemma {:induction false} GroupKeysSnoc(s: seq<Visit>, v: Visit)
    ensures GroupKeys(s + [v], CustomerOf)
         == if v.customerId in GroupKeys(s, CustomerOf) then GroupKeys(s, CustomerOf)
            else GroupKeys(s, CustomerOf) + [v.customerId]
  {
    assert (s + [v])[..|s|] == s;
    assert CustomerOf(v) == Some(v.customerId);
  }

  /** A customer not among the keys has no tickets yet. */
  lemma {:induction false} NoMembersOutsideKeys(s: seq<Visit>, k: string)
    requires k !in GroupKeys(s, CustomerOf)
    ensures Members(s, CustomerOf, k) == []
  {
    if |Members(s, CustomerOf, k)| > 0 {
      var m := Members(s, CustomerOf, k);
      assert HasKey(CustomerOf, k)(m[0]);
      FilterMembers(s, HasKey(CustomerOf, k), m[0]);
    }
  }

  /** The entry of one customer after a ticket is recorded. */
  lemma {:induction false} EntryStep(s: seq<Visit>, v: Visit, keys: seq<string>, stats: map<string, Acc>, k': string)
    requires Summarises(s, keys, stats)
    requires k' in stats || k' == v.customerId
    ensures var m := Members(s + [v], CustomerOf, k');
      |m| >= 1 && stats[v.customerId := Step(Lookup(stats, v.customerId), v)][k'] == AccOf(m)
  {
    var k := v.customerId;
    MembersSnoc(s, v, k');
    if k' == k {
      if k in stats {
        StepMatchesAcc(Members(s, CustomerOf, k), v);
      } else {
        NoMembersOutsideKeys(s, k);
        assert [] + [v] == [v];
        StepMatchesAcc([], v);
      }
    }
  }

  lemma {:induction false} RecordStep(s: seq<Visit>, v: Visit, keys: seq<string>, stats: map<string, Acc>)
    requires Summarises(s, keys, stats)
    ensures Summarises(s + [v],
                       if v.customerId in stats then keys else keys + [v.customerId],
                       stats[v.customerId := Step(Lookup(stats, v.customerId), v)])
  {
    var k := v.customerId;
    var stats' := stats[k := Step(Lookup(stats, k), v)];
    GroupKeysSnoc(s, v);
    forall k' | k' in stats'
      ensures |Members(s + [v], CustomerOf, k')| >= 1 && stats'[k'] == AccOf(Members(s + [v], CustomerOf, k'))
    {
      EntryStep(s, v, keys, stats, k');
    }
  }

  /** The source's Map-building loop. Its result is the grouping by customer in
      first-seen order, each entry holding the totals of that customer's tickets. */
  method AccumulateByCustomer(visits: seq<Visit>) returns (keys: seq<string>, stats: map<string, Acc>)
    ensures keys == GroupKeys(visits, CustomerOf)
    ensures forall k :: k in stats <==> k in keys
    ensures forall k :: k in stats ==>
      |Members(visits, CustomerOf, k)| >= 1 && stats[k] == AccOf(Members(visits, CustomerOf, k))
  {
    keys := [];
    stats := map[];
    var i := 0;
    while i < |visits|
      invariant 0 <= i <= |visits|
      invariant Summarises(visits[..i], keys, stats)
    {
      var v := visits[i];
      RecordStep(visits[..i], v, keys, stats);
      PrefixSnoc(visits, i);
      if v.customerId !in stats {
        keys := keys + [v.customerId];
      }
      stats := stats[v.customerId := Step(Lookup(stats, v.customerId), v)];
      i := i + 1;
    }
    assert visits[..i] == visits;
  }

  // ---------------------------------------------------------------------------
  // Loyalty
  // ---------------------------------------------------------------------------

  datatype Tier = Bronze | Silver | Gold | Platinum

  /** Bronze up to 2 tickets, silver up to 5, gold up to 10, platinum above. */
  function TierOf(count: nat): Tier
  {
    if count <= 2 then Bronze else if count <= 5 then Silver else if count <= 10 then Gold else Platinum
  }

  /** Tiers are ordered by ticket count: more tickets never means a lower tier. */
  function TierRank(t: Tier): nat
  {
    match t
    case Bronze => 0
    case Silver => 1
    case Gold => 2
    case Platinum => 3
  }

  lemma {:induction false} TierMonotone(a: nat, b: nat)
    requires a <= b
    ensures TierRank(TierOf(a)) <= TierRank(TierOf(b))
  {
  }

  datatype LoyaltyEntry = LoyaltyEntry(
    customerId: string,
    serviceCount: nat,
    totalSpent: real,
    firstService: int,
    lastService: int,
    averageSpent: real,
    daysSinceLastService: int)

  /** `Math.floor((now - last) / day)`: whole days, rounded down even when
      `last` lies in the future. */
  function DaysSince(now: int, last: int): (d: int)
    ensures d * DayMs <= now - last < (d + 1) * DayMs
  {
    (now - last) / DayMs
  }

  function Entry(k: string, a: Acc, now: int): LoyaltyEntry
    requires a.count >= 1
  {
    LoyaltyEntry(k, a.count, a.spent, a.first, a.last, a.spent / a.count as real, DaysSince(now, a.last))
  }

  /** Tickets newest first, as the loyalty query orders them. */
  function NewestFirst(visits: seq<Visit>): seq<Visit>
  {
    SortDesc(visits, VisitCreated)
  }

  /** One entry per customer, in first-seen order of the newest-first list. */
  /** The loyalty entry of customer `k` over the tickets `sorted`. */
  function LoyaltyEntryOf(sorted: seq<Visit>, k: string, now: int): (e: LoyaltyEntry)
    requires k in GroupKeys(sorted, CustomerOf)
    ensures var m := Members(sorted, CustomerOf, k);
      e.customerId == k && e.serviceCount == |m| >= 1 && e.totalSpent == SpentOf(m)
      && e.averageSpent == e.totalSpent / e.serviceCount as real
      && e.firstService == m[0].createdAt && e.lastService == m[|m| - 1].createdAt
  {
    MembersOfGroupKey(sorted, CustomerOf, k);
    Entry(k, AccOf(Members(sorted, CustomerOf, k)), now)
  }

  /** One entry per customer, in first-seen order of the newest-first list. */
  function LoyaltyEntries(visits: seq<Visit>, now: int): (r: seq<LoyaltyEntry>)
    ensures var keys := GroupKeys(NewestFirst(visits), CustomerOf);
      |r| == |keys| && forall i :: 0 <= i < |r| ==> r[i] == LoyaltyEntryOf(NewestFirst(visits), keys[i], now)
  {
    var sorted := NewestFirst(visits);
    var keys := GroupKeys(sorted, CustomerOf);
    seq(|keys|, i requires 0 <= i < |keys| => LoyaltyEntryOf(sorted, keys[i], now))
  }

  /** In a newest-first list, every item lies between the last and the first. */
  lemma {:induction false} BetweenEnds(m: seq<Visit>, v: Visit)
    requires SortedDesc(m, VisitCreated) && v in m
    ensures m[|m| - 1].createdAt <= v.createdAt <= m[0].createdAt
  {
    var j :| 0 <= j < |m| && m[j] == v;
    assert VisitCreated(m[0]) >= VisitCreated(m[j]) >= VisitCreated(m[|m| - 1]);
  }

  /** With tickets newest first, a customer's `firstService` is the newest
      ticket and `lastService` the oldest: the names are swapped. */
  lemma {:induction false} FirstIsNewestLastIsOldest(visits: seq<Visit>, now: int, i: nat)
    requires i < |LoyaltyEntries(visits, now)|
    ensures var e := LoyaltyEntries(visits, now)[i];
      e.firstService >= e.lastService
      && forall v :: v in visits && v.customerId == e.customerId ==>
           e.lastService <= v.createdAt <= e.firstService
  {
    var sorted := NewestFirst(visits);
    var keys := GroupKeys(sorted, CustomerOf);
    var e := LoyaltyEntries(visits, now)[i];
    assert e == LoyaltyEntryOf(sorted, keys[i], now) && e.customerId == keys[i];
    assert multiset(sorted) == multiset(visits);
    forall v | v in visits && v.customerId == e.customerId
      ensures e.lastService <= v.createdAt <= e.firstService
    {
      assert v in sorted by {
        assert v in multiset(visits);
      }
      MemberBetweenEnds(sorted, keys[i], v);
    }
    assert e.firstService >= e.lastService by {
      MemberBetweenEnds(sorted, keys[i], Members(sorted, CustomerOf, keys[i])[0]);
    }
  }

  /** Within a newest-first list, each ticket of customer `k` lies between the
      customer's last and first member. */
  lemma {:induction false} MemberBetweenEnds(sorted: seq<Visit>, k: string, v: Visit)
    requires SortedDesc(sorted, VisitCreated) && k in GroupKeys(sorted, CustomerOf)
    requires v in Members(sorted, CustomerOf, k) || (v in sorted && v.customerId == k)
    ensures var m := Members(sorted, CustomerOf, k);
      |m| >= 1 && m[|m| - 1].createdAt <= v.createdAt <= m[0].createdAt
  {
    var m := Members(sorted, CustomerOf, k);
    MembersOfGroupKey(sorted, CustomerOf, k);
    FilterSorted(sorted, HasKey(CustomerOf, k), VisitCreated);
    if v !in m {
      assert HasKey(CustomerOf, k)(v) by { assert CustomerOf(v) == Some(v.customerId); }
      FilterMembers(sorted, HasKey(CustomerOf, k), v);
    }
    BetweenEnds(m, v);
  }

  function TierKey(e: LoyaltyEntry): Option<Tier> { Some(TierOf(e.serviceCount)) }

  function TierCount(es: seq<LoyaltyEntry>, t: Tier): nat
  {
    |Filter(es, HasKey(TierKey, t))|
  }

  datatype LoyaltySummary = LoyaltySummary(
    totalCustomers: nat, bronzeCount: nat, silverCount: nat, goldCount: nat, platinumCount: nat)

  function Summarize(es: seq<LoyaltyEntry>): LoyaltySummary
  {
    LoyaltySummary(|es|, TierCount(es, Bronze), TierCount(es, Silver), TierCount(es, Gold), TierCount(es, Platinum))
  }

  /** Every customer is in exactly one tier, so the tier counts add up to the
      number of customers. */
  lemma {:induction false} TierCountsPartition(es: seq<LoyaltyEntry>)
    ensures var s := Summarize(es);
      s.bronzeCount + s.silverCount + s.goldCount + s.platinumCount == s.totalCustomers
  {
    var tiers := [Bronze, Silver, Gold, Platinum];
    forall i | 0 <= i < |es| ensures Keyed(TierKey)(es[i]) && TierKey(es[i]).value in tiers {
      assert TierKey(es[i]) == Some(TierOf(es[i].serviceCount));
    }
    GroupSizesCover(tiers, es, TierKey);
    FilterAll(es, Keyed(TierKey));
    TierGroupSizes(es);
  }

  lemma {:induction false} TierGroupSizes(es: seq<LoyaltyEntry>)
    ensures GroupSizes([Bronze, Silver, Gold, Platinum], es, TierKey)
      == TierCount(es, Bronze) + TierCount(es, Silver) + TierCount(es, Gold) + TierCount(es, Platinum)
  {
    var tiers := [Bronze, Silver, Gold, Platinum];
    var t3, t2, t1 := [Bronze, Silver, Gold], [Bronze, Silver], [Bronze];
    assert tiers[..3] == t3 && t3[..2] == t2 && t2[..1] == t1 && t1[..0] == [];
    assert GroupSizes(tiers, es, TierKey) == GroupSizes(t3, es, TierKey) + TierCount(es, Platinum);
    assert GroupSizes(t3, es, TierKey) == GroupSizes(t2, es, TierKey) + TierCount(es, Gold);
    assert GroupSizes(t2, es, TierKey) == GroupSizes(t1, es, TierKey) + TierCount(es, Silver);
    assert GroupSizes(t1, es, TierKey) == GroupSizes([], es, TierKey) + TierCount(es, Bronze);
  }

  /** Each ticket is counted for exactly one customer: the service counts over
      all customers add up to the number of tickets. */
  lemma {:induction false} ServiceCountsConserve(visits: seq<Visit>)
    ensures GroupSizes(GroupKeys(NewestFirst(visits), CustomerOf), NewestFirst(visits), CustomerOf) == |visits|
  {
    var sorted := NewestFirst(visits);
    GroupKeysConserve(sorted, CustomerOf);
    FilterAll(sorted, Keyed(CustomerOf));
    SortDescLength(visits, VisitCreated);
  }

  // ---------------------------------------------------------------------------
  // Segmentation (RFM)
  // ---------------------------------------------------------------------------

  datatype Segment = Champions | LoyalCustomers | PotentialLoyalists | NewCustomers | AtRisk | Lost

  /** The first-match cascade over frequency `f`, monetary value `m` and
      recency `r` (the last ticket's time). */
  function SegmentOf(f: nat, m: real, r: int, now: int): Option<Segment>
  {
    var ninetyDaysAgo := now - 90 * DayMs;
    var oneYearAgo := now - 365 * DayMs;
    if f >= 5 && m >= 5000.0 && r > ninetyDaysAgo then Some(Champions)
    else if f >= 3 && m >= 3000.0 && r > ninetyDaysAgo then Some(LoyalCustomers)
    else if f >= 2 && m >= 1000.0 && r > ninetyDaysAgo then Some(PotentialLoyalists)
    else if f == 1 && r > ninetyDaysAgo then Some(NewCustomers)
    else if m >= 2000.0 && r < ninetyDaysAgo && r > oneYearAgo then Some(AtRisk)
    else if r < oneYearAgo then Some(Lost)
    else None
  }

  /** The conditions each segment needs, stated directly. */
  lemma {:induction false} SegmentConditions(f: nat, m: real, r: int, now: int)
    ensures SegmentOf(f, m, r, now) == Some(Champions) <==> f >= 5 && m >= 5000.0 && r > now - 90 * DayMs
    ensures SegmentOf(f, m, r, now) == Some(NewCustomers) <==> f == 1 && r > now - 90 * DayMs
    ensures SegmentOf(f, m, r, now) == Some(AtRisk) <==>
      m >= 2000.0 && now - 365 * DayMs < r < now - 90 * DayMs && !(f >= 3 && m >= 3000.0 && r > now - 90 * DayMs)
    ensures SegmentOf(f, m, r, now) == Some(Lost) <==> r < now - 365 * DayMs
    ensures SegmentOf(f, m, r, now) in {Some(Champions), Some(LoyalCustomers), Some(PotentialLoyalists), Some(NewCustomers)}
            <==> r > now - 90 * DayMs && (f == 1 || (f >= 2 && m >= 1000.0))
  {
  }

  /** The cascade has gaps: a recent customer with several tickets but little
      spending, a customer whose last ticket is exactly 90 days old, and a
      low-spending customer between 90 days and a year fall in no segment. */
  lemma {:induction false} SegmentGaps(now: int, m: real)
    requires m < 1000.0
    ensures SegmentOf(2, m, now, now) == None
    ensures SegmentOf(1, 0.0, now - 90 * DayMs, now) == None
    ensures SegmentOf(1, m, now - 200 * DayMs, now) == None
  {
  }

  datatype SegmentEntry = SegmentEntry(customerId: string, frequency: nat, monetary: real, recency: int)

  /** One entry per customer, in first-seen order of the store's (unordered)
      ticket list; recency is the last ticket seen for that customer. */
  /** The segmentation entry of customer `k`: recency is the last ticket seen
      for that customer in the store's (unordered) ticket list. */
  function SegmentEntryOf(visits: seq<Visit>, k: string): (e: SegmentEntry)
    requires k in GroupKeys(visits, CustomerOf)
    ensures var m := Members(visits, CustomerOf, k);
      e.customerId == k && e.frequency == |m| >= 1 && e.monetary == SpentOf(m)
      && e.recency == m[|m| - 1].createdAt
  {
    MembersOfGroupKey(visits, CustomerOf, k);
    var a := AccOf(Members(visits, CustomerOf, k));
    SegmentEntry(k, a.count, a.spent, a.last)
  }

  /** One entry per customer, in first-seen order. */
  function SegmentEntries(visits: seq<Visit>): (r: seq<SegmentEntry>)
    ensures var keys := GroupKeys(visits, CustomerOf);
      |r| == |keys| && forall i :: 0 <= i < |r| ==> r[i] == SegmentEntryOf(visits, keys[i])
  {
    var keys := GroupKeys(visits, CustomerOf);
    seq(|keys|, i requires 0 <= i < |keys| => SegmentEntryOf(visits, keys[i]))
  }

  function SegmentKey(now: int): SegmentEntry -> Option<Segment>
  {
    (e: SegmentEntry) => SegmentOf(e.frequency, e.monetary, e.recency, now)
  }

  function SegmentCount(es: seq<SegmentEntry>, now: int, g: Segment): nat
  {
    |Filter(es, HasKey(SegmentKey(now), g))|
  }

  /** The six segments, in cascade order. */
  const AllSegments := [Champions, LoyalCustomers, PotentialLoyalists, NewCustomers, AtRisk, Lost]

  lemma {:induction false} SegmentListed(g: Segment)
    ensures g in AllSegments
  {
  }

  lemma {:induction false} SegmentSizes(es: seq<SegmentEntry>, now: int)
    ensures GroupSizes(AllSegments, es, SegmentKey(now))
         == SegmentCount(es, now, Champions) + SegmentCount(es, now, LoyalCustomers)
          + SegmentCount(es, now, PotentialLoyalists) + SegmentCount(es, now, NewCustomers)
          + SegmentCount(es, now, AtRisk) + SegmentCount(es, now, Lost)
  {
    var key := SegmentKey(now);
    var s5 := [Champions, LoyalCustomers, PotentialLoyalists, NewCustomers, AtRisk];
    var s4 := [Champions, LoyalCustomers, PotentialLoyalists, NewCustomers];
    var s3 := [Champions, LoyalCustomers, PotentialLoyalists];
    var s2 := [Champions, LoyalCustomers];
    var s1 := [Champions];
    assert AllSegments[..5] == s5 && s5[..4] == s4 && s4[..3] == s3 && s3[..2] == s2 && s2[..1] == s1 && s1[..0] == [];
    assert GroupSizes(AllSegments, es, key) == GroupSizes(s5, es, key) + SegmentCount(es, now, Lost);
    assert GroupSizes(s5, es, key) == GroupSizes(s4, es, key) + SegmentCount(es, now, AtRisk);
    assert GroupSizes(s4, es, key) == GroupSizes(s3, es, key) + SegmentCount(es, now, NewCustomers);
    assert GroupSizes(s3, es, key) == GroupSizes(s2, es, key) + SegmentCount(es, now, PotentialLoyalists);
    assert GroupSizes(s2, es, key) == GroupSizes(s1, es, key) + SegmentCount(es, now, LoyalCustomers);
    assert GroupSizes(s1, es, key) == GroupSizes([], es, key) + SegmentCount(es, now, Champions);
  }

  /** No customer is in two segments, so the six segment counts add up to the
      number of segmented customers, which is at most the number of customers. */
  lemma {:induction false} SegmentCountsBounded(es: seq<SegmentEntry>, now: int)
    ensures SegmentCount(es, now, Champions) + SegmentCount(es, now, LoyalCustomers)
          + SegmentCount(es, now, PotentialLoyalists) + SegmentCount(es, now, NewCustomers)
          + SegmentCount(es, now, AtRisk) + SegmentCount(es, now, Lost)
         == |Filter(es, Keyed(SegmentKey(now)))|
    ensures |Filter(es, Keyed(SegmentKey(now)))| <= |es|
  {
    var key := SegmentKey(now);
    forall i | 0 <= i < |es| && key(es[i]).Some? ensures key(es[i]).value in AllSegments {
      SegmentListed(key(es[i]).value);
    }
    GroupSizesCover(AllSegments, es, key);
    SegmentSizes(es, now);
  }

  // ---------------------------------------------------------------------------
  // The route
  // ---------------------------------------------------------------------------

  const AnalysisFailedError := "Müşteri analizi yapılırken bir hata oluştu"

  /** The loyalty and segmentation queries' `include` as written: the ticket's
      ledger entry, a to-one relation, given a `where` on its type. */
  const IncludeAsWritten := [Include("customer", false), Include("financialRecord", true)]

  /** The `include` the analyses need: the ledger entry read whole; `Visit.incomes`
      keeps its amount when it is an INCOME entry. */
  const IncludeCorrected := [Include("customer", false), Include("financialRecord", false)]

  datatype Loyalty = Loyalty(customers: seq<LoyaltyEntry>, summary: LoyaltySummary)

  /** `type=loyalty`: the ticket query with the given `include`; a query the
      ORM refuses lands in the handler's catch. */
  function LoyaltyRoute(inc: seq<Include>, visits: seq<Visit>, now: int): (r: Reply<Loyalty>)
    ensures r.Failure? <==> !IncludeAccepted(inc)
    ensures r.Failure? ==> r == Failure(500, AnalysisFailedError)
    ensures r.Reply? ==> r.code == 200 && r.body.customers == LoyaltyEntries(visits, now)
                         && r.body.summary == Summarize(LoyaltyEntries(visits, now))
  {
    if !IncludeAccepted(inc) then Failure(500, AnalysisFailedError)
    else
      var es := LoyaltyEntries(visits, now);
      Reply(200, Loyalty(es, Summarize(es)))
  }

  /** `type=segmentation`, likewise. */
  function SegmentationRoute(inc: seq<Include>, visits: seq<Visit>): (r: Reply<seq<SegmentEntry>>)
    ensures r.Failure? <==> !IncludeAccepted(inc)
    ensures r.Failure? ==> r == Failure(500, AnalysisFailedError)
    ensures r.Reply? ==> r == Reply(200, SegmentEntries(visits))
  {
    if !IncludeAccepted(inc) then Failure(500, AnalysisFailedError)
    else Reply(200, SegmentEntries(visits))
  }

  /** As written, a `where` on the to-one ledger entry is refused, so loyalty
      and segmentation answer 500 whatever is stored; retention and the general
      analysis send the same `include` and fail with them. */
  lemma {:induction false} AnalysesFailAsWritten(visits: seq<Visit>, now: int)
    ensures LoyaltyRoute(IncludeAsWritten, visits, now) == Failure(500, AnalysisFailedError)
    ensures SegmentationRoute(IncludeAsWritten, visits) == Failure(500, AnalysisFailedError)
  {
    assert IncludeAsWritten[1].filtered && TicketRelations[IncludeAsWritten[1].relation] == ToOne;
  }

  /** With the ledger entry read whole, both analyses answer with their results. */
  lemma {:induction false} AnalysesAnswerCorrected(visits: seq<Visit>, now: int)
    ensures LoyaltyRoute(IncludeCorrected, visits, now)
            == Reply(200, Loyalty(LoyaltyEntries(visits, now), Summarize(LoyaltyEntries(visits, now))))
    ensures SegmentationRoute(IncludeCorrected, visits) == Reply(200, SegmentEntries(visits))
  {
    TicketRelationsNamed();
  }
}

=== FILE: customer_analytics_page.dfy ===
/** The customer analytics page: churn risk labels, the loyalty and segment
    pie charts, and the two customer tables. */
module CustomerAnalyticsPage {
  import opened Util
  import opened CustomerAnalytics

  // ---------------------------------------------------------------------------
  // Churn risk
  // ---------------------------------------------------------------------------

  datatype Risk = Low | Medium | High

  /** `getRiskLevel`: 0.8 and up is high, 0.6 and up medium, anything else
      (NaN included, which has no order) low. */
  function RiskLevel(probability: real): Risk
  {
    if probability >= 0.8 then High else if probability >= 0.6 then Medium else Low
  }

  function RiskText(r: Risk): string
  {
    match r
    case High => "Yüksek"
    case Medium => "Orta"
    case Low => "Düşük"
  }

  function RiskRank(r: Risk): nat
  {
    match r
    case Low => 0
    case Medium => 1
    case High => 2
  }

  /** A higher churn probability never gets a lower risk label, and the
      labels change exactly at 0.6 and 0.8. */
  lemma {:induction false} RiskMonotone(a: real, b: real)
    ensures a <= b ==> RiskRank(RiskLevel(a)) <= RiskRank(RiskLevel(b))
    ensures RiskLevel(a) == High <==> a >= 0.8
    ensures RiskLevel(a) == Medium <==> 0.6 <= a < 0.8
  {
  }

  // ---------------------------------------------------------------------------
  // Pie charts
  // ---------------------------------------------------------------------------

  datatype Wedge = Wedge(name: string, value: nat)

  function WedgeValue(w: Wedge): real { w.value as real }

  function NonEmpty(): Wedge -> bool
  {
    (w: Wedge) => w.value > 0
  }

  /** `getLoyaltyChartData`: the five levels, without the empty ones. The
      reply has no diamond count, so that level counts 0. */
  function LoyaltyChart(summary: Option<LoyaltySummary>): seq<Wedge>
  {
    match summary
    case None => []
    case Some(s) => Filter(LoyaltyWedges(s), NonEmpty())
  }

  /** The five loyalty wedges before empty ones are dropped; the reply has no
      diamond count, so that wedge counts 0. */
  function LoyaltyWedges(s: LoyaltySummary): seq<Wedge>
  {
    [Wedge("Bronze", s.bronzeCount), Wedge("Silver", s.silverCount), Wedge("Gold", s.goldCount),
     Wedge("Platinum", s.platinumCount), Wedge("Diamond", 0)]
  }

  lemma {:induction false} LoyaltyWedgesTotal(s: LoyaltySummary)
    ensures SumOf(LoyaltyWedges(s), WedgeValue)
      == (s.bronzeCount + s.silverCount + s.goldCount + s.platinumCount) as real
  {
    var all := LoyaltyWedges(s);
    var a, b := all[..3], all[3..];
    assert all == a + b;
    assert a == [all[0], all[1], all[2]] && b == [all[3]] + [all[4]];
    SumOfTriple(all[0], all[1], all[2], WedgeValue);
    SumOfSnoc([], all[3], WedgeValue);
    SumOfSnoc([all[3]], all[4], WedgeValue);
    assert [all[3]] == [] + [all[3]];
    SumOfAppend(a, b, WedgeValue);
  }

  /** The loyalty wedges are non-empty, never include Diamond, and together
      count every customer once. */
  lemma {:induction false} LoyaltyChartCoversCustomers(es: seq<LoyaltyEntry>)
    ensures var w := LoyaltyChart(Some(Summarize(es)));
      && |w| <= 4
      && (forall i :: 0 <= i < |w| ==> w[i].value > 0 && w[i].name != "Diamond")
      && SumOf(w, WedgeValue) == |es| as real
  {
    var s := Summarize(es);
    var all := LoyaltyWedges(s);
    var w := Filter(all, NonEmpty());
    assert SumOf(w, WedgeValue) == SumOf(all, WedgeValue) by {
      SumOfDropZeros(all, NonEmpty(), WedgeValue);
    }
    assert SumOf(all, WedgeValue) == |es| as real by {
      LoyaltyWedgesTotal(s);
      TierCountsPartition(es);
    }
    assert w == Filter(all[..4], NonEmpty()) by {
      assert all == all[..4] + [all[4]];
    }
    forall i | 0 <= i < |w|
      ensures w[i].name != "Diamond"
    {
      FilterMembers(all[..4], NonEmpty(), w[i]);
    }
  }

  /** The segmentation reply's summary block. */
  datatype SegmentSummary = SegmentSummary(
    totalCustomers: nat, championsCount: nat, loyalCustomersCount: nat, potentialLoyalistsCount: nat,
    newCustomersCount: nat, atRiskCount: nat, lostCount: nat)

  function SegmentSummaryOf(es: seq<SegmentEntry>, now: int): SegmentSummary
  {
    SegmentSummary(|es|, SegmentCount(es, now, Champions), SegmentCount(es, now, LoyalCustomers),
      SegmentCount(es, now, PotentialLoyalists), SegmentCount(es, now, NewCustomers),
      SegmentCount(es, now, AtRisk), SegmentCount(es, now, Lost))
  }

  /** The nine segment wedges before empty ones are dropped. */
  function SegmentWedges(s: SegmentSummary): seq<Wedge>
  {
    [Wedge("Şampiyonlar", s.championsCount), Wedge("Sadık Müşteriler", s.loyalCustomersCount),
     Wedge("Potansiyel Sadıklar", s.potentialLoyalistsCount), Wedge("Yeni Müşteriler", s.newCustomersCount),
     Wedge("Risk Altında", s.atRiskCount), Wedge("Kayıp Müşteriler", s.lostCount),
     Wedge("Uykuda", 0), Wedge("Fiyat Duyarlı", 0), Wedge("İlgi Gerektiren", 0)]
  }

  lemma {:induction false} SegmentWedgesTotal(s: SegmentSummary)
    ensures SumOf(SegmentWedges(s), WedgeValue)
      == (s.championsCount + s.loyalCustomersCount + s.potentialLoyalistsCount + s.newCustomersCount
          + s.atRiskCount + s.lostCount) as real
  {
    var all := SegmentWedges(s);
    var a, b, c := all[..3], all[3..6], all[6..];
    assert all == a + b + c;
    SumOfTriple(all[0], all[1], all[2], WedgeValue);
    SumOfTriple(all[3], all[4], all[5], WedgeValue);
    SumOfTriple(all[6], all[7], all[8], WedgeValue);
    assert a == [all[0], all[1], all[2]] && b == [all[3], all[4], all[5]] && c == [all[6], all[7], all[8]];
    SumOfAppend(a, b, WedgeValue);
    SumOfAppend(a + b, c, WedgeValue);
  }

  /** `getSegmentationChartData`: nine wedges without the empty ones. The
      reply has no hibernating, price-sensitive or needs-attention counts, so
      those count 0. */
  function SegmentChart(summary: Option<SegmentSummary>): seq<Wedge>
  {
    match summary
    case None => []
    case Some(s) =>
      Filter(SegmentWedges(s), NonEmpty())
  }

  /** The segment wedges are non-empty and together count each segmented
      customer once, which is at most every customer. */
  lemma {:induction false} SegmentChartCoversSegmented(es: seq<SegmentEntry>, now: int)
    ensures var w := SegmentChart(Some(SegmentSummaryOf(es, now)));
      && (forall i :: 0 <= i < |w| ==> w[i].value > 0)
      && SumOf(w, WedgeValue) == |Filter(es, Keyed(SegmentKey(now)))| as real
      && SumOf(w, WedgeValue) <= |es| as real
  {
    var s := SegmentSummaryOf(es, now);
    SumOfDropZeros(SegmentWedges(s), NonEmpty(), WedgeValue);
    SegmentWedgesTotal(s);
    SegmentCountsBounded(es, now);
  }

  // ---------------------------------------------------------------------------
  // Tables
  // ---------------------------------------------------------------------------

  function TierList(es: seq<LoyaltyEntry>, t: Tier): seq<LoyaltyEntry>
  {
    Filter(es, HasKey(TierKey, t))
  }

  const TopRowsMax := 15

  /** The top-customer table: the diamond list (absent in the reply), then
      platinum, then gold, at most 15 rows. */
  function TopRows(es: seq<LoyaltyEntry>): seq<LoyaltyEntry>
  {
    Take(TierList(es, Platinum) + TierList(es, Gold), TopRowsMax)
  }

  /** The level the top table prints, from the ticket count alone. */
  function TopLabel(serviceCount: nat): string
  {
    if serviceCount >= 15 then "Diamond" else if serviceCount >= 10 then "Platinum" else "Gold"
  }

  function TierName(t: Tier): string
  {
    match t
    case Bronze => "Bronze"
    case Silver => "Silver"
    case Gold => "Gold"
    case Platinum => "Platinum"
  }

  /** For the customers the table can list (gold and platinum), the printed
      level matches the customer's tier except at exactly 10 tickets (gold,
      printed Platinum) and from 15 tickets on (platinum, printed Diamond). */
  lemma {:induction false} TopLabelVersusTier(serviceCount: nat)
    requires TierOf(serviceCount) in {Gold, Platinum}
    ensures TopLabel(serviceCount) == TierName(TierOf(serviceCount)) <==> serviceCount != 10 && serviceCount < 15
  {
  }

  /** The top table has at most 15 rows, all gold or platinum customers, with
      every platinum row above every gold row. */
  lemma {:induction false} TopRowsShape(es: seq<LoyaltyEntry>)
    ensures var r := TopRows(es);
      && |r| <= TopRowsMax
      && (forall i :: 0 <= i < |r| ==> r[i] in es && TierOf(r[i].serviceCount) in {Gold, Platinum})
      && (forall i, j :: 0 <= i < j < |r| && TierOf(r[j].serviceCount) == Platinum ==>
            TierOf(r[i].serviceCount) == Platinum)
  {
    var p := TierList(es, Platinum);
    var g := TierList(es, Gold);
    var r := TopRows(es);
    assert r == (p + g)[..Min(TopRowsMax, |p + g|)];
    forall i | 0 <= i < |r|
      ensures r[i] in es && TierOf(r[i].serviceCount) in {Gold, Platinum}
      ensures i < |p| <==> TierOf(r[i].serviceCount) == Platinum
    {
      if i < |p| {
        assert r[i] == p[i];
        assert HasKey(TierKey, Platinum)(p[i]);
        assert TierKey(p[i]) == Some(Platinum);
        FilterMembers(es, HasKey(TierKey, Platinum), p[i]);
      } else {
        assert r[i] == g[i - |p|];
        assert HasKey(TierKey, Gold)(g[i - |p|]);
        assert TierKey(g[i - |p|]) == Some(Gold);
        FilterMembers(es, HasKey(TierKey, Gold), g[i - |p|]);
      }
    }
  }

  /** A segment's table rows: its first three customers, tagged with the
      segment. */
  function Tagged(g: Segment, es: seq<SegmentEntry>, now: int): (r: seq<(Segment, SegmentEntry)>)
    ensures |r| <= 3
    ensures forall i :: 0 <= i < |r| ==> r[i].0 == g && r[i].1 in es && SegmentKey(now)(r[i].1) == Some(g)
  {
    var kept := Filter(es, HasKey(SegmentKey(now), g));
    var top := Take(kept, 3);
    assert forall i :: 0 <= i < |top| ==> top[i] == kept[i] && top[i] in es && SegmentKey(now)(top[i]) == Some(g) by {
      forall i | 0 <= i < |top|
        ensures top[i] == kept[i] && top[i] in es && SegmentKey(now)(top[i]) == Some(g)
      {
        assert HasKey(SegmentKey(now), g)(kept[i]);
        FilterMembers(es, HasKey(SegmentKey(now), g), kept[i]);
      }
    }
    seq(|top|, i requires 0 <= i < |top| => (g, top[i]))
  }

  /** The segment lists in the reply's key order, three rows from each. */
  function FlatTagged(gs: seq<Segment>, es: seq<SegmentEntry>, now: int): (r: seq<(Segment, SegmentEntry)>)
    ensures |r| <= 3 * |gs|
    ensures forall i :: 0 <= i < |r| ==> r[i].0 in gs && r[i].1 in es && SegmentKey(now)(r[i].1) == Some(r[i].0)
    decreases |gs|
  {
    if |gs| == 0 then []
    else
      var head := Tagged(gs[0], es, now);
      var rest := FlatTagged(gs[1..], es, now);
      assert forall i :: 0 <= i < |rest| ==> rest[i].0 in gs by {
        assert forall x :: x in gs[1..] ==> x in gs;
      }
      head + rest
  }

  const SegmentRowsMax := 20

  /** The segment table: up to three customers per segment, at most 20 rows. */
  function SegmentRows(es: seq<SegmentEntry>, now: int): seq<(Segment, SegmentEntry)>
  {
    Take(FlatTagged(AllSegments, es, now), SegmentRowsMax)
  }

  /** Six segments of at most three rows give at most 18, so the 20-row cap
      never cuts the table; every row sits in the segment it is tagged with. */
  lemma {:induction false} SegmentRowsUncapped(es: seq<SegmentEntry>, now: int)
    ensures SegmentRows(es, now) == FlatTagged(AllSegments, es, now)
    ensures |SegmentRows(es, now)| <= 18
    ensures forall i :: 0 <= i < |SegmentRows(es, now)| ==>
      SegmentKey(now)(SegmentRows(es, now)[i].1) == Some(SegmentRows(es, now)[i].0)
  {
    var all := FlatTagged(AllSegments, es, now);
    assert Min(SegmentRowsMax, |all|) == |all|;
    assert all[..|all|] == all;
  }
}

=== FILE: customers_api.dfy ===
/** `POST /api/customers` (customer creation) and `GET /api/customers`
    (optionally searched customer list, newest first, as a bare array). */
module CustomersApi {
  import opened Util
  import opened Js
  import opened Records

  const RequiredError := "İsim ve telefon alanları zorunludur"

  /** The JSON body of a creation request; absent or null fields are `None`. */
  datatype CreateBody = CreateBody(name: Option<string>, email: Option<string>, phone: Option<string>,
                                   address: Option<string>)

  predicate HasRequired(b: CreateBody)
  {
    Filled(b.name) && Filled(b.phone)
  }

  /** The handler; `id` and `now` are what the store assigns. Returns the
      reply and the customer list after the call. */
  function CreateCustomer(customers: seq<Customer>, b: CreateBody, id: string, now: int)
    : (r: (Reply<Customer>, seq<Customer>))
    ensures r.0.Failure? <==> !HasRequired(b)
    ensures r.0.Failure? ==> r.0 == Failure(400, RequiredError) && r.1 == customers
    ensures r.0.Reply? ==>
      && r.0.code == 201
      && r.1 == customers + [r.0.body]
      && r.0.body == Customer(id, b.name.value, b.email, b.phone.value, b.address, now)
  {
    if !HasRequired(b) then (Failure(400, RequiredError), customers)
    else
      var c := Customer(id, b.name.value, b.email, b.phone.value, b.address, now);
      (Reply(201, c), customers + [c])
  }

  /** The OR of the four case-insensitive `contains` tests. */
  predicate MatchesSearch(c: Customer, term: string)
  {
    ContainsCI(c.name, term) || OptContainsCI(c.email, term)
    || ContainsCI(c.phone, term) || OptContainsCI(c.address, term)
  }

  /** The `where` clause: no filter unless the search is truthy. */
  predicate Selected(search: Option<string>, c: Customer)
  {
    !Filled(search) || MatchesSearch(c, search.value)
  }

  function Selector(search: Option<string>): Customer -> bool
  {
    (c: Customer) => Selected(search, c)
  }

  /** The handler: the selected customers, newest first. */
  function ListCustomers(customers: seq<Customer>, search: Option<string>): (r: seq<Customer>)
    ensures SortedDesc(r, CustomerCreated)
    ensures |r| <= |customers|
  {
    var f := Filter(customers, Selector(search));
    SortDescLength(f, CustomerCreated);
    SortDesc(f, CustomerCreated)
  }

  /** A customer is listed exactly when stored and, for a truthy search, one of
      name, e-mail, phone or address contains the term, ignoring case. */
  lemma {:induction false} ListExact(customers: seq<Customer>, search: Option<string>, c: Customer)
    ensures c in ListCustomers(customers, search) <==>
      c in customers && (Filled(search) ==> MatchesSearch(c, search.value))
  {
    SortFilterMembers(customers, Selector(search), CustomerCreated, c);
  }

  /** Without a search every customer is listed, each as often as stored. */
  lemma {:induction false} NoSearchListsAll(customers: seq<Customer>, search: Option<string>)
    requires !Filled(search)
    ensures multiset(ListCustomers(customers, search)) == multiset(customers)
  {
    FilterAll(customers, Selector(search));
  }

  /** A creation that succeeds makes the new customer findable by its name. */
  lemma {:induction false} CreatedIsFound(customers: seq<Customer>, b: CreateBody, id: string, now: int)
    requires HasRequired(b)
    ensures var r := CreateCustomer(customers, b, id, now);
      r.0.body in ListCustomers(r.1, b.name)
  {
    var r := CreateCustomer(customers, b, id, now);
    ContainsSelf(Lower(b.name.value));
    assert MatchesSearch(r.0.body, b.name.value);
    ListExact(r.1, b.name, r.0.body);
  }

  lemma {:induction false} ContainsSelf(s: string)
    ensures Contains(s, s)
  {
    assert StartsWith(s, s);
  }
}

=== FILE: dashboard_overview.dfy ===
/** The dashboard overview card: the status pie built from the stats reply's
    per-status counts, their total, and the two change captions under the
    intake and revenue figures. Number rendering (`toFixed(1)`) is a
    caller-supplied function. */
module DashboardOverview {
  import opened Util
  import opened Records
  import opened Status
  import Reports
  import opened DashboardStats

  // ---------------------------------------------------------------------------
  // Status pie
  // ---------------------------------------------------------------------------

  /** The overview's own `statusLabels` table. */
  function OverviewLabel(s: Status): string
  {
    match s
    case Received => "Alındı"
    case DiagnosisPending => "Teşhis Bekliyor"
    case CustomerApprovalPending => "Müşteri Onayı Bekliyor"
    case PartsPending => "Parça Bekliyor"
    case Repairing => "Tamir Ediliyor"
    case CompletedReadyForDelivery => "Teslime Hazır"
    case Delivered => "Teslim Edildi"
    case Cancelled => "İptal Edildi"
    case Returned => "İade Edildi"
  }

  /** A pie slice; the name is `None` (undefined) for a stored status the
      label table does not know. */
  datatype Slice = Slice(name: Option<string>, value: nat)

  function SliceOf(c: StatusCount): (s: Slice)
  {
    Slice(match Parse(c.status) case Some(st) => Some(OverviewLabel(st)) case None => None, c.count)
  }

  function Slices(counts: seq<StatusCount>): (r: seq<Slice>)
    ensures |r| == |counts|
    ensures forall i :: 0 <= i < |r| ==> r[i] == SliceOf(counts[i])
    decreases |counts|
  {
    if |counts| == 0 then [] else Slices(counts[..|counts| - 1]) + [SliceOf(counts[|counts| - 1])]
  }

  /** `statusData`: one slice per reply entry, in order; nothing before the
      stats have loaded. */
  function StatusData(stats: Option<Stats>): seq<Slice>
  {
    match stats
    case None => []
    case Some(st) => Slices(st.servicesByStatus)
  }

  /** `totalServices`: the slice values added up. */
  function TotalServices(data: seq<Slice>): nat
    decreases |data|
  {
    if |data| == 0 then 0 else TotalServices(data[..|data| - 1]) + data[|data| - 1].value
  }

  /** The slices carry the reply's counts, so their total is the reply's. */
  lemma {:induction false} TotalOfSlices(counts: seq<StatusCount>)
    ensures TotalServices(Slices(counts)) == CountSum(counts)
    decreases |counts|
  {
    if |counts| > 0 {
      var init := counts[..|counts| - 1];
      TotalOfSlices(init);
      assert Slices(counts)[..|counts| - 1] == Slices(init);
    }
  }

  /** Each slice is named by its status' label and sized by its count, and
      the total shown in the middle of the pie is the number of tickets in
      the store. */
  lemma {:induction false} PieCountsEveryTicket(services: seq<Service>, today: Reports.Window, yesterday: Reports.Window,
                                                sixMonthsAgo: int, monthKeys: seq<string>, monthKey: int -> string)
    ensures var st := DashboardStats.DashboardStats(services, today, yesterday, sixMonthsAgo, monthKeys, monthKey);
      var data := StatusData(Some(st));
      && |data| == |st.servicesByStatus|
      && (forall i :: 0 <= i < |data| ==> data[i].value == st.servicesByStatus[i].count)
      && (forall i, s :: 0 <= i < |data| && st.servicesByStatus[i].status == Name(s) ==> data[i].name == Some(OverviewLabel(s)))
      && TotalServices(data) == |services|
  {
    var st := DashboardStats.DashboardStats(services, today, yesterday, sixMonthsAgo, monthKeys, monthKey);
    StatsBounded(services, today, yesterday, sixMonthsAgo, monthKeys, monthKey);
    PieOfStats(st);
  }

  /** The pie of any stats reply: one slice per count, labelled by status,
      totalling the counts. */
  lemma {:induction false} PieOfStats(st: Stats)
    ensures var data := StatusData(Some(st));
      && |data| == |st.servicesByStatus|
      && (forall i :: 0 <= i < |data| ==> data[i].value == st.servicesByStatus[i].count)
      && (forall i, s :: 0 <= i < |data| && st.servicesByStatus[i].status == Name(s) ==> data[i].name == Some(OverviewLabel(s)))
      && TotalServices(data) == CountSum(st.servicesByStatus)
  {
    var counts := st.servicesByStatus;
    TotalOfSlices(counts);
    forall i, s | 0 <= i < |counts| && counts[i].status == Name(s)
      ensures Slices(counts)[i].name == Some(OverviewLabel(s))
    {
      ParseName(s, Name(s));
    }
  }

  // ---------------------------------------------------------------------------
  // Change captions
  // ---------------------------------------------------------------------------

  const Calculating := "Hesaplanıyor..."
  const NoChange := "Değişiklik yok"

  /** The revenue caption; `change` is `None` when the field is undefined. */
  function RevenueChangeText(change: Option<real>, show: real -> string): string
  {
    match change
    case None => Calculating
    case Some(c) =>
      if c > 0.0 then "+" + show(c) + "% artış"
      else if c < 0.0 then show(c) + "% azalış"
      else NoChange
  }

  /** The intake caption: zero counts as a rise. */
  function ServiceChangeText(change: Option<real>, show: real -> string): string
  {
    match change
    case None => Calculating
    case Some(c) => if c >= 0.0 then "+" + show(c) + "% dünden" else show(c) + "% dünden"
  }

  /** A top-level number field of the stats reply as the client reads it
      (`stats.<key>`); keys the reply does not carry read as undefined. */
  function TopLevelNumber(st: Stats, key: string): (v: Option<real>)
    ensures v.Some? ==> key in StatsKeys
  {
    if key == "todayServices" then Some(st.todayServices as real)
    else if key == "pendingServices" then Some(st.pendingServices as real)
    else if key == "completedServices" then Some(st.completedServices as real)
    else if key == "todayRevenue" then Some(st.todayRevenue)
    else None
  }

  /** As written, the card reads `revenueChange` and `todayServiceChange` at
      the top level, where the reply has neither, so both captions stay
      "Hesaplanıyor..." whatever the figures. */
  lemma {:induction false} ChangesNeverShown(services: seq<Service>, today: Reports.Window, yesterday: Reports.Window,
                                             sixMonthsAgo: int, monthKeys: seq<string>, monthKey: int -> string,
                                             show: real -> string)
    ensures var st := DashboardStats.DashboardStats(services, today, yesterday, sixMonthsAgo, monthKeys, monthKey);
      && "revenueChange" !in StatsKeys && "todayServiceChange" !in StatsKeys
      && RevenueChangeText(TopLevelNumber(st, "revenueChange"), show) == Calculating
      && ServiceChangeText(TopLevelNumber(st, "todayServiceChange"), show) == Calculating
  {
  }

  /** A known revenue change is never shown as the placeholder; it reads
      "no change" exactly when it is 0 and ends in "artış" (a rise) exactly
      when it is positive. */
  lemma {:induction false} RevenueCaptionMeaning(c: real, show: real -> string)
    ensures var t := RevenueChangeText(Some(c), show);
      && t != Calculating
      && (t == NoChange <==> c == 0.0)
      && |t| >= 5
      && (t[|t| - 5..] == "artış" <==> c > 0.0)
  {
    var t := RevenueChangeText(Some(c), show);
    if c > 0.0 {
      assert t[0] == '+';
      assert t[|t| - 5..] == "artış";
    } else if c < 0.0 {
      assert t[|t| - 1] == 'ş';
      assert t[|t| - 5] == 'z';
    } else {
      assert t[|t| - 5] == 'k';
    }
  }

  /** The revenue caption read from where the reply puts the change. */
  function CorrectedRevenueText(st: Stats, show: real -> string): string
  {
    RevenueChangeText(Some(st.changes.revenueChange), show)
  }

  /** Read from `changes`, the revenue caption is never the placeholder; it
      says "no change" exactly when yesterday had no revenue or today matched
      it, and ends in "artış" (a rise) exactly when today beat a positive
      yesterday. */
  lemma {:induction false} CorrectedRevenueMeaning(services: seq<Service>, today: Reports.Window, yesterday: Reports.Window,
                                                   sixMonthsAgo: int, monthKeys: seq<string>, monthKey: int -> string,
                                                   show: real -> string)
    ensures var st := DashboardStats.DashboardStats(services, today, yesterday, sixMonthsAgo, monthKeys, monthKey);
      var t := CorrectedRevenueText(st, show);
      var now := Revenue(services, DeliveredIn(today));
      var before := Revenue(services, DeliveredIn(yesterday));
      && t != Calculating
      && (t == NoChange <==> before <= 0.0 || now == before)
      && |t| >= 5
      && (t[|t| - 5..] == "artış" <==> before > 0.0 && now > before)
  {
    var st := DashboardStats.DashboardStats(services, today, yesterday, sixMonthsAgo, monthKeys, monthKey);
    var now := Revenue(services, DeliveredIn(today));
    var before := Revenue(services, DeliveredIn(yesterday));
    assert st.changes.revenueChange == GuardedChange(now, before);
    GuardedChangeSign(now, before);
    RevenueCaptionMeaning(st.changes.revenueChange, show);
  }
}

=== FILE: dashboard_stats.dfy ===
/** `GET /api/dashboard/stats`: today's intake and revenue against
    yesterday's, open and finished ticket counts, tickets per stored status,
    and delivered revenue per calendar month for the last six months. Day
    boundaries, the six-month cut-off and the month keys are supplied by the
    caller. */
module DashboardStats {
  import opened Util
  import opened Records
  import opened Status
  import Reports

  // ---------------------------------------------------------------------------
  // Status sets
  // ---------------------------------------------------------------------------

  /** Tickets still in the workshop. */
  const OpenNames: seq<string> := ["RECEIVED", "DIAGNOSIS_PENDING", "CUSTOMER_APPROVAL_PENDING", "PARTS_PENDING", "REPAIRING"]

  /** Tickets whose repair is finished. */
  const DoneNames: seq<string> := ["COMPLETED_READY_FOR_DELIVERY", "DELIVERED"]

  /** Tickets closed without a repair. */
  const ClosedNames: seq<string> := ["CANCELLED", "RETURNED"]

  function StatusIn(names: seq<string>): Service -> bool
  {
    (s: Service) => s.status in names
  }

  /** `db.service.count({ where: { status: { in: names } } })` */
  function CountIn(services: seq<Service>, names: seq<string>): nat
  {
    |Filter(services, StatusIn(names))|
  }

  /** Every ticket status is in exactly one of the open, done and closed sets. */
  lemma {:induction false} StatusSetsPartition(s: Status)
    ensures Name(s) in OpenNames <==> !(Name(s) in DoneNames) && !(Name(s) in ClosedNames) && !Terminal(s) && s != CompletedReadyForDelivery
    ensures (Name(s) in OpenNames) || (Name(s) in DoneNames) || (Name(s) in ClosedNames)
    ensures !(Name(s) in OpenNames && Name(s) in DoneNames)
    ensures !(Name(s) in DoneNames && Name(s) in ClosedNames)
    ensures !(Name(s) in OpenNames && Name(s) in ClosedNames)
  {
    assert OpenNames == [Name(Received), Name(DiagnosisPending), Name(CustomerApprovalPending), Name(PartsPending), Name(Repairing)];
    assert DoneNames == [Name(CompletedReadyForDelivery), Name(Delivered)];
    assert ClosedNames == [Name(Cancelled), Name(Returned)];
    forall t: Status ensures Name(t) == Name(s) ==> t == s {
      NameInjective(t, s);
    }
  }

  /** When every stored status is one of the nine, the open, done and closed
      counts add up to the number of tickets. */
  lemma {:induction false} CountsPartition(services: seq<Service>)
    requires forall i :: 0 <= i < |services| ==> Parse(services[i].status).Some?
    ensures CountIn(services, OpenNames) + CountIn(services, DoneNames) + CountIn(services, ClosedNames) == |services|
  {
    forall i | 0 <= i < |services|
      ensures var x := services[i];
        (StatusIn(OpenNames)(x) && !StatusIn(DoneNames)(x) && !StatusIn(ClosedNames)(x))
        || (!StatusIn(OpenNames)(x) && StatusIn(DoneNames)(x) && !StatusIn(ClosedNames)(x))
        || (!StatusIn(OpenNames)(x) && !StatusIn(DoneNames)(x) && StatusIn(ClosedNames)(x))
    {
      var s := Parse(services[i].status).value;
      ParseName(s, services[i].status);
      StatusSetsPartition(s);
    }
    FilterSplitCount3(services, StatusIn(OpenNames), StatusIn(DoneNames), StatusIn(ClosedNames));
  }

  // ---------------------------------------------------------------------------
  // Percentage change
  // ---------------------------------------------------------------------------

  /** `previous > 0 ? ((current - previous) / previous) * 100 : 0` */
  function GuardedChange(current: real, previous: real): (c: real)
    ensures previous > 0.0 ==> c * previous == (current - previous) * 100.0
    ensures previous <= 0.0 ==> c == 0.0
  {
    if previous > 0.0 then (current - previous) / previous * 100.0 else 0.0
  }

  /** With a positive base the change is positive, zero or negative as the
      figure rose, stayed or fell; with no base it is 0 even if the figure
      rose, so a first sale reads as no change. */
  lemma {:induction false} GuardedChangeSign(current: real, previous: real)
    ensures previous > 0.0 ==> (GuardedChange(current, previous) > 0.0 <==> current > previous)
    ensures previous > 0.0 ==> (GuardedChange(current, previous) == 0.0 <==> current == previous)
    ensures previous <= 0.0 ==> GuardedChange(current, previous) == 0.0
  {
    if previous > 0.0 {
      var c := GuardedChange(current, previous);
      Reports.PositiveProduct(c, previous, (current - previous) * 100.0);
      if c == 0.0 {
        assert c * previous == 0.0;
      }
    }
  }

  // ---------------------------------------------------------------------------
  // Windows and revenue
  // ---------------------------------------------------------------------------

  function CreatedIn(w: Reports.Window): Service -> bool
  {
    (s: Service) => w.start <= s.createdAt <= w.end
  }

  /** DELIVERED tickets delivered within the window. */
  function DeliveredIn(w: Reports.Window): Service -> bool
  {
    (s: Service) => s.status == "DELIVERED" && s.deliveredAt.Some? && w.start <= s.deliveredAt.value <= w.end
  }

  /** A ticket's contribution to `_sum.actualFee`: a null fee adds nothing. */
  function Fee(s: Service): real
  {
    match s.actualFee
    case None => 0.0
    case Some(f) => f
  }

  /** `_sum.actualFee || 0` over the tickets passing `p`. */
  function Revenue(services: seq<Service>, p: Service -> bool): real
  {
    SumOf(Filter(services, p), Fee)
  }

  // ---------------------------------------------------------------------------
  // Tickets per status
  // ---------------------------------------------------------------------------

  datatype StatusCount = StatusCount(status: string, count: nat)

  function StatusKey(s: Service): Option<string> { Some(s.status) }

  function CountsFor(services: seq<Service>, ks: seq<string>): (r: seq<StatusCount>)
    ensures |r| == |ks|
    ensures forall i :: 0 <= i < |ks| ==>
      r[i].status == ks[i] && r[i].count == |Members(services, StatusKey, ks[i])|
    decreases |ks|
  {
    if |ks| == 0 then []
    else
      var k := ks[|ks| - 1];
      CountsFor(services, ks[..|ks| - 1]) + [StatusCount(k, |Members(services, StatusKey, k)|)]
  }

  /** `groupBy(['status'])` with counts, one row per stored status, in
      first-seen order. */
  function StatusCounts(services: seq<Service>): (r: seq<StatusCount>)
    ensures forall i :: 0 <= i < |r| ==> r[i].count >= 1
    ensures forall i, j :: 0 <= i < j < |r| ==> r[i].status != r[j].status
    ensures forall i :: 0 <= i < |r| ==> exists j :: 0 <= j < |services| && services[j].status == r[i].status
    ensures forall j :: 0 <= j < |services| ==> exists i :: 0 <= i < |r| && r[i].status == services[j].status
    ensures forall i :: 0 <= i < |r| ==> r[i].count == |Members(services, StatusKey, r[i].status)|
  {
    var r := CountsFor(services, GroupKeys(services, StatusKey));
    StatusRowsCounted(services, r);
    StatusRowsDistinct(services, r);
    StatusRowsFromTickets(services, r);
    StatusRowsCoverTickets(services, r);
    r
  }

  /** Each grouped status row counts the tickets in that status, at least one. */
  lemma {:induction false} StatusRowsCounted(services: seq<Service>, r: seq<StatusCount>)
    requires r == CountsFor(services, GroupKeys(services, StatusKey))
    ensures forall i :: 0 <= i < |r| ==> r[i].count == |Members(services, StatusKey, r[i].status)| && r[i].count >= 1
  {
    var ks := GroupKeys(services, StatusKey);
    forall i | 0 <= i < |r| ensures r[i].count == |Members(services, StatusKey, r[i].status)| && r[i].count >= 1 {
      MembersOfGroupKey(services, StatusKey, ks[i]);
    }
  }

  /** The grouped status rows carry distinct statuses. */
  lemma {:induction false} StatusRowsDistinct(services: seq<Service>, r: seq<StatusCount>)
    requires r == CountsFor(services, GroupKeys(services, StatusKey))
    ensures forall i, j :: 0 <= i < j < |r| ==> r[i].status != r[j].status
  {
    var ks := GroupKeys(services, StatusKey);
    assert Distinct(ks);
  }

  /** Every grouped status row names the status of some ticket. */
  lemma {:induction false} StatusRowsFromTickets(services: seq<Service>, r: seq<StatusCount>)
    requires r == CountsFor(services, GroupKeys(services, StatusKey))
    ensures forall i :: 0 <= i < |r| ==> exists j :: 0 <= j < |services| && services[j].status == r[i].status
  {
    var ks := GroupKeys(services, StatusKey);
    forall i | 0 <= i < |r| ensures exists j :: 0 <= j < |services| && services[j].status == r[i].status {
      assert ks[i] in ks;
      var j :| 0 <= j < |services| && StatusKey(services[j]) == Some(ks[i]);
      assert services[j].status == r[i].status;
    }
  }

  /** Every ticket's status has a grouped row. */
  lemma {:induction false} StatusRowsCoverTickets(services: seq<Service>, r: seq<StatusCount>)
    requires r == CountsFor(services, GroupKeys(services, StatusKey))
    ensures forall j :: 0 <= j < |services| ==> exists i :: 0 <= i < |r| && r[i].status == services[j].status
  {
    var ks := GroupKeys(services, StatusKey);
    forall j | 0 <= j < |services| ensures exists i :: 0 <= i < |r| && r[i].status == services[j].status {
      assert StatusKey(services[j]) == Some(services[j].status);
      var i :| 0 <= i < |ks| && ks[i] == services[j].status;
      assert r[i].status == services[j].status;
    }
  }

  function CountSum(r: seq<StatusCount>): nat
  {
    if |r| == 0 then 0 else CountSum(r[..|r| - 1]) + r[|r| - 1].count
  }

  lemma {:induction false} CountSumIsGroupSizes(services: seq<Service>, ks: seq<string>)
    ensures CountSum(CountsFor(services, ks)) == GroupSizes(ks, services, StatusKey)
    decreases |ks|
  {
    if |ks| > 0 {
      var r := CountsFor(services, ks);
      CountSumIsGroupSizes(services, ks[..|ks| - 1]);
      assert r[..|r| - 1] == CountsFor(services, ks[..|ks| - 1]);
    }
  }

  /** The per-status counts add up to the number of tickets. */
  lemma {:induction false} StatusCountsConserve(services: seq<Service>)
    ensures CountSum(StatusCounts(services)) == |services|
  {
    CountSumIsGroupSizes(services, GroupKeys(services, StatusKey));
    GroupKeysConserve(services, StatusKey);
    FilterAll(services, Keyed(StatusKey));
  }

  // ---------------------------------------------------------------------------
  // Monthly revenue map
  // ---------------------------------------------------------------------------

  /** The six month keys, each initialised to 0. */
  function ZeroMap(keys: seq<string>): (m: map<string, real>)
    ensures forall k :: k in m <==> k in keys
    ensures forall k :: k in m ==> m[k] == 0.0
  {
    map k | k in keys :: 0.0
  }

  /** `if (monthlyRevenue[key] !== undefined) monthlyRevenue[key] += x` */
  function AddTo(m: map<string, real>, k: string, x: real): map<string, real>
  {
    if k in m then m[k := m[k] + x] else m
  }

  /** DELIVERED tickets delivered at or after `since`. */
  function DeliveredSince(since: int): Service -> bool
  {
    (s: Service) => s.status == "DELIVERED" && s.deliveredAt.Some? && s.deliveredAt.value >= since
  }

  /** The tickets whose delivery falls in month `k`, by the caller-supplied
      month key of a timestamp. */
  function InMonth(monthKey: int -> string, k: string): Service -> bool
  {
    (s: Service) => s.deliveredAt.Some? && monthKey(s.deliveredAt.value) == k
  }

  /** The `forEach` over delivered tickets, adding each fee to its month if
      that month is a key. */
  function Fill(m: map<string, real>, items: seq<Service>, monthKey: int -> string): map<string, real>
    decreases |items|
  {
    if |items| == 0 then m
    else
      var m' := Fill(m, items[..|items| - 1], monthKey);
      var s := items[|items| - 1];
      if s.deliveredAt.Some? then AddTo(m', monthKey(s.deliveredAt.value), Fee(s)) else m'
  }

  /** Filling never adds or drops a key, and each key ends with its start
      value plus the fees of the items in that month. */
  lemma {:induction false} FillSums(m: map<string, real>, items: seq<Service>, monthKey: int -> string)
    ensures var f := Fill(m, items, monthKey);
      (forall k :: k in f <==> k in m)
      && forall k :: k in m ==> f[k] == m[k] + Revenue(items, InMonth(monthKey, k))
    decreases |items|
  {
    if |items| > 0 {
      var init := items[..|items| - 1];
      var s := items[|items| - 1];
      FillSums(m, init, monthKey);
      forall k | k in m
        ensures Fill(m, items, monthKey)[k] == m[k] + Revenue(items, InMonth(monthKey, k))
      {
        var fi := Filter(init, InMonth(monthKey, k));
        if InMonth(monthKey, k)(s) {
          assert Filter(items, InMonth(monthKey, k)) == fi + [s];
          SumOfSnoc(fi, s, Fee);
        } else {
          assert Filter(items, InMonth(monthKey, k)) == fi;
        }
      }
    }
  }

  function MonthlyRevenue(services: seq<Service>, since: int, keys: seq<string>, monthKey: int -> string)
    : map<string, real>
  {
    Fill(ZeroMap(keys), Filter(services, DeliveredSince(since)), monthKey)
  }

  /** The map has exactly the given keys, six of them when they are distinct,
      and each holds the fees of the recent deliveries in that month;
      deliveries in other months are dropped. */
  lemma {:induction false} MonthlyRevenueMeaning(services: seq<Service>, since: int, keys: seq<string>,
                                                 monthKey: int -> string)
    ensures var m := MonthlyRevenue(services, since, keys, monthKey);
      (forall k :: k in m <==> k in keys)
      && forall k :: k in keys ==>
           m[k] == Revenue(Filter(services, DeliveredSince(since)), InMonth(monthKey, k))
    ensures |keys| == 6 && Distinct(keys) ==> |MonthlyRevenue(services, since, keys, monthKey).Keys| == 6
  {
    var m := MonthlyRevenue(services, since, keys, monthKey);
    FillSums(ZeroMap(keys), Filter(services, DeliveredSince(since)), monthKey);
    if |keys| == 6 && Distinct(keys) {
      DistinctCard(keys);
      assert m.Keys == set k | k in keys;
    }
  }

  // ---------------------------------------------------------------------------
  // The handler
  // ---------------------------------------------------------------------------

  datatype Changes = Changes(todayServiceChange: real, revenueChange: real)

  datatype Stats = Stats(
    todayServices: nat,
    pendingServices: nat,
    completedServices: nat,
    todayRevenue: real,
    servicesByStatus: seq<StatusCount>,
    monthlyRevenue: map<string, real>,
    changes: Changes)

  /** The reply's top-level JSON keys: the two changes are nested. */
  const StatsKeys: set<string> := {"todayServices", "pendingServices", "completedServices", "todayRevenue",
                                   "servicesByStatus", "monthlyRevenue", "changes"}

  /** The handler. `today` and `yesterday` run from local midnight to
      23:59:59.999; `sixMonthsAgo` is the cut-off for the monthly map, whose
      keys are `monthKeys`, read through `monthKey`. */
  function DashboardStats(services: seq<Service>, today: Reports.Window, yesterday: Reports.Window,
                          sixMonthsAgo: int, monthKeys: seq<string>, monthKey: int -> string): (r: Stats)
    ensures r.todayServices == |Filter(services, CreatedIn(today))|
    ensures r.pendingServices == CountIn(services, OpenNames)
    ensures r.completedServices == CountIn(services, DoneNames)
    ensures r.todayRevenue == Revenue(services, DeliveredIn(today))
    ensures r.changes.todayServiceChange
            == GuardedChange(r.todayServices as real, |Filter(services, CreatedIn(yesterday))| as real)
    ensures r.changes.revenueChange == GuardedChange(r.todayRevenue, Revenue(services, DeliveredIn(yesterday)))
    ensures r.servicesByStatus == StatusCounts(services)
    ensures r.monthlyRevenue == MonthlyRevenue(services, sixMonthsAgo, monthKeys, monthKey)
  {
    var todayCount := |Filter(services, CreatedIn(today))|;
    var yesterdayCount := |Filter(services, CreatedIn(yesterday))|;
    var todayRevenue := Revenue(services, DeliveredIn(today));
    var yesterdayRevenue := Revenue(services, DeliveredIn(yesterday));
    Stats(todayCount, CountIn(services, OpenNames), CountIn(services, DoneNames), todayRevenue,
          StatusCounts(services), MonthlyRevenue(services, sixMonthsAgo, monthKeys, monthKey),
          Changes(GuardedChange(todayCount as real, yesterdayCount as real),
                  GuardedChange(todayRevenue, yesterdayRevenue)))
  }

  /** Open and done tickets never outnumber all tickets, whatever the stored
      statuses. */
  lemma {:induction false} OpenAndDoneBounded(services: seq<Service>)
    ensures CountIn(services, OpenNames) + CountIn(services, DoneNames) <= |services|
  {
    var open := StatusIn(OpenNames);
    var done := StatusIn(DoneNames);
    var rest := (s: Service) => !(s.status in OpenNames) && !(s.status in DoneNames);
    FilterSplitCount3(services, open, done, rest);
  }

  /** The pending and completed counts never outnumber all tickets, and the
      per-status counts add up to all of them. */
  lemma {:induction false} StatsBounded(services: seq<Service>, today: Reports.Window, yesterday: Reports.Window,
                                        sixMonthsAgo: int, monthKeys: seq<string>, monthKey: int -> string)
    ensures var r := DashboardStats(services, today, yesterday, sixMonthsAgo, monthKeys, monthKey);
      r.pendingServices + r.completedServices <= |services|
      && CountSum(r.servicesByStatus) == |services|
  {
    var r := DashboardStats(services, today, yesterday, sixMonthsAgo, monthKeys, monthKey);
    assert r.servicesByStatus == StatusCounts(services);
    OpenAndDoneBounded(services);
    StatusCountsConserve(services);
  }
}

=== FILE: dashboard_visual.dfy ===
/** The visual dashboard: the trend chart's period labels and the service
    income pie, built from the general report. */
module DashboardVisual {
  import opened Util
  import opened Numeric
  import opened Records
  import Reports
  import ReportsPage

  // ---------------------------------------------------------------------------
  // Trend chart
  // ---------------------------------------------------------------------------

  /** A trend row with its period relabelled for the chart. */
  datatype ChartRow = ChartRow(period: string, income: real, expense: real, net: real)

  /** "YYYY-MM" as "<month name> YYYY": the name of `parseInt` of the part after
      the first dash ("undefined" when that is not a month), a space, then the
      part before it. */
  function ChartLabel(period: string): string
  {
    var parts := Split(period, '-');
    var month := if |parts| > 1 then ParseInt(parts[1]) else None;
    ReportsPage.MonthText(if month.Some? then month.value else 0) + " " + parts[0]
  }

  /** `processChartData`: nothing without data, else each row relabelled. */
  function ProcessChartData(trends: Option<seq<Reports.TrendRow>>): (r: seq<ChartRow>)
    ensures trends.None? ==> r == []
    ensures trends.Some? ==> |r| == |trends.value|
    ensures trends.Some? ==> forall i :: 0 <= i < |r| ==>
      r[i] == ChartRow(ChartLabel(trends.value[i].period), trends.value[i].income,
                       trends.value[i].expense, trends.value[i].net)
  {
    match trends
    case None => []
    case Some(rows) =>
      seq(|rows|, i requires 0 <= i < |rows| =>
        ChartRow(ChartLabel(rows[i].period), rows[i].income, rows[i].expense, rows[i].net))
  }

  /** The server's period text for a year and 0-based month is relabelled as
      that month's name and the year. */
  lemma {:induction false} ChartLabelOfPeriod(year: nat, month: int)
    requires 0 <= month < 12
    ensures ChartLabel(Reports.PeriodText(year, month)) == ReportsPage.MonthNames[month] + " " + NatToString(year)
  {
    var a := NatToString(year);
    var b := PadStart2(NatToString(month + 1));
    Reports.PaddedValue(NatToString(month + 1));
    DigitsHaveNoDash(a);
    DigitsHaveNoDash(b);
    assert Reports.PeriodText(year, month) == a + ['-'] + b;
    SplitJoin(a, b, '-');
    SplitNoSep(b, '-');
    ParseIntOfPaddedMonth(month + 1);
  }

  /** `fetchDashboardData` asks for the general report only. */
  const GeneralQuery := Reports.ReportQuery(Some("general"), None, None)

  /** The page asks for the general report and reads its trends the nested
      way, so the chart is always empty; read from `trends` itself, the chart
      has the six rows, each labelled with its month and year. */
  lemma {:induction false} TrendChartOfGeneralReport(records: seq<FinancialRecord>, cal: Reports.Calendar,
                                                     nowYear: nat, nowMonth: int, k: int)
    requires 0 <= nowMonth < 12 && nowYear >= 1 && 0 <= k < 6
    ensures var b := Reports.Report(records, cal, GeneralQuery, nowYear, nowMonth).body;
      && ProcessChartData(ReportsPage.NestedTrends(b)) == []
      && |ProcessChartData(ReportsPage.TrendRows(b))| == 6
      && var ym := Reports.TrendMonth(nowYear, nowMonth, k);
         ym.year >= 0 && 0 <= ym.month < 12
         && ProcessChartData(ReportsPage.TrendRows(b))[k].period
            == ReportsPage.MonthNames[ym.month] + " " + NatToString(ym.year)
  {
    var b := Reports.Report(records, cal, GeneralQuery, nowYear, nowMonth).body;
    var trends := Reports.TrendsOf(records, cal, nowYear, nowMonth);
    assert b.General? && ReportsPage.TrendRows(b) == Some(trends) by {
      assert b == Reports.General(Reports.MonthlyReportOf(records, cal, nowYear, nowMonth),
                                  Reports.YearlyReportOf(records, cal, nowYear), trends);
    }
    var ym := Reports.TrendMonth(nowYear, nowMonth, k);
    assert ym.year >= 0 by {
      assert ym.year * 12 + ym.month >= 7;
    }
    assert trends[k].period == Reports.PeriodText(ym.year, ym.month) by {
      assert trends[k] == Reports.TrendRowOf(records, cal, ym);
    }
    ChartOfTrends(trends, ym.year, ym.month, k);
  }

  /** Six trend rows relabel to six chart rows, row `k` showing its month's
      name and year. */
  lemma {:induction false} ChartOfTrends(trends: seq<Reports.TrendRow>, year: nat, month: int, k: int)
    requires |trends| == 6 && 0 <= k < 6 && 0 <= month < 12
    requires trends[k].period == Reports.PeriodText(year, month)
    ensures |ProcessChartData(Some(trends))| == 6
    ensures ProcessChartData(Some(trends))[k].period == ReportsPage.MonthNames[month] + " " + NatToString(year)
  {
    ChartLabelOfPeriod(year, month);
  }

  // ---------------------------------------------------------------------------
  // Service income pie
  // ---------------------------------------------------------------------------

  /** One group of the month's service income: the summed amount and the
      number of entries. */
  datatype ServiceSum = ServiceSum(amount: real, count: nat)

  /** A pie slice. */
  datatype Slice = Slice(name: string, value: real, count: nat, color: string)

  const Colors: seq<string> := ["#0088FE", "#00C49F", "#FFBB28", "#FF8042", "#8884D8", "#82CA9D", "#FFC658", "#FF7C7C"]

  const MaxSlices := 8

  function Positive(): ServiceSum -> bool
  {
    (g: ServiceSum) => g.amount > 0.0
  }

  /** Names and colours by position among the positive groups, before any
      sorting. */
  function Labelled(groups: seq<ServiceSum>): (r: seq<Slice>)
    ensures |r| == |groups|
    ensures forall i :: 0 <= i < |r| ==>
      r[i] == Slice("Servis " + NatToString(i + 1), groups[i].amount, groups[i].count, Colors[i % |Colors|])
  {
    seq(|groups|, i requires 0 <= i < |groups| =>
      Slice("Servis " + NatToString(i + 1), groups[i].amount, groups[i].count, Colors[i % |Colors|]))
  }

  function SliceValue(s: Slice): real { s.value }

  /** `processServiceData` */
  function ProcessServiceData(groups: Option<seq<ServiceSum>>): seq<Slice>
  {
    match groups
    case None => []
    case Some(gs) => Take(SortDesc(Labelled(Filter(gs, Positive())), SliceValue), MaxSlices)
  }

  /** The pie has at most eight slices, largest first, all positive, each a
      labelled positive group; a labelled group left out is no larger than
      any slice shown. */
  lemma {:induction false} ServiceDataTopEight(gs: seq<ServiceSum>)
    ensures var r := ProcessServiceData(Some(gs));
      var all := Labelled(Filter(gs, Positive()));
      && |r| <= MaxSlices && |r| == Min(MaxSlices, |all|)
      && SortedDesc(r, SliceValue)
      && (forall i :: 0 <= i < |r| ==> r[i] in all && r[i].value > 0.0)
      && (forall x :: x in all && x !in r ==> forall i :: 0 <= i < |r| ==> r[i].value >= x.value)
  {
    var all := Labelled(Filter(gs, Positive()));
    var sorted := SortDesc(all, SliceValue);
    var r := ProcessServiceData(Some(gs));
    assert r == Take(sorted, MaxSlices);
    SortDescLength(all, SliceValue);
    TakeOfSorted(all, SliceValue, MaxSlices);
    LabelledPositive(gs);
    forall x | x in all && x !in r
      ensures forall i :: 0 <= i < |r| ==> r[i].value >= x.value
    {
      LeftOutIsSmaller(all, SliceValue, MaxSlices, x);
    }
  }

  /** Every labelled slice has a positive value. */
  lemma {:induction false} LabelledPositive(gs: seq<ServiceSum>)
    ensures forall x :: x in Labelled(Filter(gs, Positive())) ==> x.value > 0.0
  {
    var pos := Filter(gs, Positive());
    var all := Labelled(pos);
    forall x | x in all
      ensures x.value > 0.0
    {
      var k :| 0 <= k < |all| && all[k] == x;
      assert x.value == pos[k].amount;
      assert Positive()(pos[k]);
    }
  }

  /** Names follow the input order, not the size: with a smaller group first,
      the largest slice is "Servis 2". */
  lemma {:induction false} FirstNameNotLargest()
    ensures ProcessServiceData(Some([ServiceSum(1.0, 1), ServiceSum(2.0, 1)]))[0].name == "Servis 2"
  {
    var gs := [ServiceSum(1.0, 1), ServiceSum(2.0, 1)];
    LargerSecondComesFirst(gs);
    assert Labelled(gs)[1].name == "Servis 2" by {
      assert NatToString(2) == "2";
    }
  }

  /** Of two positive groups, a larger second one becomes the first slice. */
  lemma {:induction false} LargerSecondComesFirst(gs: seq<ServiceSum>)
    requires |gs| == 2 && 0.0 < gs[0].amount < gs[1].amount
    ensures ProcessServiceData(Some(gs))[0] == Labelled(gs)[1]
  {
    PositiveKept(gs);
    SortedPair(gs);
    var all := Labelled(gs);
    assert Take([all[1], all[0]], MaxSlices) == [all[1], all[0]];
  }

  lemma {:induction false} PositiveKept(gs: seq<ServiceSum>)
    requires forall i :: 0 <= i < |gs| ==> gs[i].amount > 0.0
    ensures Filter(gs, Positive()) == gs
  {
    forall i | 0 <= i < |gs| ensures Positive()(gs[i]) {
    }
    FilterAll(gs, Positive());
  }

  lemma {:induction false} SortedPair(gs: seq<ServiceSum>)
    requires |gs| == 2 && gs[0].amount < gs[1].amount
    ensures SortDesc(Labelled(gs), SliceValue) == [Labelled(gs)[1], Labelled(gs)[0]]
  {
    var all := Labelled(gs);
    assert all == [all[0], all[1]];
    SortTwo(all[0], all[1], SliceValue);
  }
}

=== FILE: email_notify.dfy ===
/** `POST /api/notifications/email`: validate the request, pick the template
    for the notification type, send the mail and log it as SENT. The mail
    service is an opaque yes/no answer; dates and interpolated request values
    are rendered by caller-supplied functions. */
module EmailNotify {
  import opened Util
  import opened Js
  import opened Records

  const MissingParams := "Eksik parametreler"
  const ServiceNotFound := "Servis bulunamadı"
  const FeeRequired := "Onay için ücret bilgisi gereklidir"
  const InvalidType := "Geçersiz bildirim türü"
  const SendFailed := "E-posta gönderilirken bir hata oluştu"
  const SentMessage := "E-posta başarıyla gönderildi"

  const SubjectReceived := "Cihazınız Servisimize Alındı"
  const SubjectApproval := "Servis Onayı Bekleniyor"
  const SubjectCompleted := "Cihazınızın Tamiri Tamamlandı"

  /** The JSON body; absent or null text fields are `None`. */
  datatype EmailRequest = EmailRequest(
    kind: Option<string>,
    serviceId: Option<string>,
    customerEmail: Option<string>,
    estimatedFee: JsVal)

  /** A labelled value in the mail's detail table. */
  datatype Detail = Detail(caption: string, value: string)

  /** The visible content of a mail: heading, addressee and detail rows
      (markup and fixed prose are left out). */
  datatype MailBody = MailBody(heading: string, customerName: string, details: seq<Detail>)

  datatype Mail = Mail(to: string, subject: string, body: MailBody)

  /** The reply body of a successful send. */
  datatype Sent = Sent(message: string, kind: string, serviceId: string)

  function DetailPieces(ds: seq<Detail>): (r: seq<string>)
    ensures |r| == 2 * |ds|
    ensures forall i :: 0 <= i < |ds| ==> r[2 * i] == ds[i].caption && r[2 * i + 1] == ds[i].value
  {
    if |ds| == 0 then [] else [ds[0].caption, ds[0].value] + DetailPieces(ds[1..])
  }

  /** The mail text, in reading order. */
  function BodyText(b: MailBody): string
  {
    Concat([b.heading, "Sayın ", b.customerName] + DetailPieces(b.details))
  }

  /** The subject and body for a notification type, or the 400 reply. */
  function Template(kind: string, s: Service, c: Customer, fee: JsVal, now: int,
                    dateText: int -> string, show: JsVal -> string): Reply<(string, MailBody)>
  {
    var device := Detail("Cihaz:", s.brand + " " + s.model);
    var number := Detail("Servis Takip No:", s.serviceNumber);
    if kind == "SERVICE_RECEIVED" then
      Reply(200, (SubjectReceived,
        MailBody(SubjectReceived, c.name, [number, device, Detail("Teslim Tarihi:", dateText(s.createdAt))])))
    else if kind == "CUSTOMER_APPROVAL_PENDING" then
      if !Truthy(fee) then Failure(400, FeeRequired)
      else Reply(200, (SubjectApproval,
        MailBody(SubjectApproval, c.name, [number, device, Detail("Tahmini Tamir Ücreti:", show(fee) + " TL")])))
    else if kind == "SERVICE_COMPLETED" then
      Reply(200, (SubjectCompleted,
        MailBody(SubjectCompleted, c.name, [number, device, Detail("Tamamlanma Tarihi:", dateText(now))])))
    else Failure(400, InvalidType)
  }

  predicate KnownKind(kind: string)
  {
    kind == "SERVICE_RECEIVED" || kind == "CUSTOMER_APPROVAL_PENDING" || kind == "SERVICE_COMPLETED"
  }

  function SubjectFor(kind: string): string
  {
    if kind == "SERVICE_RECEIVED" then SubjectReceived
    else if kind == "CUSTOMER_APPROVAL_PENDING" then SubjectApproval
    else SubjectCompleted
  }

  predicate HasParams(req: EmailRequest)
  {
    Filled(req.kind) && Filled(req.serviceId) && Filled(req.customerEmail)
  }

  /** The handler. `delivered` is what the mail service answers; `now` is the
      current time. Returns the reply, the notification log after the call and
      the mail handed to the mail service, if any. */
  function Notify(st: Store, req: EmailRequest, now: int, delivered: bool,
                  dateText: int -> string, show: JsVal -> string): (r: (Reply<Sent>, seq<NotificationLog>, Option<Mail>))
    ensures !HasParams(req) ==> r.0 == Failure(400, MissingParams)
    ensures HasParams(req) && FindById(st.services, ServiceKey, req.serviceId.value).None?
            ==> r.0 == Failure(404, ServiceNotFound)
    ensures r.0.Failure? && r.0.code == 400 ==> r.2.None?
    ensures r.0.Reply? ==>
      && HasParams(req) && KnownKind(req.kind.value) && delivered
      && r.0 == Reply(200, Sent(SentMessage, req.kind.value, req.serviceId.value))
      && r.2.Some? && r.2.value.to == req.customerEmail.value
      && r.2.value.subject == SubjectFor(req.kind.value)
      && r.1 == st.logs + [NotificationLog(req.kind.value, req.serviceId.value, req.customerEmail.value,
                                           "SENT", SubjectFor(req.kind.value), now)]
    ensures r.0.Failure? ==> r.1 == st.logs
  {
    if !HasParams(req) then (Failure(400, MissingParams), st.logs, None)
    else
      var kind := req.kind.value;
      var id := req.serviceId.value;
      var to := req.customerEmail.value;
      match FindById(st.services, ServiceKey, id)
      case None => (Failure(404, ServiceNotFound), st.logs, None)
      case Some(s) =>
        match FindById(st.customers, CustomerKey, s.customerId)
        case None => (Failure(500, SendFailed), st.logs, None)
        case Some(c) =>
          match Template(kind, s, c, req.estimatedFee, now, dateText, show)
          case Failure(code, msg) => (Failure(code, msg), st.logs, None)
          case Reply(_, content) =>
            var mail := Mail(to, content.0, content.1);
            if !delivered then (Failure(500, SendFailed), st.logs, Some(mail))
            else
              (Reply(200, Sent(SentMessage, kind, id)),
               st.logs + [NotificationLog(kind, id, to, "SENT", content.0, now)],
               Some(mail))
  }

  /** A notification is accepted exactly when the parameters are present, the
      ticket and its customer exist, the type is one of the three templates
      (an approval request also needing a truthy fee) and the mail service
      accepts it; PAYMENT_REMINDER in particular is always refused. */
  lemma {:induction false} AcceptedIff(st: Store, req: EmailRequest, now: int, delivered: bool,
                    dateText: int -> string, show: JsVal -> string)
    ensures Notify(st, req, now, delivered, dateText, show).0.Reply? <==>
      && HasParams(req)
      && FindById(st.services, ServiceKey, req.serviceId.value).Some?
      && FindById(st.customers, CustomerKey, FindById(st.services, ServiceKey, req.serviceId.value).value.customerId).Some?
      && KnownKind(req.kind.value)
      && (req.kind.value == "CUSTOMER_APPROVAL_PENDING" ==> Truthy(req.estimatedFee))
      && delivered
    ensures HasParams(req) && req.kind.value == "PAYMENT_REMINDER"
            && FindById(st.services, ServiceKey, req.serviceId.value).Some?
            && FindById(st.customers, CustomerKey, FindById(st.services, ServiceKey, req.serviceId.value).value.customerId).Some?
            ==> Notify(st, req, now, delivered, dateText, show).0 == Failure(400, InvalidType)
  {
  }

  /** An approval request with a falsy fee (missing, empty, or 0) is refused
      with 400 and writes no log. */
  lemma {:induction false} ApprovalNeedsFee(st: Store, req: EmailRequest, now: int, delivered: bool,
                         dateText: int -> string, show: JsVal -> string)
    requires HasParams(req) && req.kind.value == "CUSTOMER_APPROVAL_PENDING"
    requires FindById(st.services, ServiceKey, req.serviceId.value).Some?
    requires FindById(st.customers, CustomerKey, FindById(st.services, ServiceKey, req.serviceId.value).value.customerId).Some?
    requires !Truthy(req.estimatedFee)
    ensures var r := Notify(st, req, now, delivered, dateText, show);
      r.0 == Failure(400, FeeRequired) && r.1 == st.logs
  {
  }

  /** Every mail that is sent greets the ticket's customer by name and quotes
      the ticket's service number. */
  lemma {:induction false} MailNamesCustomerAndTicket(st: Store, req: EmailRequest, now: int, delivered: bool,
                                   dateText: int -> string, show: JsVal -> string)
    requires Notify(st, req, now, delivered, dateText, show).0.Reply?
    ensures var mail := Notify(st, req, now, delivered, dateText, show).2.value;
      var s := FindById(st.services, ServiceKey, req.serviceId.value).value;
      var c := FindById(st.customers, CustomerKey, s.customerId).value;
      && Contains(BodyText(mail.body), c.name)
      && Contains(BodyText(mail.body), s.serviceNumber)
  {
    var mail := Notify(st, req, now, delivered, dateText, show).2.value;
    var pieces := [mail.body.heading, "Sayın ", mail.body.customerName] + DetailPieces(mail.body.details);
    assert pieces[2] == mail.body.customerName;
    assert pieces[4] == mail.body.details[0].value;
    ConcatContains(pieces, 2);
    ConcatContains(pieces, 4);
  }

  /** The approval mail quotes the fee as the request sent it. */
  lemma {:induction false} ApprovalMailQuotesFee(st: Store, req: EmailRequest, now: int, delivered: bool,
                              dateText: int -> string, show: JsVal -> string)
    requires Notify(st, req, now, delivered, dateText, show).0.Reply?
    requires req.kind.value == "CUSTOMER_APPROVAL_PENDING"
    ensures Contains(BodyText(Notify(st, req, now, delivered, dateText, show).2.value.body),
                     show(req.estimatedFee) + " TL")
  {
    var mail := Notify(st, req, now, delivered, dateText, show).2.value;
    var pieces := [mail.body.heading, "Sayın ", mail.body.customerName] + DetailPieces(mail.body.details);
    assert pieces[8] == mail.body.details[2].value;
    ConcatContains(pieces, 8);
  }
}

=== FILE: finance_api.dfy ===
/** `POST /api/finance` (ledger entry creation) and `GET /api/finance`
    (filtered, paginated ledger with an income/expense summary). */
module FinanceApi {
  import opened Util
  import opened Numeric
  import opened Js
  import opened Records

  const RequiredError := "Tutar ve tür alanları zorunludur"
  const CreateFailedError := "Finansal kayıt oluşturulurken bir hata oluştu"
  const ListFailedError := "Finansal kayıtlar yüklenirken bir hata oluştu"

  // ---------------------------------------------------------------------------
  // Creation
  // ---------------------------------------------------------------------------

  /** The JSON body of a creation request; `kind` is the `type` field. */
  datatype CreateBody = CreateBody(
    amount: JsVal,
    kind: Option<string>,
    description: Option<string>,
    serviceId: Option<string>)

  /** `if (!amount || !type)` lets the body through. */
  predicate HasRequired(b: CreateBody)
  {
    Truthy(b.amount) && Filled(b.kind)
  }

  /** The ticket relation `db.financialRecord.create` writes: absent, or a
      stored ticket. */
  predicate TicketStored(services: seq<Service>, b: CreateBody)
  {
    b.serviceId.None? || FindById(services, ServiceKey, b.serviceId.value).Some?
  }

  /** The handler. `services` are the stored tickets; `id` and `now` are the
      identifier and timestamp the store assigns. A NaN amount, or a ticket
      identifier naming no stored ticket, is refused by the store (500).
      Returns the reply and the ledger after the call. */
  function CreateRecord(services: seq<Service>, records: seq<FinancialRecord>, b: CreateBody, id: string, now: int)
    : (r: (Reply<FinancialRecord>, seq<FinancialRecord>))
    ensures !HasRequired(b) ==> r.0 == Failure(400, RequiredError) && r.1 == records
    ensures r.0.Reply? <==> HasRequired(b) && ParseNumberVal(b.amount).Finite? && TicketStored(services, b)
    ensures HasRequired(b) && r.0.Failure? ==> r.0 == Failure(500, CreateFailedError)
    ensures r.0.Failure? ==> r.1 == records
    ensures r.0.Reply? ==>
      && r.0.code == 201
      && r.1 == records + [r.0.body]
      && ParseNumberVal(b.amount) == Finite(r.0.body.amount)
      && r.0.body.kind == Upper(b.kind.value)
      && r.0.body.description == b.description && r.0.body.serviceId == b.serviceId
      && r.0.body.id == id && r.0.body.recordedAt == now
  {
    if !HasRequired(b) then (Failure(400, RequiredError), records)
    else
      match ParseNumberVal(b.amount)
      case NaN => (Failure(500, CreateFailedError), records)
      case Finite(x) =>
        if !TicketStored(services, b) then (Failure(500, CreateFailedError), records)
        else
          var rec := FinancialRecord(id, x, Upper(b.kind.value), b.description, b.serviceId, now);
          (Reply(201, rec), records + [rec])
  }

  /** A numeric 0 amount is refused, while the text "0" is truthy and is stored
      as an amount of 0. */
  lemma {:induction false} ZeroAmountCases(services: seq<Service>, records: seq<FinancialRecord>, kind: string, id: string, now: int)
    requires kind != ""
    ensures CreateRecord(services, records, CreateBody(Num(Finite(0.0)), Some(kind), None, None), id, now).0
            == Failure(400, RequiredError)
    ensures var r := CreateRecord(services, records, CreateBody(Str("0"), Some(kind), None, None), id, now).0;
      r.Reply? && r.body.amount == 0.0
  {
    ParseFloatOfNatToString(0);
    assert NatToString(0) == "0";
  }

  /** Upper-casing is idempotent, so a stored type sent back unchanged is
      stored again unchanged. */
  lemma {:induction false} UpperIdempotent(s: string)
    ensures Upper(Upper(s)) == Upper(s)
  {
  }

  // ---------------------------------------------------------------------------
  // Listing
  // ---------------------------------------------------------------------------

  /** The URL query; absent parameters are `None`. `kind` is `type`. */
  datatype ListQuery = ListQuery(
    kind: Option<string>,
    period: Option<string>,
    page: Option<string>,
    limit: Option<string>)

  /** The earliest `recordedAt` a period admits. `todayStart` is local midnight
      of `now`; "weekly" and "monthly" go back 7 and 30 whole days; any other
      period starts at `now` itself. */
  function PeriodStart(period: string, now: int, todayStart: int): int
  {
    if period == "daily" then todayStart
    else if period == "weekly" then now - 7 * DayMs
    else if period == "monthly" then now - 30 * DayMs
    else now
  }

  /** The type filter applies only for a truthy type other than "all". */
  predicate KindFiltered(q: ListQuery)
  {
    Filled(q.kind) && q.kind.value != "all"
  }

  predicate PeriodFiltered(q: ListQuery)
  {
    Filled(q.period) && q.period.value != "all"
  }

  /** The `where` clause. */
  predicate Selected(q: ListQuery, now: int, todayStart: int, r: FinancialRecord)
  {
    (KindFiltered(q) ==> r.kind == Upper(q.kind.value))
    && (PeriodFiltered(q) ==> r.recordedAt >= PeriodStart(q.period.value, now, todayStart))
  }

  function Selector(q: ListQuery, now: int, todayStart: int): FinancialRecord -> bool
  {
    (r: FinancialRecord) => Selected(q, now, todayStart, r)
  }

  function RecordedAt(r: FinancialRecord): real { r.recordedAt as real }

  function Amount(r: FinancialRecord): real { r.amount }

  /** The matching entries, in ledger order. */
  function Matching(records: seq<FinancialRecord>, q: ListQuery, now: int, todayStart: int): seq<FinancialRecord>
  {
    Filter(records, Selector(q, now, todayStart))
  }

  /** The matching entries, latest first. */
  function Selection(records: seq<FinancialRecord>, q: ListQuery, now: int, todayStart: int): seq<FinancialRecord>
  {
    SortDesc(Matching(records, q, now, todayStart), RecordedAt)
  }

  function IsKind(kind: string): FinancialRecord -> bool
  {
    (r: FinancialRecord) => r.kind == kind
  }

  /** The `_sum.amount` of one `type` group, 0 when the group is absent. */
  function KindTotal(s: seq<FinancialRecord>, kind: string): real
  {
    SumOf(Filter(s, IsKind(kind)), Amount)
  }

  datatype Summary = Summary(income: real, expense: real, net: real, transactionCount: nat)

  /** The `summary` block over the matching entries. */
  function SummaryOf(s: seq<FinancialRecord>): (m: Summary)
    ensures m.net == m.income - m.expense
    ensures m.transactionCount == |s|
  {
    var income := KindTotal(s, "INCOME");
    var expense := KindTotal(s, "EXPENSE");
    Summary(income, expense, income - expense, |s|)
  }

  /** An entry's effect on the balance: income adds, expense subtracts, any
      other type is ignored. */
  function Signed(r: FinancialRecord): real
  {
    if r.kind == "INCOME" then r.amount
    else if r.kind == "EXPENSE" then -r.amount
    else 0.0
  }

  /** The net of the summary is the signed sum of the entries, one by one. */
  lemma {:induction false} NetIsSignedSum(s: seq<FinancialRecord>)
    ensures SummaryOf(s).net == SumOf(s, Signed)
    decreases |s|
  {
    if |s| > 0 {
      var init := s[..|s| - 1];
      var x := s[|s| - 1];
      NetIsSignedSum(init);
      assert s == init + [x];
      var fi := Filter(init, IsKind("INCOME"));
      var fe := Filter(init, IsKind("EXPENSE"));
      if x.kind == "INCOME" {
        assert Filter(s, IsKind("INCOME")) == fi + [x];
        SumOfSnoc(fi, x, Amount);
      } else if x.kind == "EXPENSE" {
        assert Filter(s, IsKind("EXPENSE")) == fe + [x];
        SumOfSnoc(fe, x, Amount);
      }
    }
  }

  datatype Ledger = Ledger(records: seq<FinancialRecord>, pagination: Pagination, summary: Summary)

  function PageParam(q: ListQuery): Option<int> { ParseInt(ParamOr(q.page, "1")) }

  function LimitParam(q: ListQuery): Option<int> { ParseInt(ParamOr(q.limit, "10")) }

  predicate ValidPaging(q: ListQuery)
  {
    PageParam(q).Some? && PageParam(q).value >= 1
    && LimitParam(q).Some? && LimitParam(q).value >= 1
  }

  /** One page of the selection with its pagination and summary blocks. */
  function LedgerPage(records: seq<FinancialRecord>, q: ListQuery, now: int, todayStart: int,
                      page: int, limit: int): (r: Ledger)
    requires page >= 1 && limit >= 1
    ensures r.pagination.page == page && r.pagination.limit == limit
    ensures r.pagination.total == |Matching(records, q, now, todayStart)|
    ensures r.pagination.pages * limit >= r.pagination.total
    ensures r.pagination.total > 0 ==> (r.pagination.pages - 1) * limit < r.pagination.total
    ensures r.summary.transactionCount == r.pagination.total
    ensures |r.records| <= limit
    ensures SortedDesc(r.records, RecordedAt)
    ensures AllSelected(r.records, records, q, now, todayStart)
    ensures r.records == PageSlice(Selection(records, q, now, todayStart), page, limit)
    ensures r.summary == SummaryOf(Matching(records, q, now, todayStart))
  {
    var matching := Matching(records, q, now, todayStart);
    var pagination := PaginationOf(|matching|, page, limit);
    assert pagination.pages * limit >= pagination.total
      && (pagination.total > 0 ==> (pagination.pages - 1) * limit < pagination.total);
    Ledger(PagedRecords(records, q, now, todayStart, page, limit), pagination, SummaryOf(matching))
  }

  /** Every entry shown is a ledger entry that passes the filters. */
  predicate AllSelected(shown: seq<FinancialRecord>, records: seq<FinancialRecord>, q: ListQuery, now: int,
                        todayStart: int)
  {
    forall i :: 0 <= i < |shown| ==> shown[i] in records && Selected(q, now, todayStart, shown[i])
  }

  /** The entries on one page: at most `limit`, latest first, all matching. */
  function PagedRecords(records: seq<FinancialRecord>, q: ListQuery, now: int, todayStart: int,
                        page: int, limit: int): (shown: seq<FinancialRecord>)
    requires page >= 1 && limit >= 1
    ensures |shown| <= limit
    ensures SortedDesc(shown, RecordedAt)
    ensures AllSelected(shown, records, q, now, todayStart)
  {
    PageOfSelection(records, q, now, todayStart, page, limit);
    PageSlice(Selection(records, q, now, todayStart), page, limit)
  }

  /** `GET /api/finance`. A page or limit that does not parse to a positive
      number fails. */
  function ListRecords(records: seq<FinancialRecord>, q: ListQuery, now: int, todayStart: int): (r: Reply<Ledger>)
    ensures r.Failure? <==> !ValidPaging(q)
    ensures r.Failure? ==> r.code == 500 && r.error == ListFailedError
    ensures r.Reply? ==>
      r.code == 200 && r.body == LedgerPage(records, q, now, todayStart, PageParam(q).value, LimitParam(q).value)
  {
    if !ValidPaging(q) then Failure(500, ListFailedError)
    else Reply(200, LedgerPage(records, q, now, todayStart, PageParam(q).value, LimitParam(q).value))
  }

  /** Every selected entry is on some page: the one numbered by its position
      in the latest-first selection, which never exceeds the page count. */
  lemma {:induction false} LedgerCoversSelection(records: seq<FinancialRecord>, q: ListQuery, now: int,
                                                 todayStart: int, limit: int, j: nat)
    requires limit >= 1
    requires j < |Selection(records, q, now, todayStart)|
    ensures var r := LedgerPage(records, q, now, todayStart, PageOf(j, limit), limit);
      && PageOf(j, limit) <= r.pagination.pages
      && j % limit < |r.records|
      && r.records[j % limit] == Selection(records, q, now, todayStart)[j]
  {
    var all := Selection(records, q, now, todayStart);
    PageOfLocates(all, limit, j);
    LedgerPageCount(records, q, now, todayStart, PageOf(j, limit), limit);
  }

  /** The page count is that of the latest-first selection. */
  lemma {:induction false} LedgerPageCount(records: seq<FinancialRecord>, q: ListQuery, now: int, todayStart: int,
                                           page: int, limit: int)
    requires page >= 1 && limit >= 1
    ensures LedgerPage(records, q, now, todayStart, page, limit).pagination.pages
            == PageCount(|Selection(records, q, now, todayStart)|, limit)
  {
    SortDescLength(Matching(records, q, now, todayStart), RecordedAt);
  }

  /** Any page of the selection is latest-first and holds only matching entries. */
  lemma {:induction false} PageOfSelection(records: seq<FinancialRecord>, q: ListQuery, now: int, todayStart: int,
                                           page: int, limit: int)
    requires page >= 1 && limit >= 1
    ensures var shown := PageSlice(Selection(records, q, now, todayStart), page, limit);
      SortedDesc(shown, RecordedAt)
      && forall i :: 0 <= i < |shown| ==> shown[i] in records && Selected(q, now, todayStart, shown[i])
  {
    var all := Selection(records, q, now, todayStart);
    var shown := PageSlice(all, page, limit);
    PageOfSorted(all, RecordedAt, page, limit);
    forall i | 0 <= i < |shown|
      ensures shown[i] in records && Selected(q, now, todayStart, shown[i])
    {
      SortFilterMembers(records, Selector(q, now, todayStart), RecordedAt, shown[i]);
    }
  }

  /** An entry is selected exactly when it is in the ledger, has the upper-cased
      type when a type filter applies, and is recorded no earlier than the
      period start when a period filter applies. */
  lemma {:induction false} SelectionExact(records: seq<FinancialRecord>, q: ListQuery, now: int, todayStart: int,
                                          r: FinancialRecord)
    ensures r in Selection(records, q, now, todayStart) <==>
      r in records
      && (KindFiltered(q) ==> r.kind == Upper(q.kind.value))
      && (PeriodFiltered(q) ==> r.recordedAt >= PeriodStart(q.period.value, now, todayStart))
  {
    SortFilterMembers(records, Selector(q, now, todayStart), RecordedAt, r);
  }

  /** Without a type filter and a period filter, every entry is counted. */
  lemma {:induction false} UnfilteredCountsAll(records: seq<FinancialRecord>, q: ListQuery, now: int, todayStart: int)
    requires ValidPaging(q) && !KindFiltered(q) && !PeriodFiltered(q)
    ensures ListRecords(records, q, now, todayStart).body.summary.transactionCount == |records|
    ensures ListRecords(records, q, now, todayStart).body.pagination.total == |records|
  {
    FilterAll(records, Selector(q, now, todayStart));
  }

  /** `transactionCount` counts every matching entry, not the page: it is at
      least the page size, and larger whenever more entries match than fit on
      one page. */
  lemma {:induction false} CountIsNotPageSize(records: seq<FinancialRecord>, q: ListQuery, now: int, todayStart: int)
    requires ValidPaging(q)
    ensures var b := ListRecords(records, q, now, todayStart).body;
      && b.summary.transactionCount >= |b.records|
      && (b.pagination.total > b.pagination.limit ==> b.summary.transactionCount > |b.records|)
  {
    var all := Selection(records, q, now, todayStart);
    var matching := Matching(records, q, now, todayStart);
    SortDescLength(matching, RecordedAt);
    var b := ListRecords(records, q, now, todayStart).body;
    var shown := PageSlice(all, PageParam(q).value, LimitParam(q).value);
    assert b.records == shown;
    if |shown| > 0 {
      assert Offset(PageParam(q).value, LimitParam(q).value) + |shown| - 1 < |all|;
    }
  }

  /** Filtering by one type leaves the other type's total at 0: listing
      "income" reports no expense, and its net is its income. */
  lemma {:induction false} KindFilterSummary(records: seq<FinancialRecord>, q: ListQuery, now: int, todayStart: int)
    requires ValidPaging(q) && KindFiltered(q)
    ensures var b := ListRecords(records, q, now, todayStart).body;
      && (forall i :: 0 <= i < |b.records| ==> b.records[i].kind == Upper(q.kind.value))
      && (Upper(q.kind.value) != "EXPENSE" ==> b.summary.expense == 0.0 && b.summary.net == b.summary.income)
      && (Upper(q.kind.value) != "INCOME" ==> b.summary.income == 0.0)
  {
    var matching := Matching(records, q, now, todayStart);
    var k := Upper(q.kind.value);
    if k != "EXPENSE" {
      FilterNone(matching, IsKind("EXPENSE"));
    }
    if k != "INCOME" {
      FilterNone(matching, IsKind("INCOME"));
    }
  }
}

=== FILE: finance_form.dfy ===
/** The ledger entry form: its initial values, the JSON body it submits and the
    create/update choice. */
module FinanceForm {
  import opened Util
  import opened Js
  import opened Numeric
  import opened Records
  import FinanceApi

  /** The form state; `kind` is the type select ("income" or "expense") and
      `serviceId` holds "none" for no linked ticket. */
  datatype FormData = FormData(amount: string, kind: string, description: string, serviceId: string)

  const NoService := "none"

  /** The type select's values. */
  const KindOptions: seq<string> := ["income", "expense"]

  /** The blank form, also what a successful submission resets to. */
  const Blank := FormData("", "", "", NoService)

  /** The entry being edited, as the form receives it; `amountText` is
      `amount` rendered with `toString()`. */
  datatype Edited = Edited(id: string, amount: real, amountText: string, kind: string, description: Option<string>, serviceId: Option<string>)

  /** The form values for an entry, or the blank form: the type is
      lower-cased to match the select, a missing description becomes '' and a
      missing ticket "none". */
  function InitialForm(record: Option<Edited>): (f: FormData)
    ensures record.None? ==> f == Blank
    ensures record.Some? ==>
      && f.amount == record.value.amountText
      && f.kind == Lower(record.value.kind)
      && f.description == ParamOr(record.value.description, "")
      && f.serviceId == ParamOr(record.value.serviceId, NoService)
  {
    match record
    case None => Blank
    case Some(e) => FormData(e.amountText, Lower(e.kind), ParamOr(e.description, ""), ParamOr(e.serviceId, NoService))
  }

  /** The submit button is enabled only while idle with an amount and a type. */
  predicate CanSubmit(f: FormData, loading: bool)
  {
    !loading && f.amount != "" && f.kind != ""
  }

  /** The JSON body: the amount through `parseFloat` (NaN is serialised as
      null), "none" sent as null, the other fields as typed. */
  function Body(f: FormData): (b: FinanceApi.CreateBody)
    ensures ParseFloat(f.amount).Some? ==> b.amount == Num(Finite(ParseFloat(f.amount).value))
    ensures ParseFloat(f.amount).None? ==> b.amount == Null
    ensures b.kind == Some(f.kind) && b.description == Some(f.description)
    ensures b.serviceId.None? <==> f.serviceId == NoService
    ensures b.serviceId.Some? ==> b.serviceId.value == f.serviceId
  {
    FinanceApi.CreateBody(
      match ParseFloat(f.amount) case Some(x) => Num(Finite(x)) case None => Null,
      Some(f.kind), Some(f.description),
      if f.serviceId == NoService then None else Some(f.serviceId))
  }

  datatype Verb = Post | Put

  datatype Request = Request(verb: Verb, url: string, body: FinanceApi.CreateBody)

  /** `handleSubmit`: an edited entry is updated in place, otherwise a new one
      is created. */
  function Submit(record: Option<Edited>, f: FormData): (r: Request)
    ensures r.body == Body(f)
    ensures r.verb == Put <==> record.Some?
    ensures record.Some? ==> r.url == "/api/finance/" + record.value.id
    ensures record.None? ==> r.url == "/api/finance"
  {
    match record
    case Some(e) => Request(Put, "/api/finance/" + e.id, Body(f))
    case None => Request(Post, "/api/finance", Body(f))
  }

  /** After a successful submission the form is blank again, so it cannot be
      submitted until an amount and a type are chosen. */
  function OnSaved(f: FormData): (r: FormData)
    ensures r == Blank && !CanSubmit(r, false)
  {
    Blank
  }

  /** Whatever the select offers is stored as INCOME or EXPENSE, and both
      stored types are shown by the select when an entry is edited. */
  lemma {:induction false} KindSelectRoundTrip(k: string)
    ensures k in KindOptions ==> Upper(k) in {"INCOME", "EXPENSE"}
    ensures k in {"INCOME", "EXPENSE"} ==> Lower(k) in KindOptions && Upper(Lower(k)) == k
  {
    if k in KindOptions {
      assert k == "income" || k == "expense";
      assert Upper("income") == "INCOME";
      assert Upper("expense") == "EXPENSE";
    }
    if k in {"INCOME", "EXPENSE"} {
      UpperOfLower(k);
      assert Lower("INCOME") == "income";
      assert Lower("EXPENSE") == "expense";
    }
  }

  /** Sending an untouched edit form to the creation endpoint stores the same
      amount, type and ticket, with an absent description coming back as
      empty text, exactly when the entry's ticket, if any, is still stored;
      otherwise the store refuses it with 500. */
  lemma {:induction false} CreateFromEdited(services: seq<Service>, records: seq<FinancialRecord>, e: Edited,
                                            id: string, now: int)
    requires ParseFloat(e.amountText) == Some(e.amount) && e.amount != 0.0
    requires e.kind in {"INCOME", "EXPENSE"}
    requires e.serviceId.None? || e.serviceId.value !in {"", NoService}
    ensures var r := FinanceApi.CreateRecord(services, records, Body(InitialForm(Some(e))), id, now).0;
      && (r.Reply? <==> e.serviceId.None? || FindById(services, ServiceKey, e.serviceId.value).Some?)
      && (r.Failure? ==> r == Failure(500, FinanceApi.CreateFailedError))
      && (r.Reply? ==>
            && r.body.amount == e.amount && r.body.kind == e.kind && r.body.serviceId == e.serviceId
            && r.body.description == Some(ParamOr(e.description, "")))
  {
    var b := Body(InitialForm(Some(e)));
    assert b.amount == Num(Finite(e.amount)) by {
      EditedAmount(e);
    }
    assert b.kind == Some(Lower(e.kind)) && Lower(e.kind) != "" && Upper(Lower(e.kind)) == e.kind by {
      EditedKind(e);
    }
    assert b.serviceId == e.serviceId by {
      EditedService(e);
    }
    CreateOfBody(services, records, b, id, now, e.amount, Lower(e.kind));
  }

  /** A body with a non-zero number and a non-empty type creates an entry
      holding that amount, the upper-cased type, and the body's ticket and
      description, unless its ticket is not stored, which gives 500. */
  lemma {:induction false} CreateOfBody(services: seq<Service>, records: seq<FinancialRecord>, b: FinanceApi.CreateBody,
                                        id: string, now: int, amount: real, kind: string)
    requires b.amount == Num(Finite(amount)) && amount != 0.0 && b.kind == Some(kind) && kind != ""
    ensures var r := FinanceApi.CreateRecord(services, records, b, id, now).0;
      && (r.Reply? <==> FinanceApi.TicketStored(services, b))
      && (r.Failure? ==> r == Failure(500, FinanceApi.CreateFailedError))
      && (r.Reply? ==>
            && r.body.amount == amount && r.body.kind == Upper(kind)
            && r.body.serviceId == b.serviceId && r.body.description == b.description)
  {
    assert FinanceApi.HasRequired(b);
  }

  /** An untouched edit form sends the stored amount as a number. */
  lemma {:induction false} EditedAmount(e: Edited)
    requires ParseFloat(e.amountText) == Some(e.amount)
    ensures Body(InitialForm(Some(e))).amount == Num(Finite(e.amount))
  {
  }

  /** An untouched edit form sends the stored type lower-cased, which the
      creation endpoint upper-cases back. */
  lemma {:induction false} EditedKind(e: Edited)
    requires e.kind in {"INCOME", "EXPENSE"}
    ensures Body(InitialForm(Some(e))).kind == Some(Lower(e.kind))
    ensures Lower(e.kind) != "" && Upper(Lower(e.kind)) == e.kind
  {
    KindSelectRoundTrip(e.kind);
  }

  /** An untouched edit form sends back the stored ticket, or null for none. */
  lemma {:induction false} EditedService(e: Edited)
    requires e.serviceId.None? || e.serviceId.value !in {"", NoService}
    ensures Body(InitialForm(Some(e))).serviceId == e.serviceId
  {
  }

  /** An amount that parses to 0 is refused by the creation endpoint, even
      though the submit button lets it through. */
  lemma {:induction false} ZeroAmountRefused(services: seq<Service>, records: seq<FinancialRecord>, f: FormData,
                                             id: string, now: int)
    requires ParseFloat(f.amount) == Some(0.0)
    ensures CanSubmit(f, false) <==> f.kind != ""
    ensures FinanceApi.CreateRecord(services, records, Body(f), id, now).0 == Failure(400, FinanceApi.RequiredError)
  {
  }

}

=== FILE: js.dfy ===
/** The slice of JavaScript value semantics the handlers depend on: JSON
    request values, truthiness, and `parseFloat` yielding a number or NaN. */
module Js {
  import opened Util
  import opened Numeric

  /** A JavaScript number as far as this application can produce one. */
  datatype Number = Finite(v: real) | NaN

  /** A JSON request value (objects and arrays are not used as field values). */
  datatype JsVal = Undefined | Null | Bool(b: bool) | Num(n: Number) | Str(s: string)

  /** `!!v` */
  predicate Truthy(v: JsVal)
  {
    match v
    case Undefined => false
    case Null => false
    case Bool(b) => b
    case Num(n) => n.Finite? && n.v != 0.0
    case Str(s) => s != ""
  }

  /** `parseFloat(s)` */
  function ParseNumber(s: string): (n: Number)
    ensures n.NaN? <==> ParseFloat(s).None?
    ensures n.Finite? ==> ParseFloat(s) == Some(n.v)
  {
    match ParseFloat(s)
    case Some(x) => Finite(x)
    case None => NaN
  }

  /** `parseFloat(v)` applied to a JSON value: numbers pass through, strings
      are parsed, and everything else is NaN. */
  function ParseNumberVal(v: JsVal): (n: Number)
    ensures v.Num? ==> n == v.n
    ensures v.Str? ==> n == ParseNumber(v.s)
    ensures !v.Num? && !v.Str? ==> n.NaN?
  {
    match v
    case Num(x) => x
    case Str(s) => ParseNumber(s)
    case _ => NaN
  }

  /** An optional string field read from a JSON body. */
  function StrVal(o: Option<string>): JsVal
  {
    match o
    case None => Undefined
    case Some(s) => Str(s)
  }

  /** A present, non-empty string: what `if (!field)` lets through. */
  predicate Filled(o: Option<string>)
  {
    o.Some? && o.value != ""
  }

  lemma {:induction false} FilledIsTruthy(o: Option<string>)
    ensures Filled(o) <==> Truthy(StrVal(o))
  {
  }

  /** `param || fallback` for an optional string. */
  function ParamOr(p: Option<string>, fallback: string): string
  {
    if Filled(p) then p.value else fallback
  }
}

=== FILE: notifications_page.dfy ===
/** The notification log page: counters over the fetched logs, the status and
    text filters over the list, and the type labels. */
module NotificationsPage {
  import opened Util

  /** A fetched log row; the ticket's number and customer name are absent when
      the row has no ticket attached. */
  datatype LogView = LogView(
    kind: string,
    customerEmail: string,
    status: string,
    subject: string,
    sentAt: int,
    serviceNumber: Option<string>,
    customerName: Option<string>)

  datatype LogStats = LogStats(total: nat, sent: nat, failed: nat, today: nat)

  function HasStatus(status: string): LogView -> bool
  {
    (n: LogView) => n.status == status
  }

  /** Sent on the same local day as `now`; `midnight` maps a time to local
      midnight of its day. */
  function SentOnDayOf(midnight: int -> int, now: int): LogView -> bool
  {
    (n: LogView) => midnight(n.sentAt) == midnight(now)
  }

  /** `calculateStats` */
  function CalculateStats(logs: seq<LogView>, now: int, midnight: int -> int): (s: LogStats)
    ensures s.total == |logs|
    ensures s.sent <= s.total && s.failed <= s.total && s.today <= s.total
    ensures s.sent == |Filter(logs, HasStatus("SENT"))| && s.failed == |Filter(logs, HasStatus("FAILED"))|
    ensures s.today == |Filter(logs, SentOnDayOf(midnight, now))|
  {
    LogStats(|logs|, |Filter(logs, HasStatus("SENT"))|, |Filter(logs, HasStatus("FAILED"))|,
             |Filter(logs, SentOnDayOf(midnight, now))|)
  }

  /** Sent and failed logs make up the total when every status is one of the
      two. */
  lemma {:induction false} SentPlusFailed(logs: seq<LogView>, now: int, midnight: int -> int)
    requires forall i :: 0 <= i < |logs| ==> logs[i].status == "SENT" || logs[i].status == "FAILED"
    ensures var s := CalculateStats(logs, now, midnight); s.sent + s.failed == s.total
  {
    FilterSplitCount(logs, HasStatus("SENT"), HasStatus("FAILED"));
  }

  /** `x?.toLowerCase().includes(term)`, false when `x` is absent. */
  predicate OptIncludes(field: Option<string>, term: string)
  {
    field.Some? && Contains(Lower(field.value), term)
  }

  /** The text test: the lower-cased query, untrimmed, occurs in the lower-cased
      subject, e-mail, ticket number or customer name. */
  predicate MatchesQuery(n: LogView, query: string)
  {
    var term := Lower(query);
    Contains(Lower(n.subject), term) || Contains(Lower(n.customerEmail), term)
    || OptIncludes(n.serviceNumber, term) || OptIncludes(n.customerName, term)
  }

  function QueryTest(query: string): LogView -> bool
  {
    (n: LogView) => MatchesQuery(n, query)
  }

  function AfterStatus(logs: seq<LogView>, statusFilter: string): seq<LogView>
  {
    if statusFilter != "all" then Filter(logs, HasStatus(statusFilter)) else logs
  }

  /** `filteredAndSearchedNotifications` */
  function Displayed(logs: seq<LogView>, statusFilter: string, query: string): seq<LogView>
  {
    var filtered := AfterStatus(logs, statusFilter);
    if !IsBlank(query) then Filter(filtered, QueryTest(query)) else filtered
  }

  /** The displayed list keeps fetched logs in their order, and is exactly the
      logs passing the status test (unless "all") and the text test (unless
      the query is blank). */
  lemma {:induction false} DisplayedIsFilter(logs: seq<LogView>, statusFilter: string, query: string)
    ensures IsSubseq(Displayed(logs, statusFilter, query), logs)
    ensures forall n :: n in Displayed(logs, statusFilter, query) <==>
      n in logs
      && (statusFilter != "all" ==> n.status == statusFilter)
      && (!IsBlank(query) ==> MatchesQuery(n, query))
  {
    var p := (n: LogView) => (statusFilter != "all" ==> n.status == statusFilter)
                            && (!IsBlank(query) ==> MatchesQuery(n, query));
    assert Displayed(logs, statusFilter, query) == Filter(logs, p) by {
      if statusFilter != "all" && !IsBlank(query) {
        FilterFilter(logs, HasStatus(statusFilter), QueryTest(query), p);
      } else if statusFilter != "all" {
        FilterSame(logs, HasStatus(statusFilter), p);
      } else if !IsBlank(query) {
        FilterSame(logs, QueryTest(query), p);
      } else {
        FilterAll(logs, p);
      }
    }
    FilterIsSubseq(logs, p);
    forall n ensures n in Filter(logs, p) <==> n in logs && p(n) {
      FilterMembers(logs, p, n);
    }
  }

  /** `getNotificationTypeLabel` */
  function TypeLabel(kind: string): string
  {
    if kind == "SERVICE_RECEIVED" then "Servis Alındı"
    else if kind == "CUSTOMER_APPROVAL_PENDING" then "Müşteri Onayı Bekliyor"
    else if kind == "SERVICE_COMPLETED" then "Servis Tamamlandı"
    else if kind == "PAYMENT_REMINDER" then "Ödeme Hatırlatması"
    else kind
  }

  predicate LabelledKind(kind: string)
  {
    kind in {"SERVICE_RECEIVED", "CUSTOMER_APPROVAL_PENDING", "SERVICE_COMPLETED", "PAYMENT_REMINDER"}
  }

  /** The four known types get four different Turkish labels, none equal to a
      type name; any other type is shown as it is. */
  lemma {:induction false} TypeLabels(a: string, b: string)
    ensures !LabelledKind(a) ==> TypeLabel(a) == a
    ensures LabelledKind(a) ==> TypeLabel(a) != a && !LabelledKind(TypeLabel(a))
    ensures LabelledKind(a) && LabelledKind(b) && a != b ==> TypeLabel(a) != TypeLabel(b)
  {
  }
}

=== FILE: numeric.dfy ===
/** Decimal text <-> number conversions as JavaScript performs them for the
    values this application handles: `String(n)` of an integer, `parseInt`,
    `parseFloat`, `padStart(2, '0')`, and the truncating `%` operator. */
module Numeric {
  import opened Util

  predicate IsDigit(c: char) { '0' <= c <= '9' }

  predicate AllDigits(s: string)
  {
    forall i :: 0 <= i < |s| ==> IsDigit(s[i])
  }

  function DigitChar(d: nat): (c: char)
    requires d < 10
    ensures IsDigit(c)
  {
    ('0' as int + d) as char
  }

  function DigitValue(c: char): nat
    requires IsDigit(c)
  {
    c as int - '0' as int
  }

  function Pow10(n: nat): (p: nat)
    ensures p >= 1
  {
    if n == 0 then 1 else 10 * Pow10(n - 1)
  }

  /** `String(n)` for a non-negative integer: decimal digits, no leading zero. */
  function NatToString(n: nat): (s: string)
    ensures |s| >= 1 && AllDigits(s)
    ensures n > 0 ==> s[0] != '0'
    decreases n
  {
    if n < 10 then [DigitChar(n)] else NatToString(n / 10) + [DigitChar(n % 10)]
  }

  /** `String(i)` for any integer. */
  function IntToString(i: int): (s: string)
    ensures |s| >= 1
  {
    if i < 0 then "-" + NatToString(-i) else NatToString(i)
  }

  /** The value of a string of decimal digits. */
  function DigitsValue(s: string): nat
    requires AllDigits(s)
  {
    if |s| == 0 then 0 else DigitsValue(s[..|s| - 1]) * 10 + DigitValue(s[|s| - 1])
  }

  lemma {:induction false} DigitsValueOfNatToString(n: nat)
    ensures DigitsValue(NatToString(n)) == n
    decreases n
  {
    if n >= 10 {
      var s := NatToString(n);
      assert s[..|s| - 1] == NatToString(n / 10);
      DigitsValueOfNatToString(n / 10);
    }
  }

  /** A leading zero does not change the value of a digit string. */
  lemma {:induction false} DigitsValueLeadingZero(s: string)
    requires AllDigits(s)
    ensures AllDigits("0" + s) && DigitsValue("0" + s) == DigitsValue(s)
    decreases |s|
  {
    if |s| > 0 {
      assert ("0" + s)[..|"0" + s| - 1] == "0" + s[..|s| - 1];
      DigitsValueLeadingZero(s[..|s| - 1]);
    }
  }

  /** Skips the white space that `parseInt`/`parseFloat` ignore. */
  function SkipWhitespace(s: string): (r: string)
    ensures |r| <= |s| && r == s[|s| - |r|..]
    ensures |r| > 0 ==> !IsWhitespace(r[0])
  {
    if |s| > 0 && IsWhitespace(s[0]) then SkipWhitespace(s[1..]) else s
  }

  /** The longest prefix of `s` made of decimal digits. */
  function DigitPrefix(s: string): (d: string)
    ensures |d| <= |s| && d == s[..|d|] && AllDigits(d)
    ensures |d| < |s| ==> !IsDigit(s[|d|])
  {
    if |s| > 0 && IsDigit(s[0]) then [s[0]] + DigitPrefix(s[1..]) else []
  }

  lemma {:induction false} DigitPrefixAll(s: string)
    requires AllDigits(s)
    ensures DigitPrefix(s) == s
    decreases |s|
  {
    if |s| > 0 {
      DigitPrefixAll(s[1..]);
      assert [s[0]] + s[1..] == s;
    }
  }

  /** Drops one leading sign character. */
  function Unsigned(t: string): string
  {
    if |t| > 0 && (t[0] == '-' || t[0] == '+') then t[1..] else t
  }

  /** `parseInt(s)` with radix 10; `None` stands for NaN. */
  function ParseInt(s: string): Option<int>
  {
    ParseSigned(SkipWhitespace(s))
  }

  /** `parseInt` after the leading whitespace. */
  function ParseSigned(t: string): Option<int>
  {
    var d := DigitPrefix(Unsigned(t));
    if |d| == 0 then None
    else if |t| > 0 && t[0] == '-' then Some(-(DigitsValue(d) as int))
    else Some(DigitsValue(d))
  }

  /** `parseFloat(s)` for plain decimal notation (digits, optional fraction);
      `None` stands for NaN. */
  function ParseFloat(s: string): Option<real>
  {
    var t := SkipWhitespace(s);
    var u := Unsigned(t);
    var ip := DigitPrefix(u);
    var rest := u[|ip|..];
    var fp := if |rest| > 0 && rest[0] == '.' then DigitPrefix(rest[1..]) else "";
    if |ip| == 0 && |fp| == 0 then None
    else
      var mag := DigitsValue(ip) as real + DigitsValue(fp) as real / Pow10(|fp|) as real;
      Some(if |t| > 0 && t[0] == '-' then -mag else mag)
  }

  /** A non-empty digit string parses to its value. */
  lemma {:induction false} ParseIntOfDigits(p: string)
    requires |p| > 0 && AllDigits(p)
    ensures ParseInt(p) == Some(DigitsValue(p) as int)
  {
    assert !IsWhitespace(p[0]);
    assert SkipWhitespace(p) == p;
    assert Unsigned(p) == p;
    DigitPrefixAll(p);
  }

  /** `parseInt(String(n))` gives back `n`. */
  lemma {:induction false} ParseIntOfNatToString(n: nat)
    ensures ParseInt(NatToString(n)) == Some(n)
  {
    ParseIntOfDigits(NatToString(n));
    DigitsValueOfNatToString(n);
  }

  /** A minus sign before a non-empty digit string of value `v` reads as `-v`. */
  lemma {:induction false} ParseIntOfNegatedDigits(m: string, v: nat)
    requires |m| > 0 && AllDigits(m) && DigitsValue(m) == v
    ensures ParseInt("-" + m) == Some(-(v as int))
  {
    var s := "-" + m;
    assert s[0] == '-' && s[1..] == m;
    assert !IsWhitespace(s[0]);
    assert SkipWhitespace(s) == s;
    assert Unsigned(s) == m;
    DigitPrefixAll(m);
    assert ParseSigned(s) == Some(-(v as int));
  }

  /** `parseInt(String(i))` gives back `i`, for negative integers too. */
  lemma {:induction false} ParseIntOfIntToString(i: int)
    ensures ParseInt(IntToString(i)) == Some(i)
  {
    if i < 0 {
      DigitsValueOfNatToString(-i);
      ParseIntOfNegatedDigits(NatToString(-i), -i);
    } else {
      ParseIntOfNatToString(i);
    }
  }

  /** `parseFloat(String(n))` gives back `n` for a whole amount. */
  lemma {:induction false} ParseFloatOfNatToString(n: nat)
    ensures ParseFloat(NatToString(n)) == Some(n as real)
  {
    var s := NatToString(n);
    assert SkipWhitespace(s) == s;
    assert Unsigned(s) == s;
    DigitPrefixAll(s);
    DigitsValueOfNatToString(n);
    assert s[|s|..] == "";
  }

  lemma {:induction false} DigitsHaveNoDash(s: string)
    requires AllDigits(s)
    ensures '-' !in s
  {
  }

  /** `s.padStart(2, '0')` */
  function PadStart2(s: string): (r: string)
    ensures |r| == if |s| >= 2 then |s| else 2
    ensures r[|r| - |s|..] == s
    ensures forall i :: 0 <= i < |r| - |s| ==> r[i] == '0'
  {
    if |s| == 0 then "00" else if |s| == 1 then "0" + s else s
  }

  /** Two-digit month numbers read back to the same number. */
  lemma {:induction false} ParseIntOfPaddedMonth(m: nat)
    requires 1 <= m <= 12
    ensures ParseInt(PadStart2(NatToString(m))) == Some(m)
  {
    var s := NatToString(m);
    DigitsValueOfNatToString(m);
    if |s| == 1 {
      DigitsValueLeadingZero(s);
      assert PadStart2(s) == "0" + s;
    }
    ParseIntOfDigits(PadStart2(s));
  }

  /** The quotient of JavaScript's truncating division `a / b`, rounded toward
      zero (as `Math.trunc` would), for a positive divisor. */
  function JsQuot(a: int, b: int): int
    requires b > 0
  {
    if a >= 0 then a / b else -((-a) / b)
  }

  /** JavaScript `a % b` for a positive divisor: truncating, so the result takes
      the sign of `a`, unlike the Euclidean `%` of this language. */
  function JsRem(a: int, b: int): (r: int)
    requires b > 0
    ensures a >= 0 ==> 0 <= r < b
    ensures a < 0 ==> -b < r <= 0
    ensures a == JsQuot(a, b) * b + r
  {
    if a >= 0 then a % b else -((-a) % b)
  }
}

=== FILE: records.dfy ===
/** The stored entities the handlers read and write. Timestamps are
    milliseconds since the epoch; money is a real amount in lira. */
module Records {
  import opened Util
  import opened Js

  datatype Customer = Customer(
    id: string,
    name: string,
    email: Option<string>,
    phone: string,
    address: Option<string>,
    createdAt: int)

  /** A repair ticket. `status` is kept as the stored string: readers compare
      it against literals, some of which (`COMPLETED`) are not ticket states. */
  datatype Service = Service(
    id: string,
    serviceNumber: string,
    customerId: string,
    deviceType: string,
    brand: string,
    model: string,
    serialNumber: Option<string>,
    imei: Option<string>,
    problemDescription: string,
    accessories: Option<string>,
    physicalCondition: Option<string>,
    status: string,
    estimatedFee: Option<Number>,
    actualFee: Option<real>,
    technicianId: Option<string>,
    createdAt: int,
    completedAt: Option<int>,
    deliveredAt: Option<int>)

  datatype HistoryRow = HistoryRow(serviceId: string, status: string, notes: string, changedBy: string)

  /** A ledger entry; `kind` is the stored `type` ("INCOME" or "EXPENSE"). */
  datatype FinancialRecord = FinancialRecord(
    id: string,
    amount: real,
    kind: string,
    description: Option<string>,
    serviceId: Option<string>,
    recordedAt: int)

  /** One e-mail notification log row; `kind` is the notification type. */
  datatype NotificationLog = NotificationLog(
    kind: string,
    serviceId: string,
    customerEmail: string,
    status: string,
    subject: string,
    sentAt: int)

  /** A stored user; a ticket's technician is one. */
  datatype User = User(id: string, name: string)

  datatype Store = Store(
    customers: seq<Customer>,
    services: seq<Service>,
    history: seq<HistoryRow>,
    records: seq<FinancialRecord>,
    logs: seq<NotificationLog>,
    users: seq<User>)

  function CustomerKey(c: Customer): string { c.id }
  function ServiceKey(s: Service): string { s.id }
  function UserKey(u: User): string { u.id }

  /** `findUnique({ where: { id } })` over one table: the first row whose
      identifier is `id`, or nothing when no row has it. The same lookup
      decides whether a foreign key written by a `create` names a stored row. */
  function FindById<T(==)>(rows: seq<T>, key: T -> string, id: string): (r: Option<T>)
    ensures r.Some? ==> exists i :: 0 <= i < |rows| && rows[i] == r.value && key(rows[i]) == id
                          && forall j :: 0 <= j < i ==> key(rows[j]) != id
    ensures r.None? <==> forall i :: 0 <= i < |rows| ==> key(rows[i]) != id
  {
    if |rows| == 0 then None
    else if key(rows[0]) == id then
      assert key(rows[0]) == id;
      Some(rows[0])
    else
      var r := FindById(rows[1..], key, id);
      if r.Some? then
        var i :| 0 <= i < |rows[1..]| && rows[1..][i] == r.value && key(rows[1..][i]) == id
                 && forall j :: 0 <= j < i ==> key(rows[1..][j]) != id;
        assert rows[i + 1] == r.value && key(rows[i + 1]) == id;
        assert forall j :: 0 <= j < i + 1 ==> key(rows[j]) != id by {
          forall j | 0 <= j < i + 1 ensures key(rows[j]) != id {
            if j > 0 { assert rows[j] == rows[1..][j - 1]; }
          }
        }
        r
      else
        assert forall i :: 0 <= i < |rows| ==> key(rows[i]) != id by {
          forall i | 0 <= i < |rows| ensures key(rows[i]) != id {
            if i > 0 { assert rows[i] == rows[1..][i - 1]; }
          }
        }
        r
  }

  /** How many rows a relation of a ticket holds. */
  datatype Cardinality = ToOne | ToMany

  /** The relations of a ticket the handlers include. A ticket has at most one
      ledger entry: the ticket detail includes `financialRecord: true` and tests
      it for absence, and the status change upserts the entry keyed by its
      `serviceId`. Its status history is a list. */
  const TicketRelations: map<string, Cardinality> :=
    map["customer" := ToOne, "technician" := ToOne, "financialRecord" := ToOne, "statusHistory" := ToMany]

  /** One entry of a ticket query's `include`: the relation's name and whether
      it carries a `where` of its own. */
  datatype Include = Include(relation: string, filtered: bool)

  /** The ORM validates an `include` before it queries: every name must be a
      relation of a ticket, and only a to-many relation takes a `where`. A
      rejected query throws. */
  predicate IncludeAccepted(inc: seq<Include>)
  {
    forall i :: 0 <= i < |inc| ==>
      inc[i].relation in TicketRelations && (inc[i].filtered ==> TicketRelations[inc[i].relation] == ToMany)
  }

  /** The three relations the analyses include, read whole, are accepted. */
  lemma {:induction false} TicketRelationsNamed()
    ensures IncludeAccepted([Include("technician", false), Include("customer", false), Include("financialRecord", false)])
    ensures IncludeAccepted([Include("technician", false), Include("financialRecord", false)])
    ensures IncludeAccepted([Include("customer", false), Include("financialRecord", false)])
  {
    assert "technician" in TicketRelations && "customer" in TicketRelations && "financialRecord" in TicketRelations;
  }

  /** An HTTP reply: a status code with a body, or a status code with the
      `error` message of the JSON error body. */
  datatype Reply<T> = Reply(code: nat, body: T) | Failure(code: nat, error: string)

  /** A numeric sort key for "newest first" orderings. */
  function ServiceCreated(s: Service): real { s.createdAt as real }

  function CustomerCreated(c: Customer): real { c.createdAt as real }

  /** The `pagination` block of a paged list reply. */
  datatype Pagination = Pagination(page: int, limit: int, total: nat, pages: nat)

  /** The pagination block: enough pages for the total, and no empty last page. */
  function PaginationOf(total: nat, page: int, limit: int): (p: Pagination)
    requires limit >= 1
    ensures p.page == page && p.limit == limit && p.total == total
    ensures p.pages * limit >= total
    ensures total > 0 ==> (p.pages - 1) * limit < total
  {
    Pagination(page, limit, total, PageCount(total, limit))
  }
}

=== FILE: reports.dfy ===
/** `GET /api/reports`: monthly, yearly, year-on-year and six-month trend
    reports over the ledger. Calendar arithmetic is supplied by the caller as
    the `Calendar` function; the current year and 0-based month are
    parameters. */
module Reports {
  import opened Util
  import opened Numeric
  import opened Js
  import opened Records
  import FinanceApi

  const ReportFailedError := "Rapor oluşturulurken bir hata oluştu"

  /** `new Date(y, m, d).getTime()` for a 0-based month: local midnight of that
      day, after the Date library's normalisation (month 12 is January of the
      next year, day 0 the last day of the previous month). */
  type Calendar = (int, int, int) -> int

  /** A `gte`/`lte` range of timestamps; both ends are included. */
  datatype Window = Window(start: int, end: int)

  /** `new Date(year, month, 1)` to `new Date(year, month + 1, 0)`: the end is
      midnight at the START of the month's last day. */
  function MonthWindow(cal: Calendar, year: int, month: int): Window
  {
    Window(cal(year, month, 1), cal(year, month + 1, 0))
  }

  /** `new Date(year, 0, 1)` to `new Date(year, 11, 31)`. */
  function YearWindow(cal: Calendar, year: int): Window
  {
    Window(cal(year, 0, 1), cal(year, 11, 31))
  }

  function Within(w: Window): FinancialRecord -> bool
  {
    (r: FinancialRecord) => w.start <= r.recordedAt <= w.end
  }

  function InWindow(records: seq<FinancialRecord>, w: Window): seq<FinancialRecord>
  {
    Filter(records, Within(w))
  }

  /** The records of one type in the window, in ledger order. */
  function OfKind(records: seq<FinancialRecord>, kind: string, w: Window): seq<FinancialRecord>
  {
    Filter(InWindow(records, w), FinanceApi.IsKind(kind))
  }

  datatype Totals = Totals(totalIncome: real, totalExpense: real, netProfit: real, transactionCount: nat)

  /** Income and expense sums (0 when a type has no records), their difference
      and the number of records counted. */
  function TotalsIn(records: seq<FinancialRecord>, w: Window): (t: Totals)
    ensures t.totalIncome == SumOf(OfKind(records, "INCOME", w), FinanceApi.Amount)
    ensures t.totalExpense == SumOf(OfKind(records, "EXPENSE", w), FinanceApi.Amount)
    ensures t.netProfit == t.totalIncome - t.totalExpense
    ensures t.transactionCount == |OfKind(records, "INCOME", w)| + |OfKind(records, "EXPENSE", w)|
  {
    var income := OfKind(records, "INCOME", w);
    var expense := OfKind(records, "EXPENSE", w);
    var i := SumOf(income, FinanceApi.Amount);
    var e := SumOf(expense, FinanceApi.Amount);
    Totals(i, e, i - e, |income| + |expense|)
  }

  /** The totals are those of the ledger entries in the window: the net is
      their signed sum, and every entry is counted once when all are INCOME
      or EXPENSE (other types are never counted). */
  lemma {:induction false} TotalsOfWindow(records: seq<FinancialRecord>, w: Window)
    ensures TotalsIn(records, w).netProfit == SumOf(InWindow(records, w), FinanceApi.Signed)
    ensures TotalsIn(records, w).transactionCount <= |InWindow(records, w)|
    ensures (forall i :: 0 <= i < |records| ==> records[i].kind == "INCOME" || records[i].kind == "EXPENSE")
            ==> TotalsIn(records, w).transactionCount == |InWindow(records, w)|
  {
    var s := InWindow(records, w);
    FinanceApi.NetIsSignedSum(s);
    var inc := FinanceApi.IsKind("INCOME");
    var exp := FinanceApi.IsKind("EXPENSE");
    var both := (r: FinancialRecord) => r.kind == "INCOME" || r.kind == "EXPENSE";
    var sb := Filter(s, both);
    FilterNarrower(s, inc, both);
    FilterNarrower(s, exp, both);
    FilterSplitCount(sb, inc, exp);
    if forall i :: 0 <= i < |records| ==> records[i].kind == "INCOME" || records[i].kind == "EXPENSE" {
      forall i | 0 <= i < |s| ensures both(s[i]) {
        assert s[i] in s;
        FilterMembers(records, Within(w), s[i]);
      }
      FilterAll(s, both);
    }
  }

  // ---------------------------------------------------------------------------
  // Period strings
  // ---------------------------------------------------------------------------

  /** `${year}-${(month + 1).toString().padStart(2, '0')}` for a 0-based month. */
  function PeriodText(year: int, month: int): string
  {
    IntToString(year) + "-" + PadStart2(IntToString(month + 1))
  }

  /** Reads "YYYY-MM" back into the year and the 1-based month. */
  function ParsePeriod(s: string): Option<(nat, nat)>
  {
    var parts := Split(s, '-');
    if |parts| == 2 && |parts[0]| > 0 && AllDigits(parts[0]) && |parts[1]| > 0 && AllDigits(parts[1])
    then Some((DigitsValue(parts[0]), DigitsValue(parts[1])))
    else None
  }

  /** The period of a non-negative year and a 0-based month is a two-digit,
      1-based month after the year, and both read back. */
  lemma {:induction false} PeriodRoundTrip(year: nat, month: int)
    requires 0 <= month < 12
    ensures ParsePeriod(PeriodText(year, month)) == Some((year, month + 1))
  {
    var a := NatToString(year);
    var m := NatToString(month + 1);
    var b := PadStart2(m);
    assert PeriodText(year, month) == a + "-" + b;
    PaddedValue(m);
    DigitsValueOfNatToString(year);
    DigitsValueOfNatToString(month + 1);
    ParsePeriodOfJoin(a, b);
  }

  lemma {:induction false} ParsePeriodOfJoin(a: string, b: string)
    requires |a| > 0 && AllDigits(a) && |b| > 0 && AllDigits(b)
    ensures ParsePeriod(a + "-" + b) == Some((DigitsValue(a), DigitsValue(b)))
  {
    DigitsHaveNoDash(a);
    DigitsHaveNoDash(b);
    assert a + "-" + b == a + ['-'] + b;
    SplitJoin(a, b, '-');
    SplitNoSep(b, '-');
    assert Split(a + "-" + b, '-') == [a, b];
  }

  /** Zero-padding keeps the digits' value. */
  lemma {:induction false} PaddedValue(s: string)
    requires |s| >= 1 && AllDigits(s)
    ensures AllDigits(PadStart2(s)) && DigitsValue(PadStart2(s)) == DigitsValue(s)
  {
    if |s| == 1 {
      DigitsValueLeadingZero(s);
      assert PadStart2(s) == "0" + s;
    }
  }

  // ---------------------------------------------------------------------------
  // Monthly and yearly reports
  // ---------------------------------------------------------------------------

  /** The monthly report, without the store's per-service and per-type
      `groupBy` results. */
  datatype MonthlyReport = MonthlyReport(period: string, summary: Totals,
                                         income: seq<FinancialRecord>, expense: seq<FinancialRecord>)

  function MonthlyReportOf(records: seq<FinancialRecord>, cal: Calendar, year: int, month: int): (r: MonthlyReport)
    ensures r.summary.transactionCount == |r.income| + |r.expense|
    ensures r.summary.totalIncome == SumOf(r.income, FinanceApi.Amount)
    ensures r.summary.totalExpense == SumOf(r.expense, FinanceApi.Amount)
    ensures forall i :: 0 <= i < |r.income| ==> r.income[i].kind == "INCOME"
    ensures forall i :: 0 <= i < |r.expense| ==> r.expense[i].kind == "EXPENSE"
    ensures r.period == PeriodText(year, month)
    ensures r.summary == TotalsIn(records, MonthWindow(cal, year, month))
    ensures forall x :: x in r.income <==>
      x in records && x.kind == "INCOME" && cal(year, month, 1) <= x.recordedAt <= cal(year, month + 1, 0)
    ensures forall x :: x in r.expense <==>
      x in records && x.kind == "EXPENSE" && cal(year, month, 1) <= x.recordedAt <= cal(year, month + 1, 0)
  {
    var w := MonthWindow(cal, year, month);
    OfKindMembers(records, w, "INCOME");
    OfKindMembers(records, w, "EXPENSE");
    MonthlyReport(PeriodText(year, month), TotalsIn(records, w),
                  OfKind(records, "INCOME", w), OfKind(records, "EXPENSE", w))
  }

  /** A record stamped after midnight on a month's last day, and before the
      next month starts, is in neither that month's report nor the next one's. */
  lemma {:induction false} MonthWindowMissesLastDay(records: seq<FinancialRecord>, cal: Calendar,
                                                   year: int, month: int, x: FinancialRecord)
    requires cal(year, month + 1, 0) < x.recordedAt < cal(year, month + 1, 1)
    ensures var now := MonthlyReportOf(records, cal, year, month);
      var next := MonthlyReportOf(records, cal, year, month + 1);
      x !in now.income && x !in now.expense && x !in next.income && x !in next.expense
  {
    var w1 := MonthWindow(cal, year, month);
    var w2 := MonthWindow(cal, year, month + 1);
    WindowMembers(records, w1, "INCOME", x);
    WindowMembers(records, w1, "EXPENSE", x);
    WindowMembers(records, w2, "INCOME", x);
    WindowMembers(records, w2, "EXPENSE", x);
  }

  /** The records of a type in a window are exactly the ledger's records of
      that type stamped inside it. */
  lemma {:induction false} OfKindMembers(records: seq<FinancialRecord>, w: Window, kind: string)
    ensures forall x :: x in OfKind(records, kind, w) <==> x in records && x.kind == kind && w.start <= x.recordedAt <= w.end
  {
    forall x
      ensures x in OfKind(records, kind, w) <==> x in records && x.kind == kind && w.start <= x.recordedAt <= w.end
    {
      WindowMembers(records, w, kind, x);
    }
  }

  lemma {:induction false} WindowMembers(records: seq<FinancialRecord>, w: Window, kind: string, x: FinancialRecord)
    ensures x in OfKind(records, kind, w) <==> x in records && x.kind == kind && w.start <= x.recordedAt <= w.end
  {
    FilterMembers(InWindow(records, w), FinanceApi.IsKind(kind), x);
    FilterMembers(records, Within(w), x);
  }

  /** A breakdown row; `month` is 1-based. */
  datatype MonthRow = MonthRow(month: int, income: real, expense: real, net: real, transactionCount: nat)

  function MonthRowOf(records: seq<FinancialRecord>, cal: Calendar, year: int, month: int): MonthRow
  {
    var t := TotalsIn(records, MonthWindow(cal, year, month));
    MonthRow(month + 1, t.totalIncome, t.totalExpense, t.netProfit, t.transactionCount)
  }

  datatype YearlyReport = YearlyReport(year: int, summary: Totals, monthlyBreakdown: seq<MonthRow>)

  function YearlyReportOf(records: seq<FinancialRecord>, cal: Calendar, year: int): (r: YearlyReport)
    ensures r.year == year && |r.monthlyBreakdown| == 12
    ensures forall k :: 0 <= k < 12 ==> r.monthlyBreakdown[k].month == k + 1
    ensures forall k :: 0 <= k < 12 ==>
      r.monthlyBreakdown[k].net == r.monthlyBreakdown[k].income - r.monthlyBreakdown[k].expense
    ensures r.summary.netProfit == r.summary.totalIncome - r.summary.totalExpense
    ensures r.summary == TotalsIn(records, YearWindow(cal, year))
    ensures forall k :: 0 <= k < 12 ==>
      var t := TotalsIn(records, MonthWindow(cal, year, k));
      r.monthlyBreakdown[k].income == t.totalIncome && r.monthlyBreakdown[k].expense == t.totalExpense
      && r.monthlyBreakdown[k].transactionCount == t.transactionCount
  {
    YearlyReport(year, TotalsIn(records, YearWindow(cal, year)),
                 seq(12, k requires 0 <= k < 12 => MonthRowOf(records, cal, year, k)))
  }

  /** Each breakdown row carries the same figures as the monthly report of
      that month. */
  lemma {:induction false} BreakdownMatchesMonthly(records: seq<FinancialRecord>, cal: Calendar, year: int, k: int)
    requires 0 <= k < 12
    ensures var row := YearlyReportOf(records, cal, year).monthlyBreakdown[k];
      var m := MonthlyReportOf(records, cal, year, k).summary;
      row.income == m.totalIncome && row.expense == m.totalExpense
      && row.net == m.netProfit && row.transactionCount == m.transactionCount
  {
  }

  // ---------------------------------------------------------------------------
  // Year-on-year comparison
  // ---------------------------------------------------------------------------

  /** A percentage as JSON carries it: `Infinity` and `NaN` both become null. */
  datatype Change = Pct(percent: real) | NonFinite

  /** `((current - previous) / base) * 100` with no guard: a zero base gives a
      non-finite number. */
  function ChangeOf(current: real, previous: real, base: real): (c: Change)
    ensures c.Pct? <==> base != 0.0
    ensures c.Pct? ==> c.percent * base == (current - previous) * 100.0
  {
    if base == 0.0 then NonFinite else Pct((current - previous) / base * 100.0)
  }

  function Abs(x: real): real { if x < 0.0 then -x else x }

  datatype Changes = Changes(incomeChange: Change, expenseChange: Change, profitChange: Change)

  datatype ComparisonReport = ComparisonReport(currentYear: Totals, previousYear: Totals, changes: Changes)

  function ComparisonOf(records: seq<FinancialRecord>, cal: Calendar, year: int): (r: ComparisonReport)
    ensures r.currentYear == YearlyReportOf(records, cal, year).summary
    ensures r.previousYear == YearlyReportOf(records, cal, year - 1).summary
    ensures r.changes.incomeChange.Pct? <==> r.previousYear.totalIncome != 0.0
    ensures r.changes.expenseChange.Pct? <==> r.previousYear.totalExpense != 0.0
    ensures r.changes.profitChange.Pct? <==> r.previousYear.netProfit != 0.0
  {
    var cur := YearlyReportOf(records, cal, year).summary;
    var prev := YearlyReportOf(records, cal, year - 1).summary;
    ComparisonReport(cur, prev, Changes(
      ChangeOf(cur.totalIncome, prev.totalIncome, prev.totalIncome),
      ChangeOf(cur.totalExpense, prev.totalExpense, prev.totalExpense),
      ChangeOf(cur.netProfit, prev.netProfit, Abs(prev.netProfit))))
  }

  /** The income and expense changes are relative to last year's figure, and
      the profit change, divided by the absolute previous profit, is positive
      exactly when the profit grew, even from a loss. */
  lemma {:induction false} ComparisonSigns(records: seq<FinancialRecord>, cal: Calendar, year: int)
    ensures var r := ComparisonOf(records, cal, year);
      r.changes.incomeChange.Pct? ==>
        r.changes.incomeChange.percent * r.previousYear.totalIncome
        == (r.currentYear.totalIncome - r.previousYear.totalIncome) * 100.0
    ensures var r := ComparisonOf(records, cal, year);
      r.changes.profitChange.Pct? ==>
        (r.changes.profitChange.percent > 0.0 <==> r.currentYear.netProfit > r.previousYear.netProfit)
  {
    var cur := YearlyReportOf(records, cal, year).summary;
    var prev := YearlyReportOf(records, cal, year - 1).summary;
    assert ComparisonOf(records, cal, year) == ComparisonReport(cur, prev, Changes(
      ChangeOf(cur.totalIncome, prev.totalIncome, prev.totalIncome),
      ChangeOf(cur.totalExpense, prev.totalExpense, prev.totalExpense),
      ChangeOf(cur.netProfit, prev.netProfit, Abs(prev.netProfit))));
    ChangeSignsOf(cur, prev);
  }

  /** The income and profit changes of two years' totals, as the comparison
      builds them. */
  lemma {:induction false} ChangeSignsOf(cur: Totals, prev: Totals)
    ensures var c := ChangeOf(cur.totalIncome, prev.totalIncome, prev.totalIncome);
      c.Pct? ==> c.percent * prev.totalIncome == (cur.totalIncome - prev.totalIncome) * 100.0
    ensures var c := ChangeOf(cur.netProfit, prev.netProfit, Abs(prev.netProfit));
      c.Pct? ==> (c.percent > 0.0 <==> cur.netProfit > prev.netProfit)
  {
    ProfitChangeSign(cur.netProfit, prev.netProfit);
  }

  /** Against the absolute previous figure, the change is positive exactly
      when the figure grew. */
  lemma {:induction false} ProfitChangeSign(current: real, previous: real)
    ensures var c := ChangeOf(current, previous, Abs(previous));
      c.Pct? ==> (c.percent > 0.0 <==> current > previous)
  {
    var c := ChangeOf(current, previous, Abs(previous));
    if c.Pct? {
      PositiveProduct(c.percent, Abs(previous), (current - previous) * 100.0);
    }
  }

  lemma {:induction false} PositiveProduct(x: real, b: real, y: real)
    requires b > 0.0 && x * b == y
    ensures x > 0.0 <==> y > 0.0
  {
    if x > 0.0 {
      assert x * b > 0.0;
    } else {
      assert x * b <= 0.0;
    }
  }

  // ---------------------------------------------------------------------------
  // Six-month trend
  // ---------------------------------------------------------------------------

  /** A year and a 0-based month. */
  datatype YearMonth = YearMonth(year: int, month: int)

  /** `new Date(year, month + d, 1)` read back as year and month: the month
      count carries into the year. */
  function MonthShift(year: int, month: int, d: int): (ym: YearMonth)
    ensures 0 <= ym.month < 12
    ensures ym.year * 12 + ym.month == year * 12 + month + d
  {
    var n := year * 12 + month + d;
    YearMonth(n / 12, n % 12)
  }

  datatype TrendRow = TrendRow(period: string, income: real, expense: real, net: real)

  function TrendRowOf(records: seq<FinancialRecord>, cal: Calendar, ym: YearMonth): TrendRow
  {
    var t := TotalsIn(records, MonthWindow(cal, ym.year, ym.month));
    TrendRow(PeriodText(ym.year, ym.month), t.totalIncome, t.totalExpense, t.netProfit)
  }

  /** The month `5 - k` months before the current one, for row `k`. */
  function TrendMonth(nowYear: int, nowMonth: int, k: int): YearMonth
  {
    MonthShift(nowYear, nowMonth, k - 5)
  }

  /** `i` runs from 5 down to 0, so the rows run from five months ago to the
      current month. */
  function TrendsOf(records: seq<FinancialRecord>, cal: Calendar, nowYear: int, nowMonth: int): (r: seq<TrendRow>)
    ensures |r| == 6
    ensures forall k :: 0 <= k < 6 ==> r[k].net == r[k].income - r[k].expense
  {
    seq(6, k requires 0 <= k < 6 => TrendRowOf(records, cal, TrendMonth(nowYear, nowMonth, k)))
  }

  /** Row `k` of the trend carries the figures and the period of the monthly
      report of its month. */
  lemma {:induction false} TrendRowsAreMonthlyTotals(records: seq<FinancialRecord>, cal: Calendar,
                                                     nowYear: int, nowMonth: int, k: int)
    requires 0 <= k < 6
    ensures var ym := TrendMonth(nowYear, nowMonth, k);
      var row := TrendsOf(records, cal, nowYear, nowMonth)[k];
      var m := MonthlyReportOf(records, cal, ym.year, ym.month);
      row.period == m.period && row.income == m.summary.totalIncome
      && row.expense == m.summary.totalExpense && row.net == m.summary.netProfit
  {
    var ym := TrendMonth(nowYear, nowMonth, k);
    assert TrendsOf(records, cal, nowYear, nowMonth)[k] == TrendRowOf(records, cal, ym);
  }

  /** Trend periods are consecutive months, oldest first, ending with the
      current month; each reads back as a year and a 1-based month. */
  lemma {:induction false} TrendPeriods(records: seq<FinancialRecord>, cal: Calendar, nowYear: nat, nowMonth: int, k: int)
    requires 0 <= nowMonth < 12 && nowYear >= 1 && 0 <= k < 6
    ensures ParsePeriod(TrendsOf(records, cal, nowYear, nowMonth)[k].period).Some?
    ensures var p := ParsePeriod(TrendsOf(records, cal, nowYear, nowMonth)[k].period).value;
      1 <= p.1 <= 12 && p.0 * 12 + p.1 - 1 == nowYear * 12 + nowMonth - 5 + k
    ensures k == 5 ==> ParsePeriod(TrendsOf(records, cal, nowYear, nowMonth)[k].period) == Some((nowYear, nowMonth + 1))
  {
    var ym := TrendMonth(nowYear, nowMonth, k);
    assert TrendsOf(records, cal, nowYear, nowMonth)[k].period == PeriodText(ym.year, ym.month) by {
      assert TrendsOf(records, cal, nowYear, nowMonth)[k] == TrendRowOf(records, cal, ym);
    }
    assert ParsePeriod(TrendsOf(records, cal, nowYear, nowMonth)[k].period) == Some((ym.year, ym.month + 1))
      && ym.year * 12 + ym.month == nowYear * 12 + nowMonth - 5 + k
      && (k == 5 ==> ym.year == nowYear && ym.month == nowMonth) by {
      TrendMonthPeriod(nowYear, nowMonth, k);
    }
  }

  /** The period text of row `k`'s month reads back as that month. */
  lemma {:induction false} TrendMonthPeriod(nowYear: nat, nowMonth: int, k: int)
    requires 0 <= nowMonth < 12 && nowYear >= 1 && 0 <= k < 6
    ensures var ym := TrendMonth(nowYear, nowMonth, k);
      ym.year >= 0 && ParsePeriod(PeriodText(ym.year, ym.month)) == Some((ym.year, ym.month + 1))
      && ym.year * 12 + ym.month == nowYear * 12 + nowMonth - 5 + k
      && (k == 5 ==> ym.year == nowYear && ym.month == nowMonth)
  {
    var ym := TrendMonth(nowYear, nowMonth, k);
    assert ym.year >= 0 by {
      assert ym.year * 12 + ym.month >= 7;
    }
    PeriodRoundTrip(ym.year, ym.month);
  }

  // ---------------------------------------------------------------------------
  // Dispatch
  // ---------------------------------------------------------------------------

  /** The URL query; `kind` is `type`. */
  datatype ReportQuery = ReportQuery(kind: Option<string>, year: Option<string>, month: Option<string>)

  datatype ReportBody =
    | Monthly(monthly: MonthlyReport)
    | Yearly(yearly: YearlyReport)
    | Comparison(comparison: ComparisonReport)
    | Trends(trends: seq<TrendRow>)
    | General(currentMonth: MonthlyReport, currentYear: YearlyReport, generalTrends: seq<TrendRow>)

  /** `parseInt(year || <current year>)` */
  function YearParam(q: ReportQuery, nowYear: int): Option<int>
  {
    ParseInt(ParamOr(q.year, IntToString(nowYear)))
  }

  /** `parseInt(month || <current 0-based month>)` */
  function MonthParam(q: ReportQuery, nowMonth: int): Option<int>
  {
    ParseInt(ParamOr(q.month, IntToString(nowMonth)))
  }

  predicate IsKind(q: ReportQuery, kind: string)
  {
    q.kind == Some(kind)
  }

  /** The handler. A year or month that parses to NaN makes an invalid date,
      which the store refuses (500); the kinds that do not use them succeed
      anyway. */
  function Report(records: seq<FinancialRecord>, cal: Calendar, q: ReportQuery, nowYear: int, nowMonth: int)
    : (r: Reply<ReportBody>)
    ensures r.Reply? ==> r.code == 200
    ensures r.Failure? ==> r == Failure(500, ReportFailedError)
    ensures r.Failure? <==>
      (IsKind(q, "monthly") && (YearParam(q, nowYear).None? || MonthParam(q, nowMonth).None?))
      || ((IsKind(q, "yearly") || IsKind(q, "comparison")) && YearParam(q, nowYear).None?)
    ensures !IsKind(q, "monthly") && !IsKind(q, "yearly") && !IsKind(q, "comparison") && !IsKind(q, "trends")
      ==> r == Reply(200, General(MonthlyReportOf(records, cal, nowYear, nowMonth),
                                  YearlyReportOf(records, cal, nowYear),
                                  TrendsOf(records, cal, nowYear, nowMonth)))
    ensures IsKind(q, "trends") ==> r == Reply(200, Trends(TrendsOf(records, cal, nowYear, nowMonth)))
  {
    var year := YearParam(q, nowYear);
    var month := MonthParam(q, nowMonth);
    if IsKind(q, "monthly") then
      if year.None? || month.None? then Failure(500, ReportFailedError)
      else Reply(200, Monthly(MonthlyReportOf(records, cal, year.value, month.value)))
    else if IsKind(q, "yearly") then
      if year.None? then Failure(500, ReportFailedError)
      else Reply(200, Yearly(YearlyReportOf(records, cal, year.value)))
    else if IsKind(q, "comparison") then
      if year.None? then Failure(500, ReportFailedError)
      else Reply(200, Comparison(ComparisonOf(records, cal, year.value)))
    else if IsKind(q, "trends") then
      Reply(200, Trends(TrendsOf(records, cal, nowYear, nowMonth)))
    else
      Reply(200, General(MonthlyReportOf(records, cal, nowYear, nowMonth),
                         YearlyReportOf(records, cal, nowYear),
                         TrendsOf(records, cal, nowYear, nowMonth)))
  }

  /** A monthly request without year or month reports the current month: the
      same report the general one shows. */
  lemma {:induction false} MonthlyDefaultsToCurrent(records: seq<FinancialRecord>, cal: Calendar, nowYear: int, nowMonth: int)
    ensures var r := Report(records, cal, ReportQuery(Some("monthly"), None, None), nowYear, nowMonth);
      var g := Report(records, cal, ReportQuery(None, None, None), nowYear, nowMonth);
      r.Reply? && r.body.Monthly? && g.body.General? && r.body.monthly == g.body.currentMonth
  {
    MonthlyOfCurrent(records, cal, nowYear, nowMonth);
    GeneralOfCurrent(records, cal, nowYear, nowMonth);
  }

  lemma {:induction false} MonthlyOfCurrent(records: seq<FinancialRecord>, cal: Calendar, nowYear: int, nowMonth: int)
    ensures Report(records, cal, ReportQuery(Some("monthly"), None, None), nowYear, nowMonth)
      == Reply(200, Monthly(MonthlyReportOf(records, cal, nowYear, nowMonth)))
  {
    DefaultParams(ReportQuery(Some("monthly"), None, None), nowYear, nowMonth);
  }

  lemma {:induction false} GeneralOfCurrent(records: seq<FinancialRecord>, cal: Calendar, nowYear: int, nowMonth: int)
    ensures var g := Report(records, cal, ReportQuery(None, None, None), nowYear, nowMonth);
      g.body.General? && g.body.currentMonth == MonthlyReportOf(records, cal, nowYear, nowMonth)
  {
  }

  /** Absent year and month parameters read back as the current ones. */
  lemma {:induction false} DefaultParams(q: ReportQuery, nowYear: int, nowMonth: int)
    requires q.year.None? && q.month.None?
    ensures YearParam(q, nowYear) == Some(nowYear) && MonthParam(q, nowMonth) == Some(nowMonth)
  {
    ParseIntOfIntToString(nowYear);
    ParseIntOfIntToString(nowMonth);
  }
}

=== FILE: reports_page.dfy ===
/** The reports page: month names, the year and month selectors, the CSV
    export of the yearly breakdown and the trend badges. Numbers are rendered
    by a caller-supplied `show` (JavaScript's number-to-text conversion). */
module ReportsPage {
  import opened Util
  import opened Numeric
  import opened Js
  import opened Records
  import Reports

  const MonthNames: seq<string> := [
    "Ocak", "Şubat", "Mart", "Nisan", "Mayıs", "Haziran",
    "Temmuz", "Ağustos", "Eylül", "Ekim", "Kasım", "Aralık"
  ]

  /** `getMonthName(month)`: `months[month - 1]`, undefined outside 1..12. */
  function MonthName(month: int): (r: Option<string>)
    ensures r.Some? <==> 1 <= month <= 12
  {
    if 1 <= month <= 12 then Some(MonthNames[month - 1]) else None
  }

  /** The twelve months get twelve different names. */
  lemma {:induction false} MonthNamesDistinct(a: int, b: int)
    requires 1 <= a <= 12 && 1 <= b <= 12 && a != b
    ensures MonthName(a).value != MonthName(b).value
  {
  }

  /** A month name as a template literal prints it: undefined prints as
      "undefined". */
  function MonthText(month: int): (r: string)
    ensures 1 <= month <= 12 ==> r == MonthNames[month - 1]
    ensures !(1 <= month <= 12) ==> r == "undefined"
  {
    match MonthName(month)
    case Some(n) => n
    case None => "undefined"
  }

  // ---------------------------------------------------------------------------
  // Selectors
  // ---------------------------------------------------------------------------

  /** The year select: the current year and the four before it, newest first. */
  function YearOptions(currentYear: int): (r: seq<int>)
    ensures |r| == 5 && r[0] == currentYear
    ensures forall i :: 0 <= i < 4 ==> r[i + 1] == r[i] - 1
  {
    seq(5, i => currentYear - i)
  }

  /** The month select: values 0..11, option `i` labelled with month `i + 1`. */
  function MonthOptions(): (r: seq<(int, string)>)
    ensures |r| == 12
    ensures forall i :: 0 <= i < 12 ==> r[i].0 == i && MonthName(i + 1) == Some(r[i].1)
  {
    seq(12, i requires 0 <= i < 12 => (i, MonthNames[i]))
  }

  /** The request the page sends: type, year and month are always present. */
  function QueryOf(reportType: string, year: string, month: string): Reports.ReportQuery
  {
    Reports.ReportQuery(Some(reportType), Some(year), Some(month))
  }

  /** Any year and month the selectors offer reach the server as those
      numbers, so a report of any type is served for them. */
  lemma {:induction false} SelectorsReachServer(records: seq<FinancialRecord>, cal: Reports.Calendar, reportType: string,
                                                currentYear: int, i: int, month: int, nowYear: int, nowMonth: int)
    requires 0 <= i < 5 && 0 <= month < 12
    ensures var q := QueryOf(reportType, IntToString(YearOptions(currentYear)[i]), IntToString(MonthOptions()[month].0));
      && Reports.YearParam(q, nowYear) == Some(currentYear - i)
      && Reports.MonthParam(q, nowMonth) == Some(month)
      && Reports.Report(records, cal, q, nowYear, nowMonth).Reply?
  {
    var y := YearOptions(currentYear)[i];
    var q := QueryOf(reportType, IntToString(y), IntToString(month));
    assert ParamOr(q.year, IntToString(nowYear)) == IntToString(y);
    assert ParamOr(q.month, IntToString(nowMonth)) == IntToString(month);
    ParseIntOfIntToString(y);
    ParseIntOfIntToString(month);
  }

  // ---------------------------------------------------------------------------
  // Reading the reply
  // ---------------------------------------------------------------------------

  /** The top-level keys of each reply body's JSON. */
  function TopKeys(b: Reports.ReportBody): set<string>
  {
    match b
    case Monthly(_) => {"period", "summary", "serviceAnalysis", "dailyTrends", "records"}
    case Yearly(_) => {"year", "summary", "monthlyBreakdown"}
    case Comparison(_) => {"currentYear", "previousYear", "changes"}
    case Trends(_) => {"trends"}
    case General(_, _, _) => {"currentMonth", "currentYear", "trends"}
  }

  /** `data.currentYear?.monthlyBreakdown`: only the general reply nests a
      yearly report under `currentYear`; the comparison's `currentYear` is a
      bare summary. */
  function Breakdown(b: Reports.ReportBody): (r: Option<seq<Reports.MonthRow>>)
    ensures r.Some? <==> b.General?
    ensures r.Some? ==> r.value == b.currentYear.monthlyBreakdown && "currentYear" in TopKeys(b)
  {
    match b
    case General(_, y, _) => Some(y.monthlyBreakdown)
    case _ => None
  }

  /** `data.trends`: the trend rows where the reply carries them. This is
      the reading the trend table needs. */
  function TrendRows(b: Reports.ReportBody): (r: Option<seq<Reports.TrendRow>>)
    ensures r.Some? <==> "trends" in TopKeys(b)
  {
    match b
    case Trends(t) => Some(t)
    case General(_, _, t) => Some(t)
    case _ => None
  }

  /** A named member of an array as JavaScript reads it. An array's own
      members are its indices and `length`, and its inherited ones are the
      array methods; `trends` is none of them. That is the one JavaScript
      fact this reading assumes, so any member read for trend rows is
      undefined. */
  function RowArrayMember(rows: seq<Reports.TrendRow>, name: string): Option<seq<Reports.TrendRow>>
  {
    None
  }

  /** `data.trends?.trends`, as the page reads it: optional chaining stops at
      a reply without `trends`, and otherwise reads the member `trends` of the
      row array found there. */
  function NestedTrends(b: Reports.ReportBody): (r: Option<seq<Reports.TrendRow>>)
    ensures r.None?
    ensures "trends" in TopKeys(b) <==> b.Trends? || b.General?
  {
    match TrendRows(b)
    case None => None
    case Some(rows) => RowArrayMember(rows, "trends")
  }

  /** Every successful reply carries six trend rows under `trends` for a
      trends or general request, yet the page's nested reading finds none,
      so its trend table never appears. The CSV has rows only for a general
      request. */
  lemma {:induction false} TrendTableNeverFilled(records: seq<FinancialRecord>, cal: Reports.Calendar,
                                                 q: Reports.ReportQuery, nowYear: int, nowMonth: int)
    requires Reports.Report(records, cal, q, nowYear, nowMonth).Reply?
    ensures var b := Reports.Report(records, cal, q, nowYear, nowMonth).body;
      && NestedTrends(b).None?
      && (TrendRows(b).Some? <==>
            Reports.IsKind(q, "trends")
            || (!Reports.IsKind(q, "monthly") && !Reports.IsKind(q, "yearly") && !Reports.IsKind(q, "comparison")))
      && (TrendRows(b).Some? ==> |TrendRows(b).value| == 6)
      && (Breakdown(b).Some? ==> |Breakdown(b).value| == 12)
  {
  }

  // ---------------------------------------------------------------------------
  // CSV export
  // ---------------------------------------------------------------------------

  const CsvHeader := "Dönem,Gelir,Gider,Net Kar,İşlem Sayısı"

  /** A breakdown row's CSV fields. */
  function CsvFields(row: Reports.MonthRow, show: real -> string): seq<string>
  {
    [MonthText(row.month), show(row.income), show(row.expense), show(row.net), NatToString(row.transactionCount)]
  }

  /** A breakdown row as a CSV line, without its newline. */
  function CsvLine(row: Reports.MonthRow, show: real -> string): string
  {
    MonthText(row.month) + "," + show(row.income) + "," + show(row.expense) + "," + show(row.net)
    + "," + NatToString(row.transactionCount)
  }

  /** The rows' lines, each ending with a newline. */
  function CsvRows(rows: seq<Reports.MonthRow>, show: real -> string): string
  {
    if |rows| == 0 then "" else CsvLine(rows[0], show) + "\n" + CsvRows(rows[1..], show)
  }

  /** `generateCSVContent`: the header line, then one line per row of the
      yearly breakdown when there is one. */
  function CsvContent(breakdown: Option<seq<Reports.MonthRow>>, show: real -> string): string
  {
    CsvHeader + "\n" + match breakdown case Some(rows) => CsvRows(rows, show) case None => ""
  }

  /** Rendered numbers contain neither separator. */
  ghost predicate PlainNumbers(show: real -> string)
  {
    forall x :: '\n' !in show(x) && ',' !in show(x)
  }

  lemma {:induction false} DigitsAreNotSeparators(s: string)
    requires AllDigits(s)
    ensures '\n' !in s && ',' !in s
  {
  }

  lemma {:induction false} MonthTextPlain(month: int)
    ensures '\n' !in MonthText(month) && ',' !in MonthText(month)
  {
  }

  /** A CSV line splits at its commas into exactly its five fields. */
  lemma {:induction false} CsvLineFields(row: Reports.MonthRow, show: real -> string)
    requires PlainNumbers(show)
    ensures '\n' !in CsvLine(row, show)
    ensures Split(CsvLine(row, show), ',') == CsvFields(row, show)
  {
    var f := CsvFields(row, show);
    MonthTextPlain(row.month);
    DigitsAreNotSeparators(f[4]);
    assert CsvLine(row, show) == f[0] + [','] + (f[1] + [','] + (f[2] + [','] + (f[3] + [','] + f[4])));
    SplitJoin(f[0], f[1] + [','] + (f[2] + [','] + (f[3] + [','] + f[4])), ',');
    SplitJoin(f[1], f[2] + [','] + (f[3] + [','] + f[4]), ',');
    SplitJoin(f[2], f[3] + [','] + f[4], ',');
    SplitJoin(f[3], f[4], ',');
    SplitNoSep(f[4], ',');
  }

  /** The rows' text splits at newlines into one line per row, in order,
      followed by the empty text after the last newline. */
  lemma {:induction false} CsvRowsLines(rows: seq<Reports.MonthRow>, show: real -> string)
    requires PlainNumbers(show)
    ensures var lines := Split(CsvRows(rows, show), '\n');
      |lines| == |rows| + 1 && lines[|rows|] == ""
      && forall i :: 0 <= i < |rows| ==> lines[i] == CsvLine(rows[i], show)
    decreases |rows|
  {
    if |rows| > 0 {
      var first := CsvLine(rows[0], show);
      var rest := CsvRows(rows[1..], show);
      CsvRowsLines(rows[1..], show);
      assert '\n' !in first by {
        CsvLineFields(rows[0], show);
      }
      assert CsvRows(rows, show) == first + ['\n'] + rest;
      SplitJoin(first, rest, '\n');
      var lines := Split(CsvRows(rows, show), '\n');
      forall i | 1 <= i < |rows|
        ensures lines[i] == CsvLine(rows[i], show)
      {
        assert rows[1..][i - 1] == rows[i];
      }
    }
  }

  /** The export of any breakdown is the header, one line per row with
      that row's fields, and the empty text after the last newline. */
  lemma {:induction false} CsvContentLines(rows: seq<Reports.MonthRow>, show: real -> string, k: int)
    requires PlainNumbers(show) && 0 <= k < |rows|
    ensures var lines := Split(CsvContent(Some(rows), show), '\n');
      && |lines| == |rows| + 2 && lines[0] == CsvHeader && lines[|rows| + 1] == ""
      && Split(lines[k + 1], ',') == CsvFields(rows[k], show)
  {
    var body := CsvRows(rows, show);
    assert CsvContent(Some(rows), show) == CsvHeader + ['\n'] + body;
    HeaderLine(body);
    var rest := Split(body, '\n');
    assert |rest| == |rows| + 1 && rest[|rows|] == "" && rest[k] == CsvLine(rows[k], show) by {
      CsvRowsLines(rows, show);
    }
    assert Split(rest[k], ',') == CsvFields(rows[k], show) by {
      CsvLineFields(rows[k], show);
    }
  }

  /** The header is the first line of any export. */
  lemma {:induction false} HeaderLine(body: string)
    ensures Split(CsvHeader + ['\n'] + body, '\n') == [CsvHeader] + Split(body, '\n')
  {
    assert '\n' !in CsvHeader;
    SplitJoin(CsvHeader, body, '\n');
  }

  /** The export of a yearly report is the header followed by twelve lines,
      the `k`-th naming month `k + 1` and carrying that month's figures; with
      no breakdown it is the header alone. */
  lemma {:induction false} YearlyCsv(records: seq<FinancialRecord>, cal: Reports.Calendar, year: int,
                                     show: real -> string, k: int)
    requires PlainNumbers(show) && 0 <= k < 12
    ensures var y := Reports.YearlyReportOf(records, cal, year);
      var lines := Split(CsvContent(Some(y.monthlyBreakdown), show), '\n');
      && |lines| == 14 && lines[0] == CsvHeader && lines[13] == ""
      && Split(lines[k + 1], ',') == CsvFields(y.monthlyBreakdown[k], show)
      && Split(lines[k + 1], ',')[0] == MonthNames[k]
    ensures Split(CsvContent(None, show), '\n') == [CsvHeader, ""]
  {
    var rows := Reports.YearlyReportOf(records, cal, year).monthlyBreakdown;
    assert |rows| == 12 && rows[k].month == k + 1;
    CsvContentLines(rows, show, k);
    assert CsvFields(rows[k], show)[0] == MonthNames[k];
    HeaderLine("");
    assert CsvContent(None, show) == CsvHeader + ['\n'] + "";
  }

  // ---------------------------------------------------------------------------
  // Trend badges
  // ---------------------------------------------------------------------------

  /** A trend row's badge: up or down, with the change against the previous
      row's absolute net. */
  datatype Badge = Badge(positive: bool, change: Reports.Change)

  /** Row `i`'s badge: none for the first row; otherwise the net change from the
      previous row, shown as up when it is not negative. */
  function TrendBadge(trends: seq<Reports.TrendRow>, i: nat): (b: Option<Badge>)
    requires i < |trends|
    ensures b.None? <==> i == 0
    ensures b.Some? ==> (b.value.positive <==> trends[i].net >= trends[i - 1].net)
  {
    if i == 0 then None
    else
      var prev := trends[i - 1];
      var netChange := trends[i].net - prev.net;
      Some(Badge(netChange >= 0.0, Reports.ChangeOf(trends[i].net, prev.net, Reports.Abs(prev.net))))
  }

  /** When the previous net is not zero the percentage is finite, and it is
      non-negative exactly when the badge points up; a zero previous net gives
      a non-finite percentage. */
  lemma {:induction false} BadgeAgreesWithPercent(trends: seq<Reports.TrendRow>, i: nat)
    requires 0 < i < |trends|
    ensures var b := TrendBadge(trends, i).value;
      && (b.change.Pct? <==> trends[i - 1].net != 0.0)
      && (b.change.Pct? ==> (b.change.percent >= 0.0 <==> b.positive))
  {
    var b := TrendBadge(trends, i).value;
    var base := Reports.Abs(trends[i - 1].net);
    if b.change.Pct? {
      var d := (trends[i].net - trends[i - 1].net) * 100.0;
      assert b.change.percent * base == d;
      assert base > 0.0;
      NonNegativeProduct(b.change.percent, base, d);
    }
  }

  lemma {:induction false} NonNegativeProduct(x: real, b: real, y: real)
    requires b > 0.0 && x * b == y
    ensures x >= 0.0 <==> y >= 0.0
  {
    if x >= 0.0 {
      assert x * b >= 0.0;
    } else {
      assert x * b < 0.0;
    }
  }
}

=== FILE: search_page.dfy ===
/** The search page's `performSearch`: one query sent to the ticket and
    customer lists, the two answers turned into result cards, merged and
    ordered newest first. */
module SearchPage {
  import opened Util
  import opened Js
  import opened Numeric
  import opened Records
  import ServicesApi
  import CustomersApi

  const NoQueryMessage := "Lütfen bir arama terimi girin"
  const FailedMessage := "Arama yapılırken bir hata oluştu"
  const SearchLimit := "50"

  datatype Kind = ServiceHit | CustomerHit

  datatype SearchResult = SearchResult(id: string, kind: Kind, title: string, description: string, createdAt: int)

  function ResultCreated(r: SearchResult): real { r.createdAt as real }

  /** The two list requests, both carrying the untrimmed query and limit 50. */
  datatype Fetch = Fetch(path: string, search: string, limit: string)

  /** Nothing is requested for a query that is blank once trimmed. */
  function Requests(query: string): (r: seq<Fetch>)
    ensures IsBlank(query) <==> r == []
    ensures r != [] ==> r == [Fetch("/api/services", query, SearchLimit), Fetch("/api/customers", query, SearchLimit)]
  {
    if IsBlank(query) then [] else [Fetch("/api/services", query, SearchLimit), Fetch("/api/customers", query, SearchLimit)]
  }

  /** The list query the ticket endpoint sees for the search request. */
  function ServicesQuery(f: Fetch): ServicesApi.ListQuery
  {
    ServicesApi.ListQuery(Some(f.search), None, None, Some(f.limit))
  }

  /** The ticket request is served as page 1 of at most 50 tickets, so at
      most 50 ticket cards can appear, and every ticket it returns matches
      the query. */
  lemma {:induction false} TicketRequestPaging(query: string, rows: seq<ServicesApi.ServiceRow>)
    requires !IsBlank(query)
    ensures var q := ServicesQuery(Requests(query)[0]);
      var r := ServicesApi.ListServices(rows, q);
      && r.Reply?
      && r.body.pagination.page == 1 && r.body.pagination.limit == 50
      && |r.body.services| <= 50
      && forall i :: 0 <= i < |r.body.services| ==> ServicesApi.Selected(q, r.body.services[i])
  {
    var f := Requests(query)[0];
    assert f == Fetch("/api/services", query, SearchLimit);
    var q := ServicesApi.ListQuery(Some(query), None, None, Some(SearchLimit));
    assert ServicesQuery(f) == q;
    SearchPaging(q);
    var r := ServicesApi.ListServices(rows, q);
    assert r.body == ServicesApi.ServicesPage(rows, q, 1, 50);
  }

  lemma {:induction false} SearchPaging(q: ServicesApi.ListQuery)
    requires q.page == None && q.limit == Some(SearchLimit)
    ensures ServicesApi.PageParam(q) == Some(1) && ServicesApi.LimitParam(q) == Some(50)
  {
    FirstPage(q);
    SearchLimitValue(q);
  }

  lemma {:induction false} FirstPage(q: ServicesApi.ListQuery)
    requires q.page == None
    ensures ServicesApi.PageParam(q) == Some(1)
  {
    assert ParamOr(q.page, "1") == NatToString(1);
    ParseIntOfNatToString(1);
  }

  lemma {:induction false} SearchLimitValue(q: ServicesApi.ListQuery)
    requires q.limit == Some(SearchLimit)
    ensures ServicesApi.LimitParam(q) == Some(50)
  {
    assert NatToString(50) == NatToString(5) + [DigitChar(0)];
    assert ParamOr(q.limit, "10") == NatToString(50);
    ParseIntOfNatToString(50);
  }

  function ServiceCard(r: ServicesApi.ServiceRow): SearchResult
  {
    SearchResult(r.service.id, ServiceHit, "Servis #" + r.service.serviceNumber,
                 r.customerName + " - " + r.service.brand + " " + r.service.model, r.service.createdAt)
  }

  function CustomerCard(c: Customer): SearchResult
  {
    SearchResult(c.id, CustomerHit, c.name,
                 c.phone + " " + (if Filled(c.email) then "- " + c.email.value else ""), c.createdAt)
  }

  function ServiceCards(rows: seq<ServicesApi.ServiceRow>): (r: seq<SearchResult>)
    ensures |r| == |rows|
    ensures forall i :: 0 <= i < |r| ==> r[i] == ServiceCard(rows[i])
  {
    seq(|rows|, i requires 0 <= i < |rows| => ServiceCard(rows[i]))
  }

  function CustomerCards(cs: seq<Customer>): (r: seq<SearchResult>)
    ensures |r| == |cs|
    ensures forall i :: 0 <= i < |r| ==> r[i] == CustomerCard(cs[i])
  {
    seq(|cs|, i requires 0 <= i < |cs| => CustomerCard(cs[i]))
  }

  /** The ticket cards, then the customer cards, ordered newest first (the
      sort is stable, so equal times keep that order). */
  function Merge(rows: seq<ServicesApi.ServiceRow>, cs: seq<Customer>): seq<SearchResult>
  {
    SortDesc(ServiceCards(rows) + CustomerCards(cs), ResultCreated)
  }

  /** Every card comes from a ticket or a customer, and the ticket cards
      are titled by their service number. */
  lemma {:induction false} CardTitles(rows: seq<ServicesApi.ServiceRow>, cs: seq<Customer>)
    ensures forall x :: x in ServiceCards(rows) + CustomerCards(cs) && x.kind == ServiceHit ==>
      StartsWith(x.title, "Servis #")
  {
    var all := ServiceCards(rows) + CustomerCards(cs);
    forall x | x in all && x.kind == ServiceHit
      ensures StartsWith(x.title, "Servis #")
    {
      var k :| 0 <= k < |all| && all[k] == x;
      assert k < |rows|;
      assert x == ServiceCard(rows[k]);
      assert x.title[..8] == "Servis #";
    }
  }

  /** Every ticket and every customer gets exactly one card, titled by the
      service number or the customer's name, and the cards come newest
      first. */
  lemma {:induction false} MergeShape(rows: seq<ServicesApi.ServiceRow>, cs: seq<Customer>)
    ensures var m := Merge(rows, cs);
      && |m| == |rows| + |cs|
      && SortedDesc(m, ResultCreated)
      && multiset(m) == multiset(ServiceCards(rows)) + multiset(CustomerCards(cs))
      && (forall i :: 0 <= i < |rows| ==> ServiceCard(rows[i]) in m)
      && (forall i :: 0 <= i < |cs| ==> CustomerCard(cs[i]) in m)
      && (forall x :: x in m && x.kind == ServiceHit ==> StartsWith(x.title, "Servis #"))
  {
    var all := ServiceCards(rows) + CustomerCards(cs);
    var m := Merge(rows, cs);
    SortDescLength(all, ResultCreated);
    assert multiset(m) == multiset(all);
    forall x | x in all
      ensures x in m
    {
      assert x in multiset(all);
    }
    forall x | x in m
      ensures x in all
    {
      assert x in multiset(m);
    }
    forall i | 0 <= i < |rows|
      ensures ServiceCard(rows[i]) in m
    {
      assert all[i] == ServiceCard(rows[i]);
    }
    forall i | 0 <= i < |cs|
      ensures CustomerCard(cs[i]) in m
    {
      assert all[|rows| + i] == CustomerCard(cs[i]);
    }
    CardTitles(rows, cs);
  }

  /** The customers endpoint's reply body as the page reads it: the endpoint
      sends a bare array, the page expects an object with `customers`. */
  datatype CustomersBody = BareArray(items: seq<Customer>) | Wrapped(customers: seq<Customer>)

  datatype Toast = NoToast | ErrorToast(message: string)

  datatype Outcome = Outcome(results: seq<SearchResult>, toast: Toast)

  /** `performSearch` as written. `previous` is what the page showed before;
      a reply is `None` when its status was not OK. Reading `.customers` off
      a bare array gives undefined, and calling `forEach` on it throws into
      the catch block. */
  function PerformSearch(query: string, previous: seq<SearchResult>, services: Option<seq<ServicesApi.ServiceRow>>,
                         customers: Option<CustomersBody>): (o: Outcome)
    ensures IsBlank(query) ==> o == Outcome(previous, ErrorToast(NoQueryMessage))
    ensures !IsBlank(query) && customers.Some? && customers.value.BareArray? ==>
      o == Outcome(previous, ErrorToast(FailedMessage))
    ensures o.toast.ErrorToast? ==> o.results == previous
    ensures o.toast == NoToast ==>
      var rows := if services.Some? then services.value else [];
      var cs := if customers.Some? then customers.value.customers else [];
      && !IsBlank(query) && |o.results| == |rows| + |cs| && SortedDesc(o.results, ResultCreated)
  {
    if IsBlank(query) then Outcome(previous, ErrorToast(NoQueryMessage))
    else
      var rows := if services.Some? then services.value else [];
      match customers
      case Some(BareArray(_)) => Outcome(previous, ErrorToast(FailedMessage))
      case Some(Wrapped(cs)) => MergeShape(rows, cs); Outcome(Merge(rows, cs), NoToast)
      case None => MergeShape(rows, []); Outcome(Merge(rows, []), NoToast)
  }

  /** Whenever the customers endpoint answers, whatever it found, the page
      ends in the error toast and keeps its previous results: no search ever
      shows new results while that endpoint is up. */
  lemma {:induction false} SearchNeverShowsResults(query: string, previous: seq<SearchResult>,
                                                   services: Option<seq<ServicesApi.ServiceRow>>, store: seq<Customer>)
    requires !IsBlank(query)
    ensures var o := PerformSearch(query, previous, services,
                                   Some(BareArray(CustomersApi.ListCustomers(store, Some(query)))));
      o == Outcome(previous, ErrorToast(FailedMessage))
  {
  }

  /** `performSearch` reading the customers reply as the array it is. */
  function CorrectedSearch(query: string, previous: seq<SearchResult>, services: Option<seq<ServicesApi.ServiceRow>>,
                           customers: Option<seq<Customer>>): Outcome
  {
    if IsBlank(query) then Outcome(previous, ErrorToast(NoQueryMessage))
    else Outcome(Merge(if services.Some? then services.value else [], if customers.Some? then customers.value else []),
                 NoToast)
  }

  /** Read correctly, a search whose two requests succeed shows one card per
      matching ticket and per matching customer, newest first; a customer is
      shown exactly when the customer list would return it for the query. */
  lemma {:induction false} CorrectedSearchShowsBoth(query: string, previous: seq<SearchResult>,
                                                    rows: seq<ServicesApi.ServiceRow>, store: seq<Customer>, c: Customer)
    requires !IsBlank(query)
    ensures var found := CustomersApi.ListCustomers(store, Some(query));
      var o := CorrectedSearch(query, previous, Some(rows), Some(found));
      && o.toast == NoToast
      && |o.results| == |rows| + |found|
      && SortedDesc(o.results, ResultCreated)
      && (c in store && CustomersApi.MatchesSearch(c, query) ==> CustomerCard(c) in o.results)
  {
    var found := CustomersApi.ListCustomers(store, Some(query));
    MergeShape(rows, found);
    CustomersApi.ListExact(store, Some(query), c);
    if c in found {
      var k :| 0 <= k < |found| && found[k] == c;
      assert CustomerCard(found[k]) in Merge(rows, found);
    }
  }
}

=== FILE: service_form.dfy ===
/** The ticket form: the customer picker's search, the initial form values, and
    the request a submission sends. */
module ServiceForm {
  import opened Util
  import opened Js
  import opened Records
  import ServicesApi

  // ---------------------------------------------------------------------------
  // Customer search
  // ---------------------------------------------------------------------------

  /** The lower-cased search text, untrimmed, occurs in the customer's name,
      phone or e-mail. */
  predicate MatchesCustomer(c: Customer, search: string)
  {
    var term := Lower(search);
    Contains(Lower(c.name), term) || Contains(Lower(c.phone), term)
    || (c.email.Some? && Contains(Lower(c.email.value), term))
  }

  function CustomerTest(search: string): Customer -> bool
  {
    (c: Customer) => MatchesCustomer(c, search)
  }

  /** The picker's list: every customer for a blank search, else the matching
      ones. */
  function FilteredCustomers(customers: seq<Customer>, search: string): seq<Customer>
  {
    if IsBlank(search) then customers else Filter(customers, CustomerTest(search))
  }

  /** The picker keeps the fetched customers in order, and shows exactly the
      matching ones, or all of them when the search is blank. */
  lemma {:induction false} FilteredCustomersExact(customers: seq<Customer>, search: string, c: Customer)
    ensures IsSubseq(FilteredCustomers(customers, search), customers)
    ensures IsBlank(search) ==> FilteredCustomers(customers, search) == customers
    ensures c in FilteredCustomers(customers, search) <==>
      c in customers && (!IsBlank(search) ==> MatchesCustomer(c, search))
  {
    if IsBlank(search) {
      FilterAll(customers, (x: Customer) => true);
      FilterIsSubseq(customers, (x: Customer) => true);
    } else {
      FilterIsSubseq(customers, CustomerTest(search));
      FilterMembers(customers, CustomerTest(search), c);
    }
  }

  // ---------------------------------------------------------------------------
  // Form values
  // ---------------------------------------------------------------------------

  const Unassigned := "UNASSIGNED"

  /** The ticket being edited, as the form receives it. `feeText` is the
      estimate rendered with `toString()`, absent when there is none. */
  datatype Edited = Edited(
    id: Option<string>,
    customerId: string,
    deviceType: string,
    brand: string,
    model: string,
    serialNumber: Option<string>,
    imei: Option<string>,
    problemDescription: string,
    accessories: Option<string>,
    physicalCondition: Option<string>,
    feeText: Option<string>,
    technicianId: Option<string>)

  /** The form state: every field is text; the technician select holds
      "UNASSIGNED" for no technician. */
  datatype FormData = FormData(
    customerId: string,
    deviceType: string,
    brand: string,
    model: string,
    serialNumber: string,
    imei: string,
    problemDescription: string,
    accessories: string,
    physicalCondition: string,
    estimatedFee: string,
    technicianId: string)

  /** `x || ''` for an optional text field. */
  function TextOr(o: Option<string>, fallback: string): (r: string)
    ensures Filled(o) ==> r == o.value
    ensures !Filled(o) ==> r == fallback
  {
    ParamOr(o, fallback)
  }

  /** The initial form: the edited ticket's fields, '' where absent, and
      "UNASSIGNED" when it has no technician. */
  function InitialForm(service: Option<Edited>): (f: FormData)
    ensures service.None? ==> f == FormData("", "", "", "", "", "", "", "", "", "", Unassigned)
    ensures service.Some? ==>
      var s := service.value;
      && f.customerId == s.customerId && f.brand == s.brand && f.model == s.model
      && f.deviceType == s.deviceType && f.problemDescription == s.problemDescription
      && f.serialNumber == TextOr(s.serialNumber, "") && f.imei == TextOr(s.imei, "")
      && f.accessories == TextOr(s.accessories, "")
      && f.physicalCondition == TextOr(s.physicalCondition, "")
      && f.estimatedFee == TextOr(s.feeText, "")
      && f.technicianId == TextOr(s.technicianId, Unassigned)
  {
    match service
    case None => FormData("", "", "", "", "", "", "", "", "", "", Unassigned)
    case Some(s) =>
      FormData(s.customerId, s.deviceType, s.brand, s.model, TextOr(s.serialNumber, ""),
               TextOr(s.imei, ""), s.problemDescription, TextOr(s.accessories, ""),
               TextOr(s.physicalCondition, ""), TextOr(s.feeText, ""), TextOr(s.technicianId, Unassigned))
  }

  /** The JSON body: the form with "UNASSIGNED" sent as null. The estimate is
      sent as the typed text. */
  datatype SubmitData = SubmitData(form: FormData, technicianId: Option<string>)

  datatype Verb = Post | Put

  datatype Request = Request(verb: Verb, url: string, body: SubmitData)

  /** `handleSubmit`: edit mode (the ticket has a non-empty id) updates it,
      otherwise a new ticket is created. */
  function Submit(service: Option<Edited>, f: FormData): (r: Request)
    ensures r.body.form == f
    ensures r.body.technicianId.None? <==> f.technicianId == Unassigned
    ensures r.body.technicianId.Some? ==> r.body.technicianId.value == f.technicianId
    ensures r.verb == Put <==> service.Some? && Filled(service.value.id)
    ensures r.verb == Put ==> r.url == "/api/services/" + service.value.id.value
    ensures r.verb == Post ==> r.url == "/api/services"
  {
    var body := SubmitData(f, if f.technicianId == Unassigned then None else Some(f.technicianId));
    if service.Some? && Filled(service.value.id) then Request(Put, "/api/services/" + service.value.id.value, body)
    else Request(Post, "/api/services", body)
  }

  /** Submitting an untouched edit form sends back the ticket's technician, or
      null when it had none. */
  lemma {:induction false} UntouchedTechnician(s: Edited)
    requires s.technicianId.None? || s.technicianId.value != Unassigned
    ensures var d := Submit(Some(s), InitialForm(Some(s))).body;
      d.technicianId == (if Filled(s.technicianId) then s.technicianId else None)
  {
  }

  /** The body the creation endpoint reads from a form submission: every text
      field is present, possibly empty. */
  function AsCreateBody(d: SubmitData): (b: ServicesApi.CreateBody)
    ensures b.technicianId == d.technicianId && b.estimatedFee == Str(d.form.estimatedFee)
  {
    var f := d.form;
    ServicesApi.CreateBody(Some(f.customerId), Some(f.deviceType), Some(f.brand), Some(f.model),
      Some(f.serialNumber), Some(f.imei), Some(f.problemDescription), Some(f.accessories),
      Some(f.physicalCondition), Str(f.estimatedFee), d.technicianId)
  }

  /** A new ticket from the form is created exactly when the five required
      fields are non-empty and the chosen customer and technician are stored
      ("UNASSIGNED" choosing none); it then holds the form's values, an empty
      estimate is stored as null and "UNASSIGNED" as no technician. */
  lemma {:induction false} CreateFromForm(st: Store, f: FormData, id: string, now: nat, random: real)
    requires 0.0 <= random < 1.0
    ensures var req := Submit(None, f);
      var r := ServicesApi.CreateService(st, AsCreateBody(req.body), id, now, random);
      && req.verb == Post
      && (r.0.Reply? <==> f.customerId != "" && f.deviceType != "" && f.brand != ""
                          && f.model != "" && f.problemDescription != ""
                          && FindById(st.customers, CustomerKey, f.customerId).Some?
                          && (f.technicianId == Unassigned || FindById(st.users, UserKey, f.technicianId).Some?))
      && (r.0.Reply? ==>
            && r.0.body.customerId == f.customerId && r.0.body.brand == f.brand
            && r.0.body.model == f.model && r.0.body.serialNumber == Some(f.serialNumber)
            && (f.estimatedFee == "" ==> r.0.body.estimatedFee.None?)
            && (r.0.body.technicianId.None? <==> f.technicianId == Unassigned))
  {
  }
}

=== FILE: service_list.dfy ===
/** The ticket list component: the query it sends to `GET /api/services`, the
    fee and status cells of a row, and the pager and filter controls. */
module ServiceList {
  import opened Util
  import opened Js
  import opened Numeric
  import opened Records
  import opened Status
  import opened StatusUpdate
  import ServicesApi

  /** The component's filter and paging state. */
  datatype Lister = Lister(search: string, statusFilter: string, page: int, totalPages: int)

  const PageSize := "10"

  /** The filter select's sentinel meaning "every status". */
  const AllFilter := "ALL"

  function Initial(): Lister
  {
    Lister("", AllFilter, 1, 1)
  }

  /** The status filter is applied when it is set and not "ALL". */
  predicate StatusApplied(l: Lister)
  {
    l.statusFilter != "" && l.statusFilter != AllFilter
  }

  /** `fetchServices`' URL parameters: the page, a limit of 10, the status only
      when a real status is chosen and the search only when non-empty. */
  function QueryOf(l: Lister): (q: ServicesApi.ListQuery)
    ensures q.limit == Some(PageSize) && q.page == Some(IntToString(l.page))
    ensures q.status.Some? <==> StatusApplied(l)
    ensures q.search.Some? <==> l.search != ""
  {
    ServicesApi.ListQuery(
      if l.search != "" then Some(l.search) else None,
      if StatusApplied(l) then Some(l.statusFilter) else None,
      Some(IntToString(l.page)),
      Some(PageSize))
  }

  /** The server reads back the component's page and a limit of 10, so any
      page from 1 on is served. */
  lemma {:induction false} QueryPaging(l: Lister)
    ensures ServicesApi.PageParam(QueryOf(l)) == Some(l.page)
    ensures ServicesApi.LimitParam(QueryOf(l)) == Some(10)
    ensures ServicesApi.ValidPaging(QueryOf(l)) <==> l.page >= 1
  {
    var q := QueryOf(l);
    ParseIntOfIntToString(l.page);
    assert ParamOr(q.page, "1") == IntToString(l.page);
    assert ParamOr(q.limit, "10") == "10";
    PageSizeValue();
  }

  lemma {:induction false} PageSizeValue()
    ensures ParseInt(PageSize) == Some(10)
  {
    assert NatToString(1) == "1";
    assert NatToString(10) == NatToString(1) + [DigitChar(0)];
    ParseIntOfNatToString(10);
  }

  /** A ticket is listed exactly when it passes the component's status filter
      and search. */
  lemma {:induction false} QuerySelection(rows: seq<ServicesApi.ServiceRow>, l: Lister, r: ServicesApi.ServiceRow)
    ensures r in ServicesApi.Selection(rows, QueryOf(l)) <==>
      r in rows
      && (l.search != "" ==> ServicesApi.MatchesSearch(r, l.search))
      && (StatusApplied(l) ==> r.service.status == l.statusFilter)
  {
    ServicesApi.SelectionExact(rows, QueryOf(l), r);
  }

  /** The Turkish label of each status. */
  function Label(s: Status): string
  {
    match s
    case Received => "Alındı"
    case DiagnosisPending => "Teşhis Bekliyor"
    case CustomerApprovalPending => "Müşteri Onayı Bekleniyor"
    case PartsPending => "Parça Bekleniyor"
    case Repairing => "Tamir Ediliyor"
    case CompletedReadyForDelivery => "Tamamlandı"
    case Delivered => "Teslim Edildi"
    case Cancelled => "İptal Edildi"
    case Returned => "İade"
  }

  /** `statusLabels[status]?.label || status` */
  function StatusLabel(status: string): string
  {
    match Parse(status)
    case Some(s) => Label(s)
    case None => status
  }

  /** Each of the nine statuses shows its own Turkish label, never its stored
      name; any other string is shown as it is. */
  lemma {:induction false} StatusLabels(a: Status, b: Status, raw: string)
    ensures StatusLabel(Name(a)) != Name(a)
    ensures a != b ==> StatusLabel(Name(a)) != StatusLabel(Name(b))
    ensures Parse(raw).None? ==> StatusLabel(raw) == raw
  {
    ParseName(a, Name(a));
    ParseName(b, Name(b));
    LabelLengths(a, b);
  }

  /** The labels have nine different lengths, none that of its status name. */
  lemma {:induction false} LabelLengths(a: Status, b: Status)
    ensures |Label(a)| != |Name(a)|
    ensures a != b ==> |Label(a)| != |Label(b)|
  {
  }

  /** The filter select: "ALL" first, then the nine statuses in workflow order,
      each with the label its rows show. */
  const FilterOptions: seq<(string, string)> := [
    (AllFilter, "Tümü"),
    ("RECEIVED", "Alındı"),
    ("DIAGNOSIS_PENDING", "Teşhis Bekliyor"),
    ("CUSTOMER_APPROVAL_PENDING", "Müşteri Onayı Bekleniyor"),
    ("PARTS_PENDING", "Parça Bekleniyor"),
    ("REPAIRING", "Tamir Ediliyor"),
    ("COMPLETED_READY_FOR_DELIVERY", "Tamamlandı"),
    ("DELIVERED", "Teslim Edildi"),
    ("CANCELLED", "İptal Edildi"),
    ("RETURNED", "İade")
  ]

  lemma {:induction false} FilterOptionsMatchLabels()
    ensures |FilterOptions| == 1 + |AllStatuses|
    ensures forall i :: 0 <= i < |AllStatuses| ==>
      FilterOptions[i + 1].0 == Name(AllStatuses[i])
      && FilterOptions[i + 1].1 == StatusLabel(FilterOptions[i + 1].0)
  {
    forall i | 0 <= i < |AllStatuses|
      ensures FilterOptions[i + 1].0 == Name(AllStatuses[i])
      ensures FilterOptions[i + 1].1 == StatusLabel(FilterOptions[i + 1].0)
    {
      var s := AllStatuses[i];
      ParseName(s, Name(s));
      assert FilterOptions[i + 1] == (Name(s), Label(s));
    }
  }

  /** What the fee column shows: an amount (printed with two decimals) or "-". */
  datatype FeeCell = Lira(amount: real) | Dash

  /** A row's fee: the ledger amount when the ticket has a financial record,
      else the estimate when it is truthy, else "-". A NaN estimate reaches the
      component as JSON null. */
  function FeeCellOf(recordAmount: Option<real>, estimatedFee: Option<Number>): (c: FeeCell)
    ensures recordAmount.Some? ==> c == Lira(recordAmount.value)
    ensures recordAmount.None? ==>
      (c.Lira? <==> estimatedFee.Some? && estimatedFee.value.Finite? && estimatedFee.value.v != 0.0)
  {
    if recordAmount.Some? then Lira(recordAmount.value)
    else if estimatedFee.Some? && Truthy(Num(estimatedFee.value)) then Lira(estimatedFee.value.v)
    else Dash
  }

  /** A zero ledger amount is still shown as an amount, while a zero estimate
      is shown as "-". */
  lemma {:induction false} ZeroFees()
    ensures FeeCellOf(Some(0.0), None) == Lira(0.0)
    ensures FeeCellOf(None, Some(Finite(0.0))) == Dash
  {
  }

  /** The pager appears only when there is more than one page. */
  predicate PagerShown(l: Lister) { l.totalPages > 1 }

  predicate PreviousEnabled(l: Lister) { l.page != 1 }

  predicate NextEnabled(l: Lister) { l.page != l.totalPages }

  datatype PagerButton = Previous | Next

  /** Pressing a pager button; a disabled button does nothing. */
  function Press(l: Lister, b: PagerButton): Lister
  {
    match b
    case Previous => if PreviousEnabled(l) then l.(page := l.page - 1) else l
    case Next => if NextEnabled(l) then l.(page := l.page + 1) else l
  }

  /** Pager presses keep a page within 1..totalPages inside that range and
      change nothing but the page, by at most one. */
  lemma {:induction false} PressKeepsRange(l: Lister, b: PagerButton)
    requires 1 <= l.page <= l.totalPages
    ensures var r := Press(l, b);
      1 <= r.page <= r.totalPages
      && r == l.(page := r.page)
      && (b == Previous ==> r.page == if l.page == 1 then 1 else l.page - 1)
      && (b == Next ==> r.page == if l.page == l.totalPages then l.page else l.page + 1)
  {
  }

  /** The "clear filters" button appears exactly when the request carries a
      search or status parameter. */
  predicate ClearShown(l: Lister)
  {
    l.search != "" || StatusApplied(l)
  }

  /** Clearing the filters: empty search, every status, first page. */
  function Cleared(l: Lister): (r: Lister)
    ensures !ClearShown(r) && r.page == 1 && r.totalPages == l.totalPages
  {
    l.(search := "", statusFilter := AllFilter, page := 1)
  }

  lemma {:induction false} ClearShownIffFiltered(l: Lister)
    ensures ClearShown(l) <==> QueryOf(l).search.Some? || QueryOf(l).status.Some?
    ensures QueryOf(Cleared(l)).search.None? && QueryOf(Cleared(l)).status.None?
  {
  }

  /** Submitting the search box returns to the first page and keeps the
      filters. */
  function Searched(l: Lister): (r: Lister)
    ensures r.page == 1 && r.search == l.search && r.statusFilter == l.statusFilter
  {
    l.(page := 1)
  }

  /** A successful fetch stores the reported page count. */
  function OnListed(l: Lister, p: ServicesApi.ServicePage): (r: Lister)
    ensures r.totalPages == p.pagination.pages as int
  {
    l.(totalPages := p.pagination.pages as int)
  }

  /** After a successful fetch at a page from 1 on, the page count is the
      server's, and the pager shows exactly when more than ten tickets
      match. */
  lemma {:induction false} PagerAfterFetch(rows: seq<ServicesApi.ServiceRow>, l: Lister)
    requires l.page >= 1
    ensures ServicesApi.ListServices(rows, QueryOf(l)).Reply?
    ensures var p := ServicesApi.ListServices(rows, QueryOf(l)).body;
      PagerShown(OnListed(l, p)) <==> p.pagination.total > 10
  {
    QueryPaging(l);
  }
}

=== FILE: service_stats.dfy ===
/** `GET /api/services/stats`: open, waiting and finished ticket counts and
    this month's delivered revenue, each with its change against last month.
    Calendar arithmetic is the caller-supplied `Calendar`; the current year and
    0-based month are parameters. */
module ServiceStats {
  import opened Util
  import opened Records
  import Reports
  import opened DashboardStats

  /** Tickets waiting on the customer or on parts: a subset of the open ones. */
  const WaitingNames: seq<string> := ["CUSTOMER_APPROVAL_PENDING", "PARTS_PENDING"]

  /** A `gte`/`lt` range: the end is excluded. */
  datatype HalfOpen = HalfOpen(start: int, end: int)

  /** `new Date(y, m - 1, 1)` up to, but excluding, `new Date(y, m, 0)`:
      midnight at the start of last month's last day. */
  function LastMonth(cal: Reports.Calendar, year: int, month: int): HalfOpen
  {
    HalfOpen(cal(year, month - 1, 1), cal(year, month, 0))
  }

  function CreatedDuring(w: HalfOpen, names: seq<string>): Service -> bool
  {
    (s: Service) => s.status in names && w.start <= s.createdAt < w.end
  }

  function DeliveredDuring(w: HalfOpen): Service -> bool
  {
    (s: Service) => s.status == "DELIVERED" && s.deliveredAt.Some? && w.start <= s.deliveredAt.value < w.end
  }

  datatype ServiceStats = ServiceStats(
    activeServices: nat,
    completedServices: nat,
    pendingServices: nat,
    monthlyRevenue: real,
    activeChange: real,
    completedChange: real,
    pendingChange: real,
    revenueChange: real)

  /** The handler. The current counts cover all tickets, whenever created; only
      the comparison counts are limited to tickets created last month. */
  function Stats(services: seq<Service>, cal: Reports.Calendar, year: int, month: int): (r: ServiceStats)
    ensures r.activeServices == CountIn(services, OpenNames)
    ensures r.completedServices == CountIn(services, DoneNames)
    ensures r.pendingServices == CountIn(services, WaitingNames)
    ensures r.monthlyRevenue == Revenue(services, DeliveredSince(cal(year, month, 1)))
    ensures r.activeChange == GuardedChange(r.activeServices as real,
      |Filter(services, CreatedDuring(LastMonth(cal, year, month), OpenNames))| as real)
    ensures r.completedChange == GuardedChange(r.completedServices as real,
      |Filter(services, CreatedDuring(LastMonth(cal, year, month), DoneNames))| as real)
    ensures r.pendingChange == GuardedChange(r.pendingServices as real,
      |Filter(services, CreatedDuring(LastMonth(cal, year, month), WaitingNames))| as real)
    ensures r.revenueChange == GuardedChange(r.monthlyRevenue,
      Revenue(services, DeliveredDuring(LastMonth(cal, year, month))))
  {
    var last := LastMonth(cal, year, month);
    var active := CountIn(services, OpenNames);
    var completed := CountIn(services, DoneNames);
    var pending := CountIn(services, WaitingNames);
    var revenue := Revenue(services, DeliveredSince(cal(year, month, 1)));
    ServiceStats(active, completed, pending, revenue,
      GuardedChange(active as real, |Filter(services, CreatedDuring(last, OpenNames))| as real),
      GuardedChange(completed as real, |Filter(services, CreatedDuring(last, DoneNames))| as real),
      GuardedChange(pending as real, |Filter(services, CreatedDuring(last, WaitingNames))| as real),
      GuardedChange(revenue, Revenue(services, DeliveredDuring(last))))
  }

  /** Waiting tickets are open tickets, so there are never more of them; open
      and finished tickets are disjoint, so together they never outnumber all
      tickets. */
  lemma {:induction false} StatsOrdering(services: seq<Service>, cal: Reports.Calendar, year: int, month: int)
    ensures var r := Stats(services, cal, year, month);
      r.pendingServices <= r.activeServices
      && r.activeServices + r.completedServices <= |services|
  {
    FilterSubsetCount(services, StatusIn(WaitingNames), StatusIn(OpenNames));
    OpenAndDoneBounded(services);
  }

  /** A ticket created or delivered on last month's final day after midnight
      escapes last month's figures. */
  lemma {:induction false} LastDayExcluded(services: seq<Service>, cal: Reports.Calendar, year: int, month: int,
                                           x: Service)
    requires cal(year, month, 0) <= x.createdAt
    requires x.deliveredAt.Some? && cal(year, month, 0) <= x.deliveredAt.value
    ensures x !in Filter(services, CreatedDuring(LastMonth(cal, year, month), OpenNames))
    ensures x !in Filter(services, CreatedDuring(LastMonth(cal, year, month), DoneNames))
    ensures x !in Filter(services, DeliveredDuring(LastMonth(cal, year, month)))
  {
    var last := LastMonth(cal, year, month);
    FilterMembers(services, CreatedDuring(last, OpenNames), x);
    FilterMembers(services, CreatedDuring(last, DoneNames), x);
    FilterMembers(services, DeliveredDuring(last), x);
  }
}

=== FILE: services_api.dfy ===
/** `POST /api/services` (ticket creation) and `GET /api/services` (filtered,
    paginated ticket list). */
module ServicesApi {
  import opened Util
  import opened Numeric
  import opened Js
  import opened Records

  const RequiredFieldsError := "Zorunlu alanlar: Müşteri, Cihaz Tipi, Marka, Model, Sorun Açıklaması"
  const ListFailedError := "Servisler yüklenemedi"
  const InitialNotes := "Servis kaydı oluşturuldu"
  const CreateFailedError := "Servis oluşturulamadı"

  // ---------------------------------------------------------------------------
  // Creation
  // ---------------------------------------------------------------------------

  /** The JSON body of a creation request; absent or null text fields are `None`. */
  datatype CreateBody = CreateBody(
    customerId: Option<string>,
    deviceType: Option<string>,
    brand: Option<string>,
    model: Option<string>,
    serialNumber: Option<string>,
    imei: Option<string>,
    problemDescription: Option<string>,
    accessories: Option<string>,
    physicalCondition: Option<string>,
    estimatedFee: JsVal,
    technicianId: Option<string>)

  predicate HasRequiredFields(b: CreateBody)
  {
    Filled(b.customerId) && Filled(b.deviceType) && Filled(b.brand)
    && Filled(b.model) && Filled(b.problemDescription)
  }

  /** `Math.floor(Math.random() * 1000)` for a draw in [0, 1). */
  function RandomSuffix(random: real): (n: nat)
    requires 0.0 <= random < 1.0
    ensures n <= 999
    ensures n as real <= random * 1000.0 < n as real + 1.0
  {
    (random * 1000.0).Floor
  }

  /** `SRV-<milliseconds>-<suffix>` */
  function ServiceNumber(now: nat, random: real): string
    requires 0.0 <= random < 1.0
  {
    "SRV-" + NatToString(now) + "-" + NatToString(RandomSuffix(random))
  }

  /** Reads a service number back into its timestamp and suffix. */
  function ParseServiceNumber(s: string): Option<(nat, nat)>
  {
    var parts := Split(s, '-');
    if |parts| == 3 && parts[0] == "SRV"
       && |parts[1]| > 0 && AllDigits(parts[1]) && |parts[2]| > 0 && AllDigits(parts[2])
    then Some((DigitsValue(parts[1]), DigitsValue(parts[2])))
    else None
  }

  /** A service number carries the creation time and a suffix in [0, 999],
      both recoverable from the text. */
  lemma {:induction false} ServiceNumberRoundTrip(now: nat, random: real)
    requires 0.0 <= random < 1.0
    ensures ParseServiceNumber(ServiceNumber(now, random)) == Some((now, RandomSuffix(random)))
    ensures RandomSuffix(random) <= 999
  {
    var a := NatToString(now);
    var b := NatToString(RandomSuffix(random));
    DigitsHaveNoDash(a);
    DigitsHaveNoDash(b);
    assert ServiceNumber(now, random) == "SRV" + ['-'] + (a + ['-'] + b);
    SplitJoin("SRV", a + ['-'] + b, '-');
    SplitJoin(a, b, '-');
    SplitNoSep(b, '-');
    DigitsValueOfNatToString(now);
    DigitsValueOfNatToString(RandomSuffix(random));
  }

  /** `estimatedFee ? parseFloat(estimatedFee) : null` */
  function StoredFee(v: JsVal): Option<Number>
  {
    if Truthy(v) then Some(ParseNumberVal(v)) else None
  }

  /** Zero, the empty string and a missing fee are all stored as null; a
      positive whole amount sent as text is stored as that number. */
  lemma {:induction false} StoredFeeCases(n: nat)
    ensures StoredFee(Num(Finite(0.0))) == None
    ensures StoredFee(Str("")) == None
    ensures StoredFee(Undefined) == None && StoredFee(Null) == None
    ensures n > 0 ==> StoredFee(Str(NatToString(n))) == Some(Finite(n as real))
  {
    ParseFloatOfNatToString(n);
  }

  /** The ticket row written by a successful creation. The schema default for
      `status` is RECEIVED; the creation data sets no status, completion,
      delivery or final fee. */
  function NewService(body: CreateBody, id: string, now: nat, random: real): Service
    requires HasRequiredFields(body) && 0.0 <= random < 1.0
  {
    Service(
      id := id,
      serviceNumber := ServiceNumber(now, random),
      customerId := body.customerId.value,
      deviceType := body.deviceType.value,
      brand := body.brand.value,
      model := body.model.value,
      serialNumber := body.serialNumber,
      imei := body.imei,
      problemDescription := body.problemDescription.value,
      accessories := body.accessories,
      physicalCondition := body.physicalCondition,
      status := "RECEIVED",
      estimatedFee := StoredFee(body.estimatedFee),
      actualFee := None,
      technicianId := body.technicianId,
      createdAt := now,
      completedAt := None,
      deliveredAt := None)
  }

  /** The relations `db.service.create` writes: the ticket's customer must be
      stored, and so must its technician when one is given. */
  predicate ReferencesStored(st: Store, body: CreateBody)
  {
    && body.customerId.Some? && FindById(st.customers, CustomerKey, body.customerId.value).Some?
    && (body.technicianId.None? || FindById(st.users, UserKey, body.technicianId.value).Some?)
  }

  /** `POST /api/services`. `now` is `Date.now()`, `random` is `Math.random()`
      and `id` is the identifier the store assigns. A customer or technician
      identifier naming no stored row makes the store refuse the ticket, and
      the catch answers 500. */
  function CreateService(st: Store, body: CreateBody, id: string, now: nat, random: real): (r: (Reply<Service>, Store))
    requires 0.0 <= random < 1.0
    ensures r.0.Failure? <==> !HasRequiredFields(body) || !ReferencesStored(st, body)
    ensures !HasRequiredFields(body) ==> r.0 == Failure(400, RequiredFieldsError)
    ensures HasRequiredFields(body) && !ReferencesStored(st, body) ==> r.0 == Failure(500, CreateFailedError)
    ensures r.0.Failure? ==> r.1 == st
    ensures r.0.Reply? ==>
      var s := r.0.body;
      && r.0.code == 201
      && r.1.services == st.services + [s]
      && r.1.history == st.history + [HistoryRow(id, "RECEIVED", InitialNotes, "system")]
      && r.1.customers == st.customers && r.1.records == st.records && r.1.logs == st.logs
      && r.1.users == st.users
      && s.id == id && s.status == "RECEIVED" && s.createdAt == now
      && s.completedAt.None? && s.deliveredAt.None? && s.actualFee.None?
      && Some(s.customerId) == body.customerId && Some(s.brand) == body.brand
      && Some(s.model) == body.model && Some(s.deviceType) == body.deviceType
      && Some(s.problemDescription) == body.problemDescription
      && s.technicianId == body.technicianId
      && s.estimatedFee == StoredFee(body.estimatedFee)
      && s.serialNumber == body.serialNumber && s.imei == body.imei
      && s.accessories == body.accessories && s.physicalCondition == body.physicalCondition
      && ParseServiceNumber(s.serviceNumber) == Some((now, RandomSuffix(random)))
  {
    if !HasRequiredFields(body) then
      (Failure(400, RequiredFieldsError), st)
    else if !ReferencesStored(st, body) then
      (Failure(500, CreateFailedError), st)
    else
      var s := NewService(body, id, now, random);
      ServiceNumberRoundTrip(now, random);
      (Reply(201, s),
       st.(services := st.services + [s],
           history := st.history + [HistoryRow(id, "RECEIVED", InitialNotes, "system")]))
  }

  /** A successful creation adds exactly one history row, and it belongs to the
      new ticket; a rejected one adds none. */
  lemma {:induction false} CreateAddsOneHistoryRow(st: Store, body: CreateBody, id: string, now: nat, random: real)
    requires 0.0 <= random < 1.0
    ensures var (reply, st') := CreateService(st, body, id, now, random);
      |st'.history| == |st.history| + (if reply.Reply? then 1 else 0)
      && (reply.Reply? ==>
            st'.history[|st.history|].serviceId == reply.body.id
            && st'.history[|st.history|].status == reply.body.status)
  {
  }

  // ---------------------------------------------------------------------------
  // Listing
  // ---------------------------------------------------------------------------

  /** A ticket together with the customer fields the search looks at. */
  datatype ServiceRow = ServiceRow(service: Service, customerName: string, customerPhone: string)

  /** The URL query; absent parameters are `None`. */
  datatype ListQuery = ListQuery(
    search: Option<string>,
    status: Option<string>,
    page: Option<string>,
    limit: Option<string>)

  datatype ServicePage = ServicePage(services: seq<ServiceRow>, pagination: Pagination)

  predicate MatchesSearch(r: ServiceRow, term: string)
  {
    ContainsCI(r.service.serviceNumber, term)
    || ContainsCI(r.customerName, term)
    || ContainsCI(r.customerPhone, term)
    || ContainsCI(r.service.brand, term)
    || ContainsCI(r.service.model, term)
    || OptContainsCI(r.service.serialNumber, term)
    || OptContainsCI(r.service.imei, term)
  }

  /** The `where` clause: search and status apply only when truthy. */
  predicate Selected(q: ListQuery, r: ServiceRow)
  {
    (!Filled(q.search) || MatchesSearch(r, q.search.value))
    && (!Filled(q.status) || r.service.status == q.status.value)
  }

  /** The `where` clause as a predicate; it depends on search and status only. */
  function Where(search: Option<string>, status: Option<string>): ServiceRow -> bool
  {
    r => Selected(ListQuery(search, status, None, None), r)
  }

  function Selector(q: ListQuery): ServiceRow -> bool
  {
    Where(q.search, q.status)
  }

  function RowCreated(r: ServiceRow): real { r.service.createdAt as real }

  /** All selected tickets, newest first. */
  function Selection(rows: seq<ServiceRow>, q: ListQuery): seq<ServiceRow>
  {
    SortDesc(Filter(rows, Selector(q)), RowCreated)
  }

  /** Page and limit as the handler parses them, when both are usable. */
  function PageParam(q: ListQuery): Option<int> { ParseInt(ParamOr(q.page, "1")) }

  function LimitParam(q: ListQuery): Option<int> { ParseInt(ParamOr(q.limit, "10")) }

  predicate ValidPaging(q: ListQuery)
  {
    PageParam(q).Some? && PageParam(q).value >= 1
    && LimitParam(q).Some? && LimitParam(q).value >= 1
  }

  /** One page of the selection with its pagination block. */
  function ServicesPage(rows: seq<ServiceRow>, q: ListQuery, page: int, limit: int): (r: ServicePage)
    requires page >= 1 && limit >= 1
    ensures r.services == PageSlice(Selection(rows, q), page, limit)
    ensures r.pagination.page == page && r.pagination.limit == limit
    ensures r.pagination.total == |Filter(rows, Selector(q))|
    ensures r.pagination.pages * limit >= r.pagination.total
    ensures r.pagination.total > 0 ==> (r.pagination.pages - 1) * limit < r.pagination.total
    ensures |r.services| <= limit
    ensures SortedDesc(r.services, RowCreated)
    ensures forall i :: 0 <= i < |r.services| ==> r.services[i] in rows && Selected(q, r.services[i])
  {
    var shown := PageSlice(Selection(rows, q), page, limit);
    assert SortedDesc(shown, RowCreated) && forall i :: 0 <= i < |shown| ==> shown[i] in rows && Selected(q, shown[i]) by {
      PageOfSelection(rows, q, page, limit);
    }
    ServicePage(shown, PaginationOf(|Filter(rows, Selector(q))|, page, limit))
  }

  /** `GET /api/services` over the store's tickets joined with their customers.
      A page or limit that does not parse to a positive number fails. */
  function ListServices(rows: seq<ServiceRow>, q: ListQuery): (r: Reply<ServicePage>)
    ensures r.Failure? <==> !ValidPaging(q)
    ensures r.Failure? ==> r.code == 500 && r.error == ListFailedError
    ensures r.Reply? ==> r.code == 200 && r.body == ServicesPage(rows, q, PageParam(q).value, LimitParam(q).value)
  {
    if !ValidPaging(q) then Failure(500, ListFailedError)
    else Reply(200, ServicesPage(rows, q, PageParam(q).value, LimitParam(q).value))
  }

  /** Any page of the selection is sorted and holds only selected tickets. */
  lemma {:induction false} PageOfSelection(rows: seq<ServiceRow>, q: ListQuery, page: int, limit: int)
    requires page >= 1 && limit >= 1
    ensures var shown := PageSlice(Selection(rows, q), page, limit);
      SortedDesc(shown, RowCreated)
      && forall i :: 0 <= i < |shown| ==> shown[i] in rows && Selected(q, shown[i])
  {
    var all := Selection(rows, q);
    var shown := PageSlice(all, page, limit);
    PageOfSorted(all, RowCreated, page, limit);
    forall i | 0 <= i < |shown|
      ensures shown[i] in rows && Selected(q, shown[i])
    {
      SortFilterMembers(rows, Selector(q), RowCreated, shown[i]);
    }
  }

  /** Every selected ticket is on some page: the one numbered by its position in
      the newest-first selection, which never exceeds the page count. */
  lemma {:induction false} ListCoversSelection(rows: seq<ServiceRow>, q: ListQuery, limit: int, j: nat)
    requires limit >= 1
    requires j < |Selection(rows, q)|
    ensures var r := ServicesPage(rows, q, PageOf(j, limit), limit);
      && PageOf(j, limit) <= r.pagination.pages
      && j % limit < |r.services|
      && r.services[j % limit] == Selection(rows, q)[j]
  {
    var all := Selection(rows, q);
    SortDescLength(Filter(rows, Selector(q)), RowCreated);
    assert |all| == |Filter(rows, Selector(q))|;
    PageLocates(all, limit, j);
    var pg := PageOf(j, limit);
    assert pg == j / limit + 1;
    var r := ServicesPage(rows, q, pg, limit);
    var shown := PageSlice(all, pg, limit);
    assert r.services == shown;
    assert shown[j % limit] == all[j];
    assert r.pagination.pages == PageCount(|all|, limit);
  }

  /** The page parameter that reaches a given page number is its decimal text. */
  lemma {:induction false} PageParamRoundTrip(q: ListQuery, pg: nat)
    requires pg >= 1
    ensures PageParam(q.(page := Some(NatToString(pg)))) == Some(pg)
  {
    var t := NatToString(pg);
    assert ParamOr(Some(t), "1") == t;
    ParseIntOfNatToString(pg);
  }

  /** A truthy status parameter returns only tickets in that status. */
  lemma {:induction false} ListHonoursStatus(rows: seq<ServiceRow>, q: ListQuery)
    requires ValidPaging(q) && Filled(q.status)
    ensures forall i :: 0 <= i < |ListServices(rows, q).body.services| ==>
      ListServices(rows, q).body.services[i].service.status == q.status.value
  {
  }

  /** A ticket is selected exactly when it passes the status test and, for a
      truthy search, one of the seven fields contains the term. */
  lemma {:induction false} SelectionExact(rows: seq<ServiceRow>, q: ListQuery, r: ServiceRow)
    ensures r in Selection(rows, q) <==>
      r in rows
      && (Filled(q.search) ==> MatchesSearch(r, q.search.value))
      && (Filled(q.status) ==> r.service.status == q.status.value)
  {
    SortFilterMembers(rows, Selector(q), RowCreated, r);
  }
}

=== FILE: settings_page.dfy ===
/** The settings page: the stored settings object, how a saved copy is merged
    with defaults on load, and the setters behind the switches and inputs.
    Browser storage itself is left out; what it holds is a parameter. */
module SettingsPage {
  import opened Util
  import opened Numeric

  datatype Notifications = Notifications(email: bool, browser: bool, serviceUpdates: bool, financialUpdates: bool)

  datatype Appearance = Appearance(theme: string, primaryColor: string)

  datatype Smtp = Smtp(host: string, port: int, username: string, password: string,
                       fromEmail: string, fromName: string, secure: bool)

  /** The page's settings state. A top-level text field is `None` when a
      loaded copy did not have it (it is then undefined); the three groups
      are always complete. */
  datatype Settings = Settings(
    siteName: Option<string>, siteDescription: Option<string>, contactEmail: Option<string>,
    contactPhone: Option<string>, currency: Option<string>, timezone: Option<string>, language: Option<string>,
    notifications: Notifications, appearance: Appearance, smtp: Smtp)

  /** A saved group as parsed back from JSON: any key may be missing. */
  datatype SavedNotifications = SavedNotifications(
    email: Option<bool>, browser: Option<bool>, serviceUpdates: Option<bool>, financialUpdates: Option<bool>)

  datatype SavedAppearance = SavedAppearance(theme: Option<string>, primaryColor: Option<string>)

  datatype SavedSmtp = SavedSmtp(host: Option<string>, port: Option<int>, username: Option<string>,
                                 password: Option<string>, fromEmail: Option<string>, fromName: Option<string>,
                                 secure: Option<bool>)

  datatype Saved = Saved(
    siteName: Option<string>, siteDescription: Option<string>, contactEmail: Option<string>,
    contactPhone: Option<string>, currency: Option<string>, timezone: Option<string>, language: Option<string>,
    notifications: Option<SavedNotifications>, appearance: Option<SavedAppearance>, smtp: Option<SavedSmtp>)

  /** What storage holds under `systemSettings`: nothing (or an empty
      string), text that is not JSON, or a parsed object. */
  datatype Stored = Missing | Corrupt | Json(saved: Saved)

  const DefaultNotifications := Notifications(true, true, true, true)
  const DefaultAppearance := Appearance("auto", "#3B82F6")
  const DefaultPort := 587

  /** The state the page starts in. */
  const Initial := Settings(
    Some("PAŞA Servis"), Some("Profesyonel Servis Yönetim Sistemi"), Some("info@pasaservis.com"),
    Some("+90 (555) 123-4567"), Some("TRY"), Some("Europe/Istanbul"), Some("tr"),
    DefaultNotifications, DefaultAppearance,
    Smtp("smtp.gmail.com", DefaultPort, "", "", "noreply@pasaservis.com", "PAŞA Servis", true))

  /** The SMTP defaults `loadSettings` spreads under a saved group. */
  const LoadSmtpDefaults := Smtp("smtp.gmail.com", DefaultPort, "", "", "info@pasa.com", "PAŞA Servis", true)

  function Or<T>(o: Option<T>, d: T): T
  {
    match o case Some(v) => v case None => d
  }

  // ---------------------------------------------------------------------------
  // Load
  // ---------------------------------------------------------------------------

  /** `{ ...defaults, ...saved }` for each group. */
  function MergeNotifications(d: Notifications, o: Option<SavedNotifications>): Notifications
  {
    match o
    case None => d
    case Some(p) => Notifications(Or(p.email, d.email), Or(p.browser, d.browser),
                                  Or(p.serviceUpdates, d.serviceUpdates), Or(p.financialUpdates, d.financialUpdates))
  }

  function MergeAppearance(d: Appearance, o: Option<SavedAppearance>): Appearance
  {
    match o
    case None => d
    case Some(p) => Appearance(Or(p.theme, d.theme), Or(p.primaryColor, d.primaryColor))
  }

  function MergeSmtp(d: Smtp, o: Option<SavedSmtp>): Smtp
  {
    match o
    case None => d
    case Some(p) => Smtp(Or(p.host, d.host), Or(p.port, d.port), Or(p.username, d.username),
                         Or(p.password, d.password), Or(p.fromEmail, d.fromEmail), Or(p.fromName, d.fromName),
                         Or(p.secure, d.secure))
  }

  /** `loadSettings`: the saved top-level fields as they are, each group
      filled from the defaults under the saved keys. */
  function Load(saved: Saved): Settings
  {
    Settings(saved.siteName, saved.siteDescription, saved.contactEmail, saved.contactPhone,
             saved.currency, saved.timezone, saved.language,
             MergeNotifications(DefaultNotifications, saved.notifications),
             MergeAppearance(DefaultAppearance, saved.appearance),
             MergeSmtp(LoadSmtpDefaults, saved.smtp))
  }

  /** A saved group key wins over its default; a missing one takes the
      default; a missing top-level field stays missing rather than taking
      the initial value. */
  lemma {:induction false} LoadPrefersSaved(saved: Saved)
    ensures var s := Load(saved);
      && (saved.notifications.Some? && saved.notifications.value.email.Some? ==>
            s.notifications.email == saved.notifications.value.email.value)
      && ((saved.notifications.None? || saved.notifications.value.email.None?) ==> s.notifications.email)
      && (saved.appearance.Some? && saved.appearance.value.theme.Some? ==>
            s.appearance.theme == saved.appearance.value.theme.value)
      && ((saved.appearance.None? || saved.appearance.value.theme.None?) ==> s.appearance.theme == "auto")
      && (saved.smtp.Some? && saved.smtp.value.port.Some? ==> s.smtp.port == saved.smtp.value.port.value)
      && ((saved.smtp.None? || saved.smtp.value.port.None?) ==> s.smtp.port == DefaultPort)
      && (saved.siteName.None? ==> s.siteName.None? && Initial.siteName.Some?)
  {
  }

  /** An empty saved object yields the defaults, except that its top-level
      fields are missing and the sender address differs from the initial
      one. */
  lemma {:induction false} EmptySavedDiffers()
    ensures var s := Load(Saved(None, None, None, None, None, None, None, None, None, None));
      && s.notifications == Initial.notifications && s.appearance == Initial.appearance
      && s.smtp == Initial.smtp.(fromEmail := "info@pasa.com")
      && s.smtp.fromEmail != Initial.smtp.fromEmail
      && s.siteName.None? && s != Initial
  {
  }

  // ---------------------------------------------------------------------------
  // Save and mount
  // ---------------------------------------------------------------------------

  /** `JSON.stringify` then `JSON.parse`: undefined fields are dropped, every
      other key comes back. */
  function ToSaved(s: Settings): Saved
  {
    Saved(s.siteName, s.siteDescription, s.contactEmail, s.contactPhone, s.currency, s.timezone, s.language,
          Some(SavedNotifications(Some(s.notifications.email), Some(s.notifications.browser),
                                  Some(s.notifications.serviceUpdates), Some(s.notifications.financialUpdates))),
          Some(SavedAppearance(Some(s.appearance.theme), Some(s.appearance.primaryColor))),
          Some(SavedSmtp(Some(s.smtp.host), Some(s.smtp.port), Some(s.smtp.username), Some(s.smtp.password),
                         Some(s.smtp.fromEmail), Some(s.smtp.fromName), Some(s.smtp.secure))))
  }

  /** Saving then loading gives back exactly the settings saved. */
  lemma {:induction false} SaveLoadRoundTrip(s: Settings)
    ensures Load(ToSaved(s)) == s
  {
  }

  /** Loading is settled after one round: saving what was loaded and loading
      it again changes nothing. */
  lemma {:induction false} LoadSettles(saved: Saved)
    ensures Load(ToSaved(Load(saved))) == Load(saved)
  {
    SaveLoadRoundTrip(Load(saved));
  }

  /** The mount effect: corrupt text is removed from storage before loading,
      so the initial state stays; a parsed object is loaded. Returns the
      state and what storage holds afterwards. */
  function Mount(stored: Stored): (r: (Settings, Stored))
    ensures stored.Json? ==> r == (Load(stored.saved), stored)
    ensures !stored.Json? ==> r == (Initial, Missing)
  {
    match stored
    case Missing => (Initial, Missing)
    case Corrupt => (Initial, Missing)
    case Json(saved) => (Load(saved), stored)
  }

  /** After a save, a later visit shows what was saved. */
  lemma {:induction false} SaveThenMount(s: Settings)
    ensures Mount(Json(ToSaved(s))).0 == s
  {
    SaveLoadRoundTrip(s);
  }

  // ---------------------------------------------------------------------------
  // Setters
  // ---------------------------------------------------------------------------

  datatype NotificationKey = Email | Browser | ServiceUpdates | FinancialUpdates

  function NotificationOf(n: Notifications, k: NotificationKey): bool
  {
    match k
    case Email => n.email
    case Browser => n.browser
    case ServiceUpdates => n.serviceUpdates
    case FinancialUpdates => n.financialUpdates
  }

  /** `updateNotificationSetting` */
  function UpdateNotification(s: Settings, k: NotificationKey, v: bool): Settings
  {
    var n := s.notifications;
    s.(notifications := match k
      case Email => n.(email := v)
      case Browser => n.(browser := v)
      case ServiceUpdates => n.(serviceUpdates := v)
      case FinancialUpdates => n.(financialUpdates := v))
  }

  /** The switch reads back the value set, every other switch keeps its
      value, and nothing outside the notification group changes. */
  lemma {:induction false} UpdateNotificationOnly(s: Settings, k: NotificationKey, v: bool, other: NotificationKey)
    ensures var r := UpdateNotification(s, k, v);
      && NotificationOf(r.notifications, k) == v
      && (other != k ==> NotificationOf(r.notifications, other) == NotificationOf(s.notifications, other))
      && r.(notifications := s.notifications) == s
  {
  }

  datatype AppearanceKey = Theme | PrimaryColor

  function AppearanceOf(a: Appearance, k: AppearanceKey): string
  {
    match k
    case Theme => a.theme
    case PrimaryColor => a.primaryColor
  }

  /** `updateAppearanceSetting` */
  function UpdateAppearance(s: Settings, k: AppearanceKey, v: string): Settings
  {
    s.(appearance := match k
      case Theme => s.appearance.(theme := v)
      case PrimaryColor => s.appearance.(primaryColor := v))
  }

  lemma {:induction false} UpdateAppearanceOnly(s: Settings, k: AppearanceKey, v: string, other: AppearanceKey)
    ensures var r := UpdateAppearance(s, k, v);
      && AppearanceOf(r.appearance, k) == v
      && (other != k ==> AppearanceOf(r.appearance, other) == AppearanceOf(s.appearance, other))
      && r.(appearance := s.appearance) == s
  {
  }

  /** The port input: `parseInt(text) || 587`, so text that does not parse
      (NaN) and text that parses to 0 both give 587. */
  function PortFromInput(text: string): (p: int)
    ensures p != 0
  {
    match ParseInt(text)
    case None => DefaultPort
    case Some(n) => if n == 0 then DefaultPort else n
  }

  /** A non-zero port typed as its decimal text is stored as that port; 0 and
      unparseable text fall back to 587. */
  lemma {:induction false} PortRoundTrip(n: int, text: string)
    ensures n != 0 ==> PortFromInput(IntToString(n)) == n
    ensures PortFromInput(IntToString(0)) == DefaultPort
    ensures ParseInt(text).None? ==> PortFromInput(text) == DefaultPort
  {
    ParseIntOfIntToString(n);
    ParseIntOfIntToString(0);
  }

  /** The port field on the SMTP card; every other SMTP field is kept. */
  function SetPort(s: Settings, text: string): (r: Settings)
    ensures r.smtp.port == PortFromInput(text)
    ensures r.smtp.(port := s.smtp.port) == s.smtp
    ensures r.(smtp := s.smtp) == s
  {
    s.(smtp := s.smtp.(port := PortFromInput(text)))
  }
}

=== FILE: status.dfy ===
/** The nine states of a service ticket and the transition table the status
    update dialog offers between them. */
module Status {
  import opened Util

  datatype Status =
    | Received
    | DiagnosisPending
    | CustomerApprovalPending
    | PartsPending
    | Repairing
    | CompletedReadyForDelivery
    | Delivered
    | Cancelled
    | Returned

  const AllStatuses: seq<Status> := [
    Received, DiagnosisPending, CustomerApprovalPending, PartsPending, Repairing,
    CompletedReadyForDelivery, Delivered, Cancelled, Returned
  ]

  /** The stored (database) spelling of a status. */
  function Name(s: Status): string
  {
    match s
    case Received => "RECEIVED"
    case DiagnosisPending => "DIAGNOSIS_PENDING"
    case CustomerApprovalPending => "CUSTOMER_APPROVAL_PENDING"
    case PartsPending => "PARTS_PENDING"
    case Repairing => "REPAIRING"
    case CompletedReadyForDelivery => "COMPLETED_READY_FOR_DELIVERY"
    case Delivered => "DELIVERED"
    case Cancelled => "CANCELLED"
    case Returned => "RETURNED"
  }

  /** Reads a stored status string; anything else is not a status. */
  function Parse(name: string): Option<Status>
  {
    if name == "RECEIVED" then Some(Received)
    else if name == "DIAGNOSIS_PENDING" then Some(DiagnosisPending)
    else if name == "CUSTOMER_APPROVAL_PENDING" then Some(CustomerApprovalPending)
    else if name == "PARTS_PENDING" then Some(PartsPending)
    else if name == "REPAIRING" then Some(Repairing)
    else if name == "COMPLETED_READY_FOR_DELIVERY" then Some(CompletedReadyForDelivery)
    else if name == "DELIVERED" then Some(Delivered)
    else if name == "CANCELLED" then Some(Cancelled)
    else if name == "RETURNED" then Some(Returned)
    else None
  }

  /** Names and parsing are mutually inverse: a string parses to `s` exactly
      when it is the name of `s`. */
  lemma {:induction false} ParseName(s: Status, name: string)
    ensures Parse(name) == Some(s) <==> name == Name(s)
  {
    if name == Name(s) {
      NameParses(s);
    } else {
      ParsedIsName(name);
    }
  }

  lemma {:induction false} ParsedIsName(name: string)
    ensures Parse(name).Some? ==> name == Name(Parse(name).value)
  {
    if Parse(name).Some? {
      match Parse(name).value
      case Received =>
      case DiagnosisPending =>
      case CustomerApprovalPending =>
      case PartsPending =>
      case Repairing =>
      case CompletedReadyForDelivery =>
      case Delivered =>
      case Cancelled =>
      case Returned =>
    }
  }

  lemma {:induction false} NameParses(s: Status)
    ensures Parse(Name(s)) == Some(s)
  {
    match s
    case Received =>
    case DiagnosisPending =>
    case CustomerApprovalPending =>
    case PartsPending =>
    case Repairing =>
    case CompletedReadyForDelivery =>
    case Delivered =>
    case Cancelled =>
    case Returned =>
  }

  lemma {:induction false} AllStatusesComplete(s: Status)
    ensures s in AllStatuses
  {
  }

  lemma {:induction false} NameInjective(a: Status, b: Status)
    ensures Name(a) == Name(b) ==> a == b
  {
    ParseName(a, Name(a));
    ParseName(b, Name(b));
  }

  /** The transition table: the statuses offered from each status, in order. */
  function Successors(s: Status): seq<Status>
  {
    match s
    case Received => [DiagnosisPending, Cancelled]
    case DiagnosisPending => [CustomerApprovalPending, Repairing, Cancelled]
    case CustomerApprovalPending => [Repairing, Cancelled]
    case PartsPending => [Repairing, Cancelled]
    case Repairing => [CompletedReadyForDelivery, PartsPending, Cancelled]
    case CompletedReadyForDelivery => [Delivered]
    case Delivered => []
    case Cancelled => []
    case Returned => []
  }

  predicate Edge(a: Status, b: Status)
  {
    b in Successors(a)
  }

  predicate Terminal(s: Status)
  {
    Successors(s) == []
  }

  /** Exactly Delivered, Cancelled and Returned offer no further status. */
  lemma {:induction false} TerminalIff(s: Status)
    ensures Terminal(s) <==> s == Delivered || s == Cancelled || s == Returned
  {
  }

  /** No status offers itself, and no status offers Received or Returned. */
  lemma {:induction false} EdgeShape(a: Status, b: Status)
    requires Edge(a, b)
    ensures a != b
    ensures b != Received && b != Returned
  {
  }

  /** Delivered is offered only from CompletedReadyForDelivery, which offers
      nothing else: a ticket ready for delivery can no longer be cancelled. */
  lemma {:induction false} DeliveredOnlyFromReady(a: Status)
    ensures Edge(a, Delivered) <==> a == CompletedReadyForDelivery
    ensures Successors(CompletedReadyForDelivery) == [Delivered]
  {
  }

  /** Cancellation is offered from exactly the five open states. */
  lemma {:induction false} CancelledPredecessors(a: Status)
    ensures Edge(a, Cancelled) <==>
      a in {Received, DiagnosisPending, CustomerApprovalPending, PartsPending, Repairing}
  {
  }

  /** A walk through the transition table. */
  ghost predicate IsPath(p: seq<Status>)
  {
    |p| >= 1 && forall i :: 0 <= i < |p| - 1 ==> Edge(p[i], p[i + 1])
  }

  ghost predicate Reachable(a: Status, b: Status)
  {
    exists p :: IsPath(p) && p[0] == a && p[|p| - 1] == b
  }

  /** Every status except Returned can be reached from Received. */
  lemma {:induction false} ReachableFromReceived(s: Status)
    requires s != Returned
    ensures Reachable(Received, s)
  {
    ReachableSelf(Received);
    if s == Cancelled {
      ReachableStep(Received, Received, Cancelled);
    } else if s != Received {
      ReachableStep(Received, Received, DiagnosisPending);
      if s == CustomerApprovalPending {
        ReachableStep(Received, DiagnosisPending, CustomerApprovalPending);
      } else if s != DiagnosisPending {
        ReachableStep(Received, DiagnosisPending, Repairing);
        if s == PartsPending {
          ReachableStep(Received, Repairing, PartsPending);
        } else if s != Repairing {
          ReachableStep(Received, Repairing, CompletedReadyForDelivery);
          if s == Delivered {
            ReachableStep(Received, CompletedReadyForDelivery, Delivered);
          }
        }
      }
    }
  }

  lemma {:induction false} ReachableSelf(a: Status)
    ensures Reachable(a, a)
  {
    assert IsPath([a]);
  }

  /** A walk extends by one transition. */
  lemma {:induction false} ReachableStep(a: Status, b: Status, c: Status)
    requires Reachable(a, b) && Edge(b, c)
    ensures Reachable(a, c)
  {
    var p :| IsPath(p) && p[0] == a && p[|p| - 1] == b;
    var q := p + [c];
    assert IsPath(q) by {
      forall i | 0 <= i < |q| - 1 ensures Edge(q[i], q[i + 1]) {
        if i < |p| - 1 {
          assert q[i] == p[i] && q[i + 1] == p[i + 1];
        }
      }
    }
    assert q[0] == a && q[|q| - 1] == c;
  }

  /** Returned is never reached through the table from any other status. */
  lemma {:induction false} ReturnedUnreachable(a: Status)
    requires a != Returned
    ensures !Reachable(a, Returned)
  {
    forall p | IsPath(p) && p[0] == a
      ensures p[|p| - 1] != Returned
    {
      if |p| > 1 {
        EdgeShapeAll(p[|p| - 2]);
        assert Edge(p[|p| - 2], p[|p| - 1]);
      }
    }
  }

  lemma {:induction false} EdgeShapeAll(a: Status)
    ensures Returned !in Successors(a)
  {
  }

  /** Position of each status in the workflow; transitions never go back,
      except between Repairing and PartsPending, which share a position. */
  function Rank(s: Status): nat
  {
    match s
    case Received => 0
    case DiagnosisPending => 1
    case CustomerApprovalPending => 2
    case PartsPending => 3
    case Repairing => 3
    case CompletedReadyForDelivery => 4
    case Delivered => 5
    case Cancelled => 6
    case Returned => 7
  }

  lemma {:induction false} EdgeRank(a: Status, b: Status)
    requires Edge(a, b)
    ensures Rank(a) <= Rank(b)
    ensures Rank(a) == Rank(b) ==> (a == Repairing && b == PartsPending) || (a == PartsPending && b == Repairing)
  {
  }

  /** Along any path the rank never decreases; if it ends where it began, every
      status on the path has that same rank. */
  lemma {:induction false} PathRank(p: seq<Status>)
    requires IsPath(p)
    ensures Rank(p[0]) <= Rank(p[|p| - 1])
    ensures Rank(p[0]) == Rank(p[|p| - 1]) ==> forall i :: 0 <= i < |p| ==> Rank(p[i]) == Rank(p[0])
    decreases |p|
  {
    if |p| > 1 {
      var q := p[1..];
      assert forall i :: 0 <= i < |q| ==> q[i] == p[i + 1];
      assert IsPath(q);
      PathRank(q);
      EdgeRank(p[0], p[1]);
      assert forall i :: 1 <= i < |p| ==> p[i] == q[i - 1];
    }
  }

  /** The only cycle in the workflow is between Repairing and PartsPending:
      every status on a closed walk is one of those two. */
  lemma {:induction false} OnlyCycle(p: seq<Status>)
    requires IsPath(p) && |p| >= 2 && p[0] == p[|p| - 1]
    ensures forall i :: 0 <= i < |p| ==> p[i] == Repairing || p[i] == PartsPending
  {
    PathRank(p);
    forall i | 0 <= i < |p|
      ensures p[i] == Repairing || p[i] == PartsPending
    {
      if i < |p| - 1 {
        EdgeRank(p[i], p[i + 1]);
        assert Rank(p[i]) == Rank(p[i + 1]);
      } else {
        EdgeRank(p[i - 1], p[i]);
        assert Rank(p[i - 1]) == Rank(p[i]);
      }
    }
  }

  /** ... and that cycle does exist: a repair can wait for parts and resume. */
  lemma {:induction false} RepairPartsCycle()
    ensures IsPath([Repairing, PartsPending, Repairing])
  {
  }
}

=== FILE: status_tracker.dfy ===
/** The status tracker card: it offers every status, whatever the current one,
    and sends `PUT /api/services/{id}`. */
module StatusTracker {
  import opened Util
  import opened Js
  import opened Status
  import opened StatusUpdate

  /** `statusOptions`: all nine statuses in workflow order. */
  const StatusOptions: seq<string> := Names(AllStatuses)

  /** Every option the workflow dialog can offer is also offered here, and
      RETURNED is offered here although the dialog can never offer it. */
  lemma {:induction false} TrackerOffersSuperset(current: string)
    ensures forall x :: x in AvailableStatuses(current) ==> x in StatusOptions
    ensures "RETURNED" in StatusOptions && "RETURNED" !in AvailableStatuses(current)
  {
    assert StatusOptions[8] == "RETURNED";
    forall x | x in AvailableStatuses(current)
      ensures x in StatusOptions && x != "RETURNED"
    {
      var s := Parse(current).value;
      OfferedIffEdge(s, x);
      ParseName(s, current);
      var n := Parse(x).value;
      ParseName(n, x);
      AllStatusesComplete(n);
      var k :| 0 <= k < |AllStatuses| && AllStatuses[k] == n;
      assert StatusOptions[k] == x;
      EdgeShape(s, n);
    }
  }

  /** The tracker's editable state. */
  datatype Tracker = Tracker(serviceId: string, newStatus: string, notes: string, actualFee: string, dialogOpen: bool)

  /** What pressing "update" does. The fee is `None` when the field is empty
      (the key is left out of the JSON); a NaN fee is serialised as null. */
  datatype Outcome =
    | ErrorToast
    | Put(path: string, status: string, notes: string, actualFee: Option<Number>)

  function TrackerPath(id: string): string
  {
    "/api/services/" + id
  }

  /** `handleStatusUpdate` */
  function HandleStatusUpdate(t: Tracker): (o: Outcome)
    ensures o.ErrorToast? <==> t.newStatus == ""
    ensures o.Put? ==> o.path == TrackerPath(t.serviceId) && o.status == t.newStatus && o.notes == t.notes
    ensures o.Put? ==> (o.actualFee.None? <==> t.actualFee == "")
    ensures o.Put? && t.actualFee != "" ==> o.actualFee == Some(ParseNumber(t.actualFee))
  {
    if t.newStatus == "" then ErrorToast
    else Put(TrackerPath(t.serviceId), t.newStatus, t.notes,
             if t.actualFee != "" then Some(ParseNumber(t.actualFee)) else None)
  }

  /** The two update paths disagree: different endpoints, and the tracker sends
      a typed fee for any status while the dialog sends it only with DELIVERED. */
  lemma {:induction false} ContractsDisagree(id: string, fee: string, status: string)
    requires fee != "" && status != "" && status != "DELIVERED"
    ensures var o := HandleStatusUpdate(Tracker(id, status, "", fee, true));
      var r := SubmitRequest(Ticket(id, status, None, None), Form(status, "", Unassigned, fee));
      o.Put? && o.path != r.path && o.actualFee.Some? && r.actualFee.None?
  {
    var o := HandleStatusUpdate(Tracker(id, status, "", fee, true));
    var r := SubmitRequest(Ticket(id, status, None, None), Form(status, "", Unassigned, fee));
    assert |o.path| < |r.path|;
  }

  /** The fee input appears only for DELIVERED and COMPLETED_READY_FOR_DELIVERY. */
  predicate FeeInputShown(newStatus: string)
  {
    newStatus == "DELIVERED" || newStatus == "COMPLETED_READY_FOR_DELIVERY"
  }

  lemma {:induction false} FeeInputStatuses(s: Status)
    ensures FeeInputShown(Name(s)) <==> s == Delivered || s == CompletedReadyForDelivery
  {
  }

  /** The ticket as `GET /api/services/{id}` returns it; `feeText` is the
      rendered `actualFee`. */
  datatype Fetched = Fetched(status: string, feeText: Option<string>)

  /** `fetchService`: the selection and fee field follow the stored ticket. */
  function OnFetched(t: Tracker, f: Fetched): Tracker
  {
    t.(newStatus := f.status, actualFee := OrElse(f.feeText, ""))
  }

  /** A successful update closes the dialog, clears the notes and re-fetches. */
  function OnUpdated(t: Tracker, f: Fetched): (r: Tracker)
    ensures !r.dialogOpen && r.notes == "" && r.serviceId == t.serviceId
    ensures r.newStatus == f.status
  {
    OnFetched(t.(dialogOpen := false, notes := ""), f)
  }

  /** After a successful update the selection shows the stored status, not the
      one just chosen, unless the store reports that one. */
  lemma {:induction false} UpdateResetsSelection(t: Tracker, f: Fetched)
    requires t.newStatus != f.status
    ensures OnUpdated(t, f).newStatus != t.newStatus
  {
  }

  datatype BadgeVariant = Default | Secondary | Destructive | Outline

  /** `getStatusBadgeVariant` */
  function Badge(status: string): BadgeVariant
  {
    if status == "DELIVERED" then Default
    else if status == "COMPLETED_READY_FOR_DELIVERY" then Secondary
    else if status == "CANCELLED" || status == "RETURNED" then Destructive
    else Outline
  }

  /** The destructive badge marks exactly the terminal states other than
      DELIVERED; DELIVERED alone gets the default badge; open states and unknown
      strings get the outline badge, except the one ready for delivery. */
  lemma {:induction false} BadgeMatchesWorkflow(s: Status)
    ensures Badge(Name(s)) == Destructive <==> Terminal(s) && s != Delivered
    ensures Badge(Name(s)) == Default <==> s == Delivered
    ensures Badge(Name(s)) == Outline <==> !Terminal(s) && s != CompletedReadyForDelivery
  {
  }

  lemma {:induction false} BadgeOfUnknown(status: string)
    requires Parse(status).None?
    ensures Badge(status) == Outline
  {
  }
}

=== FILE: status_update.dfy ===
/** The status update dialog: it offers only the transitions of the workflow
    table and sends `PUT /api/services/{id}/status`. */
module StatusUpdate {
  import opened Util
  import opened Status

  function Names(ss: seq<Status>): (r: seq<string>)
    ensures |r| == |ss|
    ensures forall i :: 0 <= i < |ss| ==> r[i] == Name(ss[i])
  {
    seq(|ss|, i requires 0 <= i < |ss| => Name(ss[i]))
  }

  /** `statusFlow[service.status] || []`: the table row for a known status, and
      nothing for a string the table does not list. */
  function AvailableStatuses(current: string): seq<string>
  {
    match Parse(current)
    case None => []
    case Some(s) => Names(Successors(s))
  }

  /** A status is offered exactly when the table has an edge to it. */
  lemma {:induction false} OfferedIffEdge(current: Status, next: string)
    ensures next in AvailableStatuses(Name(current)) <==> Parse(next).Some? && Edge(current, Parse(next).value)
  {
    ParseName(current, Name(current));
    var offered := AvailableStatuses(Name(current));
    if next in offered {
      var i :| 0 <= i < |offered| && offered[i] == next;
      ParseName(Successors(current)[i], next);
    }
    if Parse(next).Some? && Edge(current, Parse(next).value) {
      var s := Parse(next).value;
      ParseName(s, next);
      var i :| 0 <= i < |Successors(current)| && Successors(current)[i] == s;
      assert offered[i] == next;
    }
  }

  /** An unknown status string gets no options at all. */
  lemma {:induction false} UnknownStatusOffersNothing(current: string)
    requires Parse(current).None?
    ensures AvailableStatuses(current) == []
  {
  }

  /** The current status is never among the offered options, and a terminal
      status offers none. */
  lemma {:induction false} CurrentNeverOffered(current: Status)
    ensures Name(current) !in AvailableStatuses(Name(current))
    ensures Terminal(current) ==> AvailableStatuses(Name(current)) == []
  {
    OfferedIffEdge(current, Name(current));
    ParseName(current, Name(current));
  }

  /** What the dialog receives about the ticket. `feeText` is the fee as the
      form shows it (`actualFee?.toString()`), `None` when there is no fee. */
  datatype Ticket = Ticket(id: string, status: string, technicianId: Option<string>, feeText: Option<string>)

  datatype Form = Form(status: string, notes: string, technicianId: string, actualFee: string)

  const Unassigned := "UNASSIGNED"

  /** `x || fallback` for an optional string. */
  function OrElse(o: Option<string>, fallback: string): string
  {
    if o.Some? && o.value != "" then o.value else fallback
  }

  /** The dialog's initial state: the current status is preselected, notes are
      empty, a missing technician shows as UNASSIGNED. */
  function InitialForm(t: Ticket): Form
  {
    Form(t.status, "", OrElse(t.technicianId, Unassigned), OrElse(t.feeText, ""))
  }

  /** The submit button is enabled unless a request is running or no status is
      chosen. */
  predicate CanSubmit(f: Form, loading: bool)
  {
    !loading && f.status != ""
  }

  /** The JSON body of the request; `None` is JSON null. */
  datatype StatusRequest = StatusRequest(
    path: string,
    status: string,
    notes: string,
    technicianId: Option<string>,
    actualFee: Option<string>)

  function RequestPath(id: string): string
  {
    "/api/services/" + id + "/status"
  }

  /** `handleSubmit`: UNASSIGNED becomes null; the fee text is sent, unparsed,
      only with DELIVERED. */
  function SubmitRequest(t: Ticket, f: Form): (r: StatusRequest)
    ensures r.path == RequestPath(t.id) && r.status == f.status && r.notes == f.notes
    ensures r.technicianId.None? <==> f.technicianId == Unassigned
    ensures r.technicianId.Some? ==> r.technicianId.value == f.technicianId
    ensures r.actualFee.Some? <==> f.status == "DELIVERED"
    ensures r.actualFee.Some? ==> r.actualFee.value == f.actualFee
  {
    StatusRequest(
      RequestPath(t.id),
      f.status,
      f.notes,
      if f.technicianId == Unassigned then None else Some(f.technicianId),
      if f.status == "DELIVERED" then Some(f.actualFee) else None)
  }

  /** Submitting the untouched dialog sends the ticket's own status, although
      that status is never one of the offered options. */
  lemma {:induction false} SameStatusRequestPossible(t: Ticket)
    requires t.status != ""
    ensures CanSubmit(InitialForm(t), false)
    ensures SubmitRequest(t, InitialForm(t)).status == t.status
    ensures Parse(t.status).Some? ==> t.status !in AvailableStatuses(t.status)
  {
    if Parse(t.status).Some? {
      var s := Parse(t.status).value;
      ParseName(s, t.status);
      CurrentNeverOffered(s);
    }
  }

  /** Leaving the technician untouched sends the assigned technician back, and
      null when none was assigned. */
  lemma {:induction false} TechnicianRoundTrip(t: Ticket)
    ensures t.technicianId.None? ==> SubmitRequest(t, InitialForm(t)).technicianId.None?
    ensures t.technicianId.Some? && t.technicianId.value != "" && t.technicianId.value != Unassigned
            ==> SubmitRequest(t, InitialForm(t)).technicianId == t.technicianId
  {
  }
}

=== FILE: technician_analytics.dfy ===
/** `GET /api/technician-analytics`, performance and efficiency analyses:
    tickets in the period are grouped by assigned technician, counted, summed
    and ranked by revenue. The period's start date is a parameter. */
module TechnicianAnalytics {
  import opened Util
  import opened Js
  import opened Status
  import Records

  /** A ticket with the amounts of its INCOME records. */
  datatype Job = Job(
    technicianId: Option<string>,
    status: string,
    createdAt: int,
    completedAt: Option<int>,
    incomes: seq<real>)

  function JobIncome(j: Job): real { Sum(j.incomes) }

  function JobCreated(j: Job): real { j.createdAt as real }

  /** The query's `where`: the technician filter only when one is given, and
      `createdAt >= since`. */
  function Wanted(technicianId: Option<string>, since: int): Job -> bool
  {
    (j: Job) => (!Filled(technicianId) || j.technicianId == technicianId) && j.createdAt >= since
  }

  /** The tickets the performance query reads, newest first. */
  function PeriodJobs(jobs: seq<Job>, technicianId: Option<string>, since: int): seq<Job>
  {
    SortDesc(Filter(jobs, Wanted(technicianId, since)), JobCreated)
  }

  /** A ticket's technician; tickets without one (null or empty) are skipped. */
  function TechOf(j: Job): Option<string>
  {
    if Filled(j.technicianId) then j.technicianId else None
  }

  predicate IsCompletedJob(j: Job) { j.status == "COMPLETED" }

  predicate HasCompletion(j: Job) { j.completedAt.Some? }

  /** `completedAt - createdAt` of the tickets that have a completion time:
      one duration per such ticket, none for the others. */
  function ServiceTimes(m: seq<Job>): (r: seq<real>)
    ensures |r| == |Filter(m, HasCompletion)| <= |m|
  {
    if |m| == 0 then []
    else
      var j := m[|m| - 1];
      ServiceTimes(m[..|m| - 1]) + (if j.completedAt.Some? then [(j.completedAt.value - j.createdAt) as real] else [])
  }

  /** `n > 0 ? x / n : 0`: an average that is 0 over nothing. */
  function Ratio(x: real, n: nat): (r: real)
    ensures n > 0 ==> r * n as real == x
    ensures n == 0 ==> r == 0.0
  {
    if n > 0 then x / n as real else 0.0
  }

  datatype TechEntry = TechEntry(
    technicianId: string,
    serviceCount: nat,
    completedServices: nat,
    totalRevenue: real,
    averageServiceTime: real,
    completionRate: real,
    averageRevenue: real)

  /** The entry of technician `k`, built from that technician's tickets. */
  function EntryOf(jobs: seq<Job>, k: string): (e: TechEntry)
    requires k in GroupKeys(jobs, TechOf)
    ensures var m := Members(jobs, TechOf, k);
      && e.technicianId == k && e.serviceCount == |m| >= 1
      && e.completedServices == |Filter(m, IsCompletedJob)| <= e.serviceCount
      && e.totalRevenue == SumOf(m, JobIncome)
      && e.completionRate == Ratio(e.completedServices as real, e.serviceCount) * 100.0
      && e.averageRevenue == Ratio(e.totalRevenue, e.serviceCount)
      && e.averageServiceTime == Ratio(Sum(ServiceTimes(m)), |ServiceTimes(m)|)
      && (|Filter(m, HasCompletion)| == 0 ==> e.averageServiceTime == 0.0)
  {
    MembersOfGroupKey(jobs, TechOf, k);
    var m := Members(jobs, TechOf, k);
    var n := |m|;
    var completed := |Filter(m, IsCompletedJob)|;
    var revenue := SumOf(m, JobIncome);
    var times := ServiceTimes(m);
    TechEntry(k, n, completed, revenue, Ratio(Sum(times), |times|),
              Ratio(completed as real, n) * 100.0, Ratio(revenue, n))
  }

  /** The entries of the technicians `ks`, in that order. */
  function EntriesFor(jobs: seq<Job>, ks: seq<string>): (es: seq<TechEntry>)
    requires forall i :: 0 <= i < |ks| ==> ks[i] in GroupKeys(jobs, TechOf)
    ensures |es| == |ks|
    ensures forall i :: 0 <= i < |ks| ==> es[i] == EntryOf(jobs, ks[i])
  {
    seq(|ks|, i requires 0 <= i < |ks| => EntryOf(jobs, ks[i]))
  }

  /** One entry per technician, in first-seen order of the newest-first tickets. */
  function TechEntries(jobs: seq<Job>): seq<TechEntry>
  {
    var ks := GroupKeys(jobs, TechOf);
    EntriesFor(jobs, ks)
  }

  function TotalCount(es: seq<TechEntry>): nat
  {
    if |es| == 0 then 0 else TotalCount(es[..|es| - 1]) + es[|es| - 1].serviceCount
  }

  lemma {:induction false} TotalCountIsGroupSizes(jobs: seq<Job>, ks: seq<string>)
    requires forall i :: 0 <= i < |ks| ==> ks[i] in GroupKeys(jobs, TechOf)
    ensures TotalCount(EntriesFor(jobs, ks)) == GroupSizes(ks, jobs, TechOf)
    decreases |ks|
  {
    if |ks| > 0 {
      var init := ks[..|ks| - 1];
      TotalCountIsGroupSizes(jobs, init);
      var es := EntriesFor(jobs, ks);
      assert es[..|es| - 1] == EntriesFor(jobs, init);
    }
  }

  /** Every assigned ticket is counted for exactly one technician and the
      unassigned ones for none: the entry counts add up to the number of
      assigned tickets, which is at most the number of tickets. */
  lemma {:induction false} CountsConserved(jobs: seq<Job>)
    ensures TotalCount(TechEntries(jobs)) == |Filter(jobs, Keyed(TechOf))| <= |jobs|
  {
    TotalCountIsGroupSizes(jobs, GroupKeys(jobs, TechOf));
    GroupKeysConserve(jobs, TechOf);
  }

  /** There is one entry per distinct technician, each naming a technician
      that is set and non-empty, and every assigned ticket's technician has one. */
  lemma {:induction false} OneEntryPerTechnician(jobs: seq<Job>)
    ensures var es := TechEntries(jobs);
      && (forall i, j :: 0 <= i < j < |es| ==> es[i].technicianId != es[j].technicianId)
      && (forall i :: 0 <= i < |es| ==> es[i].technicianId != "")
      && (forall j :: 0 <= j < |jobs| && Filled(jobs[j].technicianId) ==>
            exists i :: 0 <= i < |es| && es[i].technicianId == jobs[j].technicianId.value)
  {
    EntriesKeyed(jobs);
    KeysFilled(jobs);
  }

  /** Every group key is a set, non-empty technician of some ticket, and every
      such technician is a group key. */
  lemma {:induction false} KeysFilled(jobs: seq<Job>)
    ensures var ks := GroupKeys(jobs, TechOf);
      && (forall i :: 0 <= i < |ks| ==> ks[i] != "")
      && (forall j :: 0 <= j < |jobs| && Filled(jobs[j].technicianId) ==> jobs[j].technicianId.value in ks)
  {
    var ks := GroupKeys(jobs, TechOf);
    forall i | 0 <= i < |ks| ensures ks[i] != "" {
      var j :| 0 <= j < |jobs| && TechOf(jobs[j]) == Some(ks[i]);
    }
    forall j | 0 <= j < |jobs| && Filled(jobs[j].technicianId)
      ensures jobs[j].technicianId.value in ks
    {
      assert TechOf(jobs[j]) == Some(jobs[j].technicianId.value);
    }
  }

  /** The entries carry the group keys, in order. */
  lemma {:induction false} EntriesKeyed(jobs: seq<Job>)
    ensures var es := TechEntries(jobs); var ks := GroupKeys(jobs, TechOf);
      |es| == |ks| && forall i :: 0 <= i < |es| ==> es[i].technicianId == ks[i]
  {
    var ks := GroupKeys(jobs, TechOf);
    var es := TechEntries(jobs);
    forall i | 0 <= i < |es| ensures es[i].technicianId == ks[i] {
      assert es[i] == EntryOf(jobs, ks[i]);
    }
  }

  lemma {:induction false} CompletedIsNoStatus(status: string)
    requires Parse(status).Some?
    ensures status != "COMPLETED"
  {
  }

  /** A technician's tickets are tickets of the list. */
  lemma {:induction false} MemberOfList(jobs: seq<Job>, k: string, x: Job)
    requires x in Members(jobs, TechOf, k)
    ensures x in jobs
  {
    FilterMembers(jobs, HasKey(TechOf, k), x);
  }

  lemma {:induction false} NoneCompleted(jobs: seq<Job>, k: string)
    requires forall j :: 0 <= j < |jobs| ==> !IsCompletedJob(jobs[j])
    ensures Filter(Members(jobs, TechOf, k), IsCompletedJob) == []
  {
    var m := Members(jobs, TechOf, k);
    forall t | 0 <= t < |m| ensures !IsCompletedJob(m[t]) {
      MemberOfList(jobs, k, m[t]);
    }
    FilterNone(m, IsCompletedJob);
  }

  lemma {:induction false} CompletedNeverCounted(jobs: seq<Job>)
    requires forall j :: 0 <= j < |jobs| ==> Parse(jobs[j].status).Some?
    ensures forall i :: 0 <= i < |TechEntries(jobs)| ==>
      TechEntries(jobs)[i].completedServices == 0 && TechEntries(jobs)[i].completionRate == 0.0
  {
    var ks := GroupKeys(jobs, TechOf);
    var es := TechEntries(jobs);
    forall j | 0 <= j < |jobs| ensures !IsCompletedJob(jobs[j]) {
      CompletedIsNoStatus(jobs[j].status);
    }
    forall i | 0 <= i < |es|
      ensures es[i].completedServices == 0 && es[i].completionRate == 0.0
    {
      assert es[i] == EntryOf(jobs, ks[i]);
      EntryNeverCompleted(jobs, ks[i]);
    }
  }

  lemma {:induction false} EntryNeverCompleted(jobs: seq<Job>, k: string)
    requires k in GroupKeys(jobs, TechOf)
    requires forall j :: 0 <= j < |jobs| ==> !IsCompletedJob(jobs[j])
    ensures EntryOf(jobs, k).completedServices == 0 && EntryOf(jobs, k).completionRate == 0.0
  {
    NoneCompleted(jobs, k);
    var e := EntryOf(jobs, k);
    assert e.completedServices == 0;
    assert e.completionRate == Ratio(0.0, e.serviceCount) * 100.0;
    RatioOfNothing(e.serviceCount);
  }

  lemma {:induction false} RatioOfNothing(n: nat)
    ensures Ratio(0.0, n) == 0.0
  {
    if n > 0 {
      assert 0.0 / n as real == 0.0;
    }
  }

  // ---------------------------------------------------------------------------
  // Ranking
  // ---------------------------------------------------------------------------

  /** `a` sorts before `b`: more revenue, or equal revenue and more completions. */
  predicate Outranks(a: TechEntry, b: TechEntry)
  {
    a.totalRevenue > b.totalRevenue
    || (a.totalRevenue == b.totalRevenue && a.completedServices > b.completedServices)
  }

  predicate RankOrdered(s: seq<TechEntry>)
  {
    forall i, j :: 0 <= i < j < |s| ==> !Outranks(s[j], s[i])
  }

  function InsertRanked(x: TechEntry, s: seq<TechEntry>): (r: seq<TechEntry>)
    requires RankOrdered(s)
    ensures RankOrdered(r)
    ensures multiset(r) == multiset(s) + multiset{x}
    decreases |s|
  {
    if |s| == 0 then [x]
    else if !Outranks(s[0], x) then
      assert forall j :: 0 <= j < |s| ==> !Outranks(s[j], s[0]);
      [x] + s
    else
      var rest := InsertRanked(x, s[1..]);
      RankBehindHead(x, s, rest);
      [s[0]] + rest
  }

  lemma {:induction false} RankBehindHead(x: TechEntry, s: seq<TechEntry>, rest: seq<TechEntry>)
    requires |s| > 0 && RankOrdered(s) && Outranks(s[0], x)
    requires RankOrdered(rest) && multiset(rest) == multiset(s[1..]) + multiset{x}
    ensures RankOrdered([s[0]] + rest)
    ensures multiset([s[0]] + rest) == multiset(s) + multiset{x}
  {
    forall k | 0 <= k < |rest| ensures !Outranks(rest[k], s[0]) {
      assert rest[k] in multiset(rest);
      if rest[k] != x {
        assert rest[k] in multiset(s[1..]);
        var j :| 0 <= j < |s[1..]| && s[1..][j] == rest[k];
        assert s[j + 1] == rest[k];
      }
    }
    assert s == [s[0]] + s[1..];
  }

  /** The comparator sort: by revenue, then completions, both descending. */
  function SortRanked(s: seq<TechEntry>): (r: seq<TechEntry>)
    ensures RankOrdered(r)
    ensures multiset(r) == multiset(s)
    decreases |s|
  {
    if |s| == 0 then []
    else
      assert s == [s[0]] + s[1..];
      InsertRanked(s[0], SortRanked(s[1..]))
  }

  datatype RankedTech = RankedTech(entry: TechEntry, rank: nat)

  /** The entries of a ranking, rank numbers dropped. */
  function Entries(r: seq<RankedTech>): (es: seq<TechEntry>)
    ensures |es| == |r| && forall i :: 0 <= i < |r| ==> es[i] == r[i].entry
  {
    seq(|r|, i requires 0 <= i < |r| => r[i].entry)
  }

  /** Ranked technicians: sorted entries numbered from 1. */
  function Ranking(es: seq<TechEntry>): (r: seq<RankedTech>)
    ensures |r| == |es|
    ensures forall i :: 0 <= i < |r| ==> r[i].rank == i + 1
    ensures forall i, j :: 0 <= i < j < |r| ==> !Outranks(r[j].entry, r[i].entry)
    ensures multiset(Entries(r)) == multiset(es)
  {
    var sorted := SortRanked(es);
    assert |sorted| == |multiset(sorted)| == |multiset(es)| == |es|;
    var r := seq(|sorted|, i requires 0 <= i < |sorted| => RankedTech(sorted[i], i + 1));
    assert Entries(r) == sorted;
    r
  }

  /** Rank 1 has the highest revenue of all. */
  lemma {:induction false} TopRankHasMostRevenue(es: seq<TechEntry>)
    requires |es| > 0
    ensures forall e :: e in es ==> e.totalRevenue <= Ranking(es)[0].entry.totalRevenue
  {
    var r := Ranking(es);
    var entries := Entries(r);
    forall e | e in es ensures e.totalRevenue <= r[0].entry.totalRevenue {
      assert e in multiset(es);
      assert e in multiset(entries);
      var j :| 0 <= j < |entries| && entries[j] == e;
      if j > 0 {
        assert !Outranks(r[j].entry, r[0].entry);
      }
    }
  }

  datatype PerformanceSummary = PerformanceSummary(
    totalTechnicians: nat, totalServices: nat, totalRevenue: real, averageCompletionRate: real)

  function RateSum(r: seq<RankedTech>): real
  {
    if |r| == 0 then 0.0 else RateSum(r[..|r| - 1]) + r[|r| - 1].entry.completionRate
  }

  datatype Performance = Performance(technicians: seq<RankedTech>, summary: PerformanceSummary)

  /** `getTechnicianPerformance`. `totalServices` and `totalRevenue` count every
      ticket of the period, assigned or not. */
  function TechnicianPerformance(all: seq<Job>, technicianId: Option<string>, since: int): (p: Performance)
    ensures var jobs := PeriodJobs(all, technicianId, since);
      && |p.technicians| == p.summary.totalTechnicians == |GroupKeys(jobs, TechOf)|
      && p.summary.totalServices == |jobs|
      && p.summary.totalRevenue == SumOf(jobs, JobIncome)
      && (forall i :: 0 <= i < |p.technicians| ==> p.technicians[i].rank == i + 1)
    ensures multiset(Entries(p.technicians)) == multiset(TechEntries(PeriodJobs(all, technicianId, since)))
    ensures forall i, j :: 0 <= i < j < |p.technicians| ==> !Outranks(p.technicians[j].entry, p.technicians[i].entry)
  {
    var jobs := PeriodJobs(all, technicianId, since);
    var es := TechEntries(jobs);
    var ranked := Ranking(es);
    var p := Performance(ranked, PerformanceSummary(|es|, |jobs|, SumOf(jobs, JobIncome), Ratio(RateSum(ranked), |ranked|)));
    assert p.technicians == ranked;
    p
  }

  /** The ranking holds exactly the entries, reordered. */
  lemma {:induction false} RankedFromEntries(es: seq<TechEntry>, i: nat)
    requires i < |Ranking(es)|
    ensures Ranking(es)[i].entry in es
  {
    var r := Ranking(es);
    var entries := seq(|r|, k requires 0 <= k < |r| => r[k].entry);
    assert entries[i] in multiset(entries);
  }

  /** With a technician filter, every period ticket has that technician. */
  lemma {:induction false} PeriodKeysAreFiltered(all: seq<Job>, t: string, since: int)
    requires t != ""
    ensures forall k :: k in GroupKeys(PeriodJobs(all, Some(t), since), TechOf) ==> k == t
  {
    var filtered := Filter(all, Wanted(Some(t), since));
    var jobs := PeriodJobs(all, Some(t), since);
    forall k | k in GroupKeys(jobs, TechOf) ensures k == t {
      var j :| 0 <= j < |jobs| && TechOf(jobs[j]) == Some(k);
      assert jobs[j] in multiset(jobs);
      assert jobs[j] in multiset(filtered);
      FilterMembers(all, Wanted(Some(t), since), jobs[j]);
    }
  }

  /** With a technician filter, only that technician can appear. */
  lemma {:induction false} FilterKeepsOneTechnician(all: seq<Job>, t: string, since: int)
    requires t != ""
    ensures forall i :: 0 <= i < |TechnicianPerformance(all, Some(t), since).technicians| ==>
      TechnicianPerformance(all, Some(t), since).technicians[i].entry.technicianId == t
  {
    var jobs := PeriodJobs(all, Some(t), since);
    var ks := GroupKeys(jobs, TechOf);
    var es := TechEntries(jobs);
    PeriodKeysAreFiltered(all, t, since);
    assert forall j :: 0 <= j < |es| ==> es[j].technicianId == t;
    forall i | 0 <= i < |Ranking(es)| ensures Ranking(es)[i].entry.technicianId == t {
      RankedFromEntries(es, i);
    }
  }

  // ---------------------------------------------------------------------------
  // Efficiency
  // ---------------------------------------------------------------------------

  /** Each ticket is assumed to take 2 hours. */
  const HoursPerService := 2

  /** 22 working days of 8 hours a month. */
  const PossibleHours := 8 * 22

  /** `calculateServicesPerDay`: tickets per distinct creation day, where
      `dayOf` renders a timestamp as its local calendar day. */
  function DayKey(dayOf: int -> string): Job -> Option<string>
  {
    (j: Job) => Some(dayOf(j.createdAt))
  }

  function ServicesPerDay(m: seq<Job>, dayOf: int -> string): real
  {
    if |m| == 0 then 0.0
    else Ratio(|m| as real, |GroupKeys(m, DayKey(dayOf))|)
  }

  /** `calculateUtilizationRate`: estimated hours over possible hours, in percent. */
  function UtilizationRate(n: nat): (u: real)
    ensures u == n as real * 25.0 / 22.0
  {
    (n * HoursPerService) as real / PossibleHours as real * 100.0
  }

  datatype EfficiencyEntry = EfficiencyEntry(
    technicianId: string, revenuePerHour: real, servicesPerDay: real, utilizationRate: real)

  function EfficiencyOf(jobs: seq<Job>, k: string, dayOf: int -> string): (e: EfficiencyEntry)
    requires k in GroupKeys(jobs, TechOf)
    ensures var m := Members(jobs, TechOf, k);
      && e.technicianId == k
      && e.revenuePerHour == Ratio(SumOf(m, JobIncome), HoursPerService * |m|)
      && 1.0 <= e.servicesPerDay <= |m| as real
      && e.utilizationRate == UtilizationRate(|m|)
  {
    MembersOfGroupKey(jobs, TechOf, k);
    var m := Members(jobs, TechOf, k);
    DaysBetweenOneAndCount(m, dayOf);
    EfficiencyEntry(k, Ratio(SumOf(m, JobIncome), HoursPerService * |m|), ServicesPerDay(m, dayOf), UtilizationRate(|m|))
  }

  /** `n / d` lies between 1 and `n` when `1 <= d <= n`. */
  lemma {:induction false} QuotientBounds(n: nat, d: nat)
    requires 1 <= d <= n
    ensures 1.0 <= Ratio(n as real, d) <= n as real
  {
    var q := n as real / d as real;
    var x := n as real;
    var y := d as real;
    assert q * y == x;
    assert (q - 1.0) * y == x - y >= 0.0;
    assert (x - q) * y == x * (y - 1.0) >= 0.0 by { NonNegativeFactor(x, y - 1.0); }
    NonNegativeFactor(q - 1.0, y);
    NonNegativeFactor(x - q, y);
  }

  /** A product with a positive factor keeps the sign of the other factor. */
  lemma NonNegativeFactor(a: real, y: real)
    ensures y > 0.0 && a * y >= 0.0 ==> a >= 0.0
    ensures y >= 0.0 && a >= 0.0 ==> a * y >= 0.0
  {
  }

  /** A non-empty list spans at least one and at most `|m|` distinct days, so
      `servicesPerDay` lies between 1 and the number of tickets. */
  lemma {:induction false} DaysBetweenOneAndCount(m: seq<Job>, dayOf: int -> string)
    requires |m| >= 1
    ensures 1 <= |GroupKeys(m, DayKey(dayOf))| <= |m|
    ensures 1.0 <= ServicesPerDay(m, dayOf) <= |m| as real
  {
    var key := DayKey(dayOf);
    assert key(m[0]) == Some(dayOf(m[0].createdAt));
    assert dayOf(m[0].createdAt) in GroupKeys(m, key);
    GroupKeysBound(m, key);
    QuotientBounds(|m|, |GroupKeys(m, key)|);
  }


  /** `getEfficiencyMetrics`: the same period filter, without ordering, and
      one entry per technician in first-seen order. */
  function Efficiency(all: seq<Job>, technicianId: Option<string>, since: int, dayOf: int -> string)
    : (r: seq<EfficiencyEntry>)
    ensures var jobs := Filter(all, Wanted(technicianId, since));
      var ks := GroupKeys(jobs, TechOf);
      |r| == |ks| && forall i :: 0 <= i < |r| ==> r[i] == EfficiencyOf(jobs, ks[i], dayOf)
  {
    var jobs := Filter(all, Wanted(technicianId, since));
    var ks := GroupKeys(jobs, TechOf);
    seq(|ks|, i requires 0 <= i < |ks| => EfficiencyOf(jobs, ks[i], dayOf))
  }

  // ---------------------------------------------------------------------------
  // The route
  // ---------------------------------------------------------------------------

  const AnalysisFailedError := "Teknisyen analizi yapılırken bir hata oluştu"

  /** The performance query's `include` as written: the income records are
      asked for as `financialRecords`, filtered to INCOME, a name that is not a
      relation of a ticket. */
  const PerformanceIncludeAsWritten :=
    [Records.Include("technician", false), Records.Include("customer", false), Records.Include("financialRecords", true)]

  /** The efficiency query's `include` as written, with the same relation name. */
  const EfficiencyIncludeAsWritten := [Records.Include("technician", false), Records.Include("financialRecords", true)]

  /** The `include` the analyses need: the ticket's one ledger entry, read
      whole; `Job.incomes` keeps its amount when it is an INCOME entry. */
  const PerformanceInclude :=
    [Records.Include("technician", false), Records.Include("customer", false), Records.Include("financialRecord", false)]

  const EfficiencyInclude := [Records.Include("technician", false), Records.Include("financialRecord", false)]

  /** `type=performance`: the ticket query with the given `include`; a query
      the ORM refuses lands in the handler's catch. */
  function PerformanceRoute(inc: seq<Records.Include>, all: seq<Job>, technicianId: Option<string>, since: int)
    : (r: Records.Reply<Performance>)
    ensures r.Failure? <==> !Records.IncludeAccepted(inc)
    ensures r.Failure? ==> r == Records.Failure(500, AnalysisFailedError)
    ensures r.Reply? ==> r == Records.Reply(200, TechnicianPerformance(all, technicianId, since))
  {
    if !Records.IncludeAccepted(inc) then Records.Failure(500, AnalysisFailedError)
    else Records.Reply(200, TechnicianPerformance(all, technicianId, since))
  }

  /** `type=efficiency`, likewise. */
  function EfficiencyRoute(inc: seq<Records.Include>, all: seq<Job>, technicianId: Option<string>, since: int,
                           dayOf: int -> string): (r: Records.Reply<seq<EfficiencyEntry>>)
    ensures r.Failure? <==> !Records.IncludeAccepted(inc)
    ensures r.Failure? ==> r == Records.Failure(500, AnalysisFailedError)
    ensures r.Reply? ==> r == Records.Reply(200, Efficiency(all, technicianId, since, dayOf))
  {
    if !Records.IncludeAccepted(inc) then Records.Failure(500, AnalysisFailedError)
    else Records.Reply(200, Efficiency(all, technicianId, since, dayOf))
  }

  /** As written, both queries name a relation a ticket does not have, so
      performance and efficiency answer 500 whatever is stored; comparison and
      the general analysis run the performance query first and fail with it. */
  lemma {:induction false} AnalysesFailAsWritten(all: seq<Job>, technicianId: Option<string>, since: int,
                                                 dayOf: int -> string)
    ensures PerformanceRoute(PerformanceIncludeAsWritten, all, technicianId, since)
            == Records.Failure(500, AnalysisFailedError)
    ensures EfficiencyRoute(EfficiencyIncludeAsWritten, all, technicianId, since, dayOf)
            == Records.Failure(500, AnalysisFailedError)
  {
    assert PerformanceIncludeAsWritten[2].relation !in Records.TicketRelations;
    assert EfficiencyIncludeAsWritten[1].relation !in Records.TicketRelations;
  }

  /** With the ticket's ledger entry included by its own name, both analyses
      answer with their results. */
  lemma {:induction false} AnalysesAnswerCorrected(all: seq<Job>, technicianId: Option<string>, since: int,
                                                   dayOf: int -> string)
    ensures PerformanceRoute(PerformanceInclude, all, technicianId, since)
            == Records.Reply(200, TechnicianPerformance(all, technicianId, since))
    ensures EfficiencyRoute(EfficiencyInclude, all, technicianId, since, dayOf)
            == Records.Reply(200, Efficiency(all, technicianId, since, dayOf))
  {
    Records.TicketRelationsNamed();
  }
}

=== FILE: technician_page.dfy ===
/** The technician analytics page: the service-time text and the performance
    chart's bars. */
module TechnicianPage {
  import opened Util
  import opened Numeric
  import opened Js
  import TechnicianAnalytics

  const HourMs := 3600000
  const MinuteMs := 60000

  /** `Math.trunc(x)` */
  function Trunc(x: real): int
  {
    if x >= 0.0 then x.Floor else -((-x).Floor)
  }

  /** JavaScript's `a % b` on numbers: the remainder of the quotient truncated
      toward zero. */
  function JsRemReal(a: real, b: real): real
    requires b != 0.0
  {
    a - Trunc(a / b) as real * b
  }

  /** `formatTime(ms)`: floor of the hours, and floor of the minutes left over
      after whole hours. */
  function FormatTimeParts(ms: real): (int, int)
  {
    ((ms / HourMs as real).Floor, (JsRemReal(ms, HourMs as real) / MinuteMs as real).Floor)
  }

  function FormatTime(ms: real): string
  {
    var (h, m) := FormatTimeParts(ms);
    IntToString(h) + "h " + IntToString(m) + "m"
  }

  /** For a non-negative duration the minutes lie in 0..59, and the hours and
      minutes shown account for the duration to within a minute. */
  lemma {:induction false} FormatTimeBounds(ms: real)
    requires ms >= 0.0
    ensures var (h, m) := FormatTimeParts(ms);
      && h >= 0 && 0 <= m <= 59
      && (h * HourMs + m * MinuteMs) as real <= ms < (h * HourMs + m * MinuteMs + MinuteMs) as real
  {
    var (h, m) := FormatTimeParts(ms);
    var H := HourMs as real;
    var M := MinuteMs as real;
    assert Trunc(ms / H) == h;
    var r := JsRemReal(ms, H);
    assert h as real <= ms / H < h as real + 1.0;
    assert h as real * H <= ms < h as real * H + H by {
      DivBounds(ms, H, h);
    }
    assert 0.0 <= r < H;
    assert m as real <= r / M < m as real + 1.0;
    assert m as real * M <= r < m as real * M + M by {
      DivBounds(r, M, m);
    }
    assert m < 60 by {
      assert r / M < 60.0;
    }
  }

  /** Scaling floor bounds of a quotient back up by the (positive) divisor. */
  lemma {:induction false} DivBounds(x: real, d: real, q: int)
    requires d > 0.0 && q as real <= x / d < q as real + 1.0
    ensures q as real * d <= x < q as real * d + d
  {
    var y := x / d;
    assert y * d == x;
    var lo := y - q as real;
    var hi := q as real + 1.0 - y;
    assert lo >= 0.0 && hi > 0.0;
    assert lo * d >= 0.0;
    assert hi * d > 0.0;
    assert lo * d == x - q as real * d;
    assert hi * d == q as real * d + d - x;
  }

  /** A negative duration (a completion stamped before creation) floors both
      parts downward: one millisecond short of zero shows as "-1h -1m". */
  lemma {:induction false} NegativeDuration()
    ensures FormatTimeParts(-1.0) == (-1, -1)
  {
    var H := HourMs as real;
    assert -1.0 / H > -1.0;
    assert Trunc(-1.0 / H) == 0;
    assert JsRemReal(-1.0, H) == -1.0;
  }

  // ---------------------------------------------------------------------------
  // Performance chart
  // ---------------------------------------------------------------------------

  /** A ranked technician with the name its `technician` record carries. */
  datatype Named = Named(name: string, tech: TechnicianAnalytics.RankedTech)

  datatype Bar = Bar(name: string, services: nat, revenue: real, completion: real)

  /** `name.split(' ')[0]` */
  function FirstWord(name: string): (r: string)
    ensures StartsWith(name, r) && ' ' !in r
    ensures ' ' !in name ==> r == name
  {
    SplitHead(name, ' ');
    Split(name, ' ')[0]
  }

  const MaxBars := 10

  /** `getPerformanceChartData` with the name read from `tech.technician.name`:
      nothing without data, else the first ten technicians, in order, each
      with the first word of the name. */
  function ChartData(technicians: Option<seq<Named>>): (r: seq<Bar>)
    ensures technicians.None? ==> r == []
    ensures technicians.Some? ==> |r| == Min(MaxBars, |technicians.value|)
    ensures technicians.Some? ==> forall i :: 0 <= i < |r| ==>
      var t := technicians.value[i];
      r[i] == Bar(FirstWord(t.name), t.tech.entry.serviceCount, t.tech.entry.totalRevenue,
                  t.tech.entry.completionRate)
  {
    match technicians
    case None => []
    case Some(ts) =>
      var top := Take(ts, MaxBars);
      seq(|top|, i requires 0 <= i < |top| =>
        Bar(FirstWord(top[i].name), top[i].tech.entry.serviceCount, top[i].tech.entry.totalRevenue,
            top[i].tech.entry.completionRate))
  }

  /** Charting the ranking, the first bar carries the highest revenue of all
      technicians, charted or not. */
  lemma {:induction false} FirstBarHasMostRevenue(es: seq<TechnicianAnalytics.TechEntry>, names: seq<string>)
    requires |names| == |es| > 0
    ensures var ranked := TechnicianAnalytics.Ranking(es);
      var bars := ChartData(Some(seq(|es|, i requires 0 <= i < |es| => Named(names[i], ranked[i]))));
      |bars| > 0 && forall e :: e in es ==> e.totalRevenue <= bars[0].revenue
  {
    TechnicianAnalytics.TopRankHasMostRevenue(es);
  }

  /** What drawing the chart comes to: a thrown error or the bars. */
  datatype Drawing = Threw | Drawn(bars: seq<Bar>)

  /** `getPerformanceChartData` as written. It reads `tech.name`, but an entry
      of `performance.technicians` has no `name` key (the name sits under
      `technician`), so `tech.name.split` is a call on `undefined` and throws
      as soon as one entry is charted. */
  function ChartDataAsWritten(technicians: Option<seq<TechnicianAnalytics.RankedTech>>): Drawing
  {
    match technicians
    case None => Drawn([])
    case Some(ts) => if |Take(ts, MaxBars)| == 0 then Drawn([]) else Threw
  }

  /** One assigned ticket in the period is enough for the chart to throw:
      it gives the ranking an entry, and charting that entry fails. */
  lemma {:induction false} ChartThrowsWithAnyTechnician(all: seq<TechnicianAnalytics.Job>, since: int, j: nat)
    requires j < |all| && Filled(all[j].technicianId) && all[j].createdAt >= since
    ensures ChartDataAsWritten(Some(TechnicianAnalytics.TechnicianPerformance(all, None, since).technicians)) == Threw
  {
    var jobs := TechnicianAnalytics.PeriodJobs(all, None, since);
    assert |GroupKeys(jobs, TechnicianAnalytics.TechOf)| > 0 by {
      PeriodHasTechnician(all, since, j);
    }
  }

  /** The technician of an assigned ticket in the period is a group key of
      the period's tickets. */
  lemma {:induction false} PeriodHasTechnician(all: seq<TechnicianAnalytics.Job>, since: int, j: nat)
    requires j < |all| && Filled(all[j].technicianId) && all[j].createdAt >= since
    ensures all[j].technicianId.value in GroupKeys(TechnicianAnalytics.PeriodJobs(all, None, since), TechnicianAnalytics.TechOf)
  {
    var wanted := TechnicianAnalytics.Wanted(None, since);
    var filtered := Filter(all, wanted);
    var jobs := TechnicianAnalytics.PeriodJobs(all, None, since);
    FilterMembers(all, wanted, all[j]);
    assert all[j] in multiset(filtered);
    assert all[j] in multiset(jobs);
    TechnicianAnalytics.KeysFilled(jobs);
  }
}

=== FILE: util.dfy ===
/** Generic helpers over sequences and strings shared by the rest of the model:
    optional values, order-preserving filtering, substring search, ASCII case
    mapping, a stable descending sort, grouping by key in first-seen order, and
    page arithmetic. */
module Util {

  /** JavaScript `undefined`/`null` versus a present value. */
  datatype Option<+T> = None | Some(value: T)

  function Min(a: int, b: int): int { if a <= b then a else b }

  /** Milliseconds in a day; calendar days are taken as exact 24-hour spans. */
  const DayMs := 86400000

  // ---------------------------------------------------------------------------
  // Sums and filters. Both recurse from the END of the sequence, matching the
  // source's `forEach`/`push` loops that extend an accumulator one item at a time.
  // ---------------------------------------------------------------------------

  /** `xs.reduce((sum, x) => sum + x, 0)` */
  function Sum(xs: seq<real>): real
  {
    if |xs| == 0 then 0.0 else Sum(xs[..|xs| - 1]) + xs[|xs| - 1]
  }

  lemma {:induction false} SumAppend(a: seq<real>, b: seq<real>)
    ensures Sum(a + b) == Sum(a) + Sum(b)
    decreases |b|
  {
    if |b| > 0 {
      assert (a + b)[..|a + b| - 1] == a + b[..|b| - 1];
      SumAppend(a, b[..|b| - 1]);
    } else {
      assert a + b == a;
    }
  }

  lemma {:induction false} SumNonNegative(xs: seq<real>)
    requires forall i :: 0 <= i < |xs| ==> xs[i] >= 0.0
    ensures Sum(xs) >= 0.0
    decreases |xs|
  {
    if |xs| > 0 {
      SumNonNegative(xs[..|xs| - 1]);
    }
  }

  /** `s.reduce((sum, x) => sum + f(x), 0)` */
  function SumOf<T>(s: seq<T>, f: T -> real): real
  {
    if |s| == 0 then 0.0 else SumOf(s[..|s| - 1], f) + f(s[|s| - 1])
  }

  lemma {:induction false} SumOfSnoc<T>(s: seq<T>, x: T, f: T -> real)
    ensures SumOf(s + [x], f) == SumOf(s, f) + f(x)
  {
    assert (s + [x])[..|s|] == s;
  }

  lemma {:induction false} SumOfAppend<T>(a: seq<T>, b: seq<T>, f: T -> real)
    ensures SumOf(a + b, f) == SumOf(a, f) + SumOf(b, f)
    decreases |b|
  {
    if |b| > 0 {
      var c := b[..|b| - 1];
      assert a + b == (a + c) + [b[|b| - 1]];
      SumOfSnoc(a + c, b[|b| - 1], f);
      SumOfAppend(a, c, f);
    } else {
      assert a + b == a;
    }
  }

  lemma {:induction false} SumOfTriple<T>(x: T, y: T, z: T, f: T -> real)
    ensures SumOf([x, y, z], f) == f(x) + f(y) + f(z)
  {
    SumOfSnoc([], x, f);
    SumOfSnoc([x], y, f);
    SumOfSnoc([x, y], z, f);
    assert [x] == [] + [x] && [x, y] == [x] + [y] && [x, y, z] == [x, y] + [z];
  }

  lemma {:induction false} PrefixSnoc<T>(s: seq<T>, i: nat)
    requires i < |s|
    ensures s[..i + 1] == s[..i] + [s[i]]
  {
  }

  /** `s.filter(p)`: the items satisfying `p`, in their original order. */
  function Filter<T>(s: seq<T>, p: T -> bool): (r: seq<T>)
    ensures |r| <= |s|
    ensures forall i :: 0 <= i < |r| ==> p(r[i])
    decreases |s|
  {
    if |s| == 0 then []
    else
      var r := Filter(s[..|s| - 1], p);
      if p(s[|s| - 1]) then r + [s[|s| - 1]] else r
  }

  /** `a` is an order-preserving subsequence of `b`: either the last item of `b`
      supplies the last item of `a`, or it is skipped. */
  predicate IsSubseq<T(==)>(a: seq<T>, b: seq<T>)
    decreases |b|
  {
    |a| <= |b| &&
    (|a| == 0
     || (a[|a| - 1] == b[|b| - 1] && IsSubseq(a[..|a| - 1], b[..|b| - 1]))
     || IsSubseq(a, b[..|b| - 1]))
  }

  lemma {:induction false} FilterIsSubseq<T>(s: seq<T>, p: T -> bool)
    ensures IsSubseq(Filter(s, p), s)
    decreases |s|
  {
    if |s| > 0 {
      FilterIsSubseq(s[..|s| - 1], p);
      var r := Filter(s[..|s| - 1], p);
      if p(s[|s| - 1]) {
        assert (r + [s[|s| - 1]])[..|r|] == r;
      }
    }
  }

  /** An item is kept exactly when it is in the input and satisfies `p`. */
  lemma {:induction false} FilterMembers<T>(s: seq<T>, p: T -> bool, x: T)
    ensures x in Filter(s, p) <==> x in s && p(x)
    decreases |s|
  {
    if |s| > 0 {
      var init := s[..|s| - 1];
      FilterMembers(init, p, x);
      assert s == init + [s[|s| - 1]];
    }
  }

  /** Filtering keeps a descending order. */
  lemma {:induction false} FilterSorted<T>(s: seq<T>, p: T -> bool, key: T -> real)
    requires SortedDesc(s, key)
    ensures SortedDesc(Filter(s, p), key)
    decreases |s|
  {
    if |s| > 0 {
      var init := s[..|s| - 1];
      var x := s[|s| - 1];
      assert SortedDesc(init, key);
      FilterSorted(init, p, key);
      var r := Filter(init, p);
      if p(x) {
        forall k | 0 <= k < |r| ensures key(r[k]) >= key(x) {
          assert r[k] in r;
          FilterMembers(init, p, r[k]);
          var j :| 0 <= j < |init| && init[j] == r[k];
          assert s[j] == init[j];
        }
      }
    }
  }

  /** Two tests that every item passes exactly one of split the items between
      them. */
  lemma {:induction false} FilterSplitCount<T>(s: seq<T>, p: T -> bool, q: T -> bool)
    requires forall i :: 0 <= i < |s| ==> p(s[i]) != q(s[i])
    ensures |Filter(s, p)| + |Filter(s, q)| == |s|
    decreases |s|
  {
    if |s| > 0 {
      FilterSplitCount(s[..|s| - 1], p, q);
    }
  }

  /** Three tests that every item passes exactly one of split the items
      between them. */
  lemma {:induction false} FilterSplitCount3<T>(s: seq<T>, p: T -> bool, q: T -> bool, r: T -> bool)
    requires forall i :: 0 <= i < |s| ==>
      (p(s[i]) && !q(s[i]) && !r(s[i])) || (!p(s[i]) && q(s[i]) && !r(s[i])) || (!p(s[i]) && !q(s[i]) && r(s[i]))
    ensures |Filter(s, p)| + |Filter(s, q)| + |Filter(s, r)| == |s|
    decreases |s|
  {
    if |s| > 0 {
      FilterSplitCount3(s[..|s| - 1], p, q, r);
    }
  }

  /** A narrower test keeps no more items than a wider one. */
  lemma {:induction false} FilterSubsetCount<T>(s: seq<T>, p: T -> bool, q: T -> bool)
    requires forall x :: p(x) ==> q(x)
    ensures |Filter(s, p)| <= |Filter(s, q)|
    decreases |s|
  {
    if |s| > 0 {
      FilterSubsetCount(s[..|s| - 1], p, q);
    }
  }

  /** Filtering by a test that implies a wider one gives the same result
      before or after the wider filter. */
  lemma {:induction false} FilterNarrower<T>(s: seq<T>, p: T -> bool, q: T -> bool)
    requires forall x :: p(x) ==> q(x)
    ensures Filter(Filter(s, q), p) == Filter(s, p)
    decreases |s|
  {
    if |s| > 0 {
      var init := s[..|s| - 1];
      var x := s[|s| - 1];
      FilterNarrower(init, p, q);
      if q(x) {
        var fq := Filter(init, q);
        assert Filter(s, q) == fq + [x];
        assert (fq + [x])[..|fq|] == fq;
      }
    }
  }

  /** Filters by tests that agree everywhere give the same list. */
  lemma {:induction false} FilterSame<T>(s: seq<T>, p: T -> bool, q: T -> bool)
    requires forall x :: p(x) == q(x)
    ensures Filter(s, p) == Filter(s, q)
    decreases |s|
  {
    if |s| > 0 {
      FilterSame(s[..|s| - 1], p, q);
    }
  }

  /** Dropping items that contribute nothing leaves a sum unchanged. */
  lemma {:induction false} SumOfDropZeros<T>(s: seq<T>, p: T -> bool, f: T -> real)
    requires forall i :: 0 <= i < |s| && !p(s[i]) ==> f(s[i]) == 0.0
    ensures SumOf(Filter(s, p), f) == SumOf(s, f)
    decreases |s|
  {
    if |s| > 0 {
      var init := s[..|s| - 1];
      var x := s[|s| - 1];
      SumOfDropZeros(init, p, f);
      if p(x) {
        SumOfSnoc(Filter(init, p), x, f);
      }
    }
  }

  /** Filtering twice keeps the items passing both tests, in order. */
  lemma {:induction false} FilterFilter<T>(s: seq<T>, p: T -> bool, q: T -> bool, both: T -> bool)
    requires forall x :: both(x) == (p(x) && q(x))
    ensures Filter(Filter(s, p), q) == Filter(s, both)
    decreases |s|
  {
    if |s| > 0 {
      var init := s[..|s| - 1];
      var x := s[|s| - 1];
      FilterFilter(init, p, q, both);
      var fp := Filter(init, p);
      if p(x) {
        assert Filter(s, p) == fp + [x];
        assert (fp + [x])[..|fp|] == fp;
      }
    }
  }

  lemma {:induction false} FilterAll<T>(s: seq<T>, p: T -> bool)
    requires forall i :: 0 <= i < |s| ==> p(s[i])
    ensures Filter(s, p) == s
    decreases |s|
  {
    if |s| > 0 {
      FilterAll(s[..|s| - 1], p);
      assert s[..|s| - 1] + [s[|s| - 1]] == s;
    }
  }

  lemma {:induction false} FilterNone<T>(s: seq<T>, p: T -> bool)
    requires forall i :: 0 <= i < |s| ==> !p(s[i])
    ensures Filter(s, p) == []
    decreases |s|
  {
    if |s| > 0 {
      FilterNone(s[..|s| - 1], p);
    }
  }

  /** `s.slice(0, n)` for n >= 0. */
  function Take<T>(s: seq<T>, n: nat): (r: seq<T>)
  {
    s[..Min(n, |s|)]
  }

  // ---------------------------------------------------------------------------
  // Strings.
  // ---------------------------------------------------------------------------

  /** The white-space characters skipped by `trim`, `parseInt` and `parseFloat`
      (the ASCII ones; Unicode spaces are outside the model). */
  predicate IsWhitespace(c: char)
  {
    c == ' ' || c == '\t' || c == '\n' || c == '\r' || c == '\U{000B}' || c == '\U{000C}'
  }

  /** `s.trim() === ''` */
  predicate IsBlank(s: string)
  {
    forall i :: 0 <= i < |s| ==> IsWhitespace(s[i])
  }

  function LowerChar(c: char): char
  {
    if 'A' <= c <= 'Z' then (c as int + 32) as char else c
  }

  function UpperChar(c: char): char
  {
    if 'a' <= c <= 'z' then (c as int - 32) as char else c
  }

  /** `s.toLowerCase()` restricted to ASCII letters. */
  function Lower(s: string): (r: string)
    ensures |r| == |s|
    ensures forall i :: 0 <= i < |s| ==> r[i] == LowerChar(s[i])
  {
    seq(|s|, i requires 0 <= i < |s| => LowerChar(s[i]))
  }

  /** `s.toUpperCase()` restricted to ASCII letters. */
  function Upper(s: string): (r: string)
    ensures |r| == |s|
    ensures forall i :: 0 <= i < |s| ==> r[i] == UpperChar(s[i])
  {
    seq(|s|, i requires 0 <= i < |s| => UpperChar(s[i]))
  }

  /** Upper-casing undoes lower-casing on text without lower-case letters. */
  lemma {:induction false} UpperOfLower(s: string)
    requires forall i :: 0 <= i < |s| ==> !('a' <= s[i] <= 'z')
    ensures Upper(Lower(s)) == s
  {
    forall i | 0 <= i < |s|
      ensures Upper(Lower(s))[i] == s[i]
    {
      assert Lower(s)[i] == LowerChar(s[i]);
    }
  }

  predicate StartsWith(s: string, prefix: string)
  {
    |prefix| <= |s| && s[..|prefix|] == prefix
  }

  /** `hay.includes(needle)`, scanning left to right. */
  function Contains(hay: string, needle: string): bool
    decreases |hay|
  {
    StartsWith(hay, needle) || (|hay| > 0 && Contains(hay[1..], needle))
  }

  /** Independent definition of an occurrence of `needle` at offset `i`. */
  ghost predicate OccursAt(hay: string, needle: string, i: int)
  {
    0 <= i && i + |needle| <= |hay| && hay[i..i + |needle|] == needle
  }

  lemma {:induction false} ContainsIff(hay: string, needle: string)
    ensures Contains(hay, needle) <==> exists i :: OccursAt(hay, needle, i)
    decreases |hay|
  {
    if StartsWith(hay, needle) {
      assert OccursAt(hay, needle, 0);
    } else if |hay| > 0 {
      ContainsIff(hay[1..], needle);
      if Contains(hay[1..], needle) {
        var i :| OccursAt(hay[1..], needle, i);
        assert hay[1..][i..i + |needle|] == hay[i + 1..i + 1 + |needle|];
        assert OccursAt(hay, needle, i + 1);
      }
      forall i | OccursAt(hay, needle, i)
        ensures Contains(hay[1..], needle)
      {
        assert i != 0;
        assert hay[1..][i - 1..i - 1 + |needle|] == hay[i..i + |needle|];
        assert OccursAt(hay[1..], needle, i - 1);
      }
    }
  }

  /** Any text spliced into a template can be found in the result. */
  lemma {:induction false} ContainsSpliced(a: string, b: string, c: string)
    ensures Contains(a + b + c, b)
  {
    assert (a + b + c)[|a|..|a| + |b|] == b;
    assert OccursAt(a + b + c, b, |a|);
    ContainsIff(a + b + c, b);
  }

  /** Case-insensitive substring test (`contains` with `mode: 'insensitive'`). */
  predicate ContainsCI(field: string, term: string)
  {
    Contains(Lower(field), Lower(term))
  }

  predicate OptContainsCI(field: Option<string>, term: string)
  {
    field.Some? && ContainsCI(field.value, term)
  }

  /** The pieces joined without separator (a template string's parts). */
  function Concat(pieces: seq<string>): string
  {
    if |pieces| == 0 then "" else pieces[0] + Concat(pieces[1..])
  }

  /** Joined pieces split around any one piece. */
  lemma {:induction false} ConcatSplit(pieces: seq<string>, i: nat)
    requires i < |pieces|
    ensures Concat(pieces) == Concat(pieces[..i]) + pieces[i] + Concat(pieces[i + 1..])
    decreases i
  {
    if i > 0 {
      ConcatSplit(pieces[1..], i - 1);
      assert pieces[1..][..i - 1] == pieces[1..i];
      assert pieces[1..][i..] == pieces[i + 1..];
      assert pieces[..i][1..] == pieces[1..i];
    } else {
      assert pieces[..0] == [];
    }
  }

  /** Every piece can be found in the joined text. */
  lemma {:induction false} ConcatContains(pieces: seq<string>, i: nat)
    requires i < |pieces|
    ensures Contains(Concat(pieces), pieces[i])
  {
    ConcatSplit(pieces, i);
    ContainsSpliced(Concat(pieces[..i]), pieces[i], Concat(pieces[i + 1..]));
  }

  /** `s.split(sep)` */
  function Split(s: string, sep: char): (parts: seq<string>)
    ensures |parts| >= 1
    decreases |s|
  {
    if |s| == 0 then [""]
    else
      var rest := Split(s[1..], sep);
      if s[0] == sep then [""] + rest else [[s[0]] + rest[0]] + rest[1..]
  }

  /** The first part of a split is the longest separator-free prefix. */
  lemma {:induction false} SplitHead(s: string, sep: char)
    ensures StartsWith(s, Split(s, sep)[0]) && sep !in Split(s, sep)[0]
    ensures sep !in s ==> Split(s, sep)[0] == s
    decreases |s|
  {
    if |s| > 0 && s[0] != sep {
      SplitHead(s[1..], sep);
      var h := Split(s[1..], sep)[0];
      assert Split(s, sep)[0] == [s[0]] + h;
      assert s[..|h| + 1] == [s[0]] + s[1..][..|h|];
    }
  }

  lemma {:induction false} SplitNoSep(s: string, sep: char)
    requires sep !in s
    ensures Split(s, sep) == [s]
    decreases |s|
  {
    if |s| > 0 {
      SplitNoSep(s[1..], sep);
      assert [s[0]] + s[1..] == s;
    }
  }

  /** Splitting text joined by a separator that the first part lacks. */
  lemma {:induction false} SplitJoin(a: string, b: string, sep: char)
    requires sep !in a
    ensures Split(a + [sep] + b, sep) == [a] + Split(b, sep)
    decreases |a|
  {
    if |a| == 0 {
      assert a + [sep] + b == [sep] + b;
      assert ([sep] + b)[1..] == b;
    } else {
      assert (a + [sep] + b)[1..] == a[1..] + [sep] + b;
      SplitJoin(a[1..], b, sep);
      assert [a[0]] + a[1..] == a;
    }
  }

  // ---------------------------------------------------------------------------
  // Stable descending sort by a numeric key (`arr.sort((x, y) => key(y) - key(x))`;
  // JavaScript's sort is stable, and so is this insertion sort).
  // ---------------------------------------------------------------------------

  predicate SortedDesc<T>(s: seq<T>, key: T -> real)
  {
    forall i, j :: 0 <= i < j < |s| ==> key(s[i]) >= key(s[j])
  }

  function InsertDesc<T(==)>(x: T, s: seq<T>, key: T -> real): (r: seq<T>)
    requires SortedDesc(s, key)
    ensures SortedDesc(r, key)
    ensures multiset(r) == multiset(s) + multiset{x}
    decreases |s|
  {
    if |s| == 0 then [x]
    else if key(s[0]) <= key(x) then [x] + s
    else
      var rest := InsertDesc(x, s[1..], key);
      InsertBehindHead(x, s, key, rest);
      [s[0]] + rest
  }

  /** Inserting behind a head whose key beats `x` keeps the order. */
  lemma {:induction false} InsertBehindHead<T>(x: T, s: seq<T>, key: T -> real, rest: seq<T>)
    requires |s| > 0 && SortedDesc(s, key) && key(s[0]) > key(x)
    requires SortedDesc(rest, key) && multiset(rest) == multiset(s[1..]) + multiset{x}
    ensures SortedDesc([s[0]] + rest, key)
    ensures multiset([s[0]] + rest) == multiset(s) + multiset{x}
  {
    forall k | 0 <= k < |rest| ensures key(rest[k]) <= key(s[0]) {
      assert rest[k] in multiset(rest);
      if rest[k] != x {
        assert rest[k] in multiset(s[1..]);
        var j :| 0 <= j < |s[1..]| && s[1..][j] == rest[k];
        assert s[j + 1] == rest[k];
      }
    }
    assert s == [s[0]] + s[1..];
  }

  /** Two items with different keys sort larger first. */
  lemma {:induction false} SortTwo<T>(a: T, b: T, key: T -> real)
    requires key(a) < key(b)
    ensures SortDesc([a, b], key) == [b, a]
  {
    assert [a, b][1..] == [b];
    assert SortDesc([b], key) == [b] by {
      assert [b][1..] == [];
    }
    assert InsertDesc(a, [b], key) == [b] + InsertDesc(a, [], key);
  }

  function SortDesc<T(==)>(s: seq<T>, key: T -> real): (r: seq<T>)
    ensures SortedDesc(r, key)
    ensures multiset(r) == multiset(s)
    decreases |s|
  {
    if |s| == 0 then []
    else
      assert s == [s[0]] + s[1..];
      InsertDesc(s[0], SortDesc(s[1..], key), key)
  }

  lemma {:induction false} SortDescLength<T>(s: seq<T>, key: T -> real)
    ensures |SortDesc(s, key)| == |s|
  {
    assert |multiset(SortDesc(s, key))| == |multiset(s)|;
  }

  /** The first `n` items of a sorted list are items of the list, each with a
      key at least that of every item from its own position on. */
  lemma {:induction false} TakeOfSorted<T>(s: seq<T>, key: T -> real, n: nat)
    ensures var sorted := SortDesc(s, key);
      var top := Take(sorted, n);
      (forall i :: 0 <= i < |top| ==> top[i] in s)
      && forall i, j :: 0 <= i < |top| && i <= j < |sorted| ==> key(top[i]) >= key(sorted[j])
  {
    var sorted := SortDesc(s, key);
    var top := Take(sorted, n);
    forall i | 0 <= i < |top| ensures top[i] in s {
      assert top[i] == sorted[i];
      SortedMember(s, key, i);
    }
    forall i, j | 0 <= i < |top| && i <= j < |sorted| ensures key(top[i]) >= key(sorted[j]) {
      assert top[i] == sorted[i];
    }
  }

  /** The first `n` items of a sorted list are themselves in order and are
      drawn from the list, each no more often than it occurs there. */
  lemma {:induction false} TakeOfSortedBag<T>(s: seq<T>, key: T -> real, n: nat)
    ensures SortedDesc(Take(SortDesc(s, key), n), key)
    ensures multiset(Take(SortDesc(s, key), n)) <= multiset(s)
  {
    var sorted := SortDesc(s, key);
    var top := sorted[..Min(n, |sorted|)];
    forall i, j | 0 <= i < j < |top| ensures key(top[i]) >= key(top[j]) {
      assert top[i] == sorted[i] && top[j] == sorted[j];
    }
    PrefixBag(sorted, Min(n, |sorted|));
  }

  /** A prefix holds each item no more often than the whole list. */
  lemma {:induction false} PrefixBag<T>(s: seq<T>, k: nat)
    requires k <= |s|
    ensures multiset(s[..k]) <= multiset(s)
  {
    assert s == s[..k] + s[k..];
  }

  /** Every item of a sorted list comes from the list sorted. */
  lemma {:induction false} SortedMember<T>(s: seq<T>, key: T -> real, i: int)
    requires 0 <= i < |SortDesc(s, key)|
    ensures SortDesc(s, key)[i] in s
  {
    var sorted := SortDesc(s, key);
    assert sorted[i] in multiset(sorted);
    assert sorted[i] in multiset(s);
  }

  /** An item of the list that is not among the first `n` after sorting is
      no larger than any of them. */
  lemma {:induction false} LeftOutIsSmaller<T>(s: seq<T>, key: T -> real, n: nat, x: T)
    requires x in s && x !in Take(SortDesc(s, key), n)
    ensures forall i :: 0 <= i < |Take(SortDesc(s, key), n)| ==> key(Take(SortDesc(s, key), n)[i]) >= key(x)
  {
    var sorted := SortDesc(s, key);
    var top := Take(sorted, n);
    assert x in multiset(sorted);
    var k :| 0 <= k < |sorted| && sorted[k] == x;
    assert forall j :: 0 <= j < |top| ==> top[j] == sorted[j];
    assert k >= |top|;
    forall i | 0 <= i < |top|
      ensures key(top[i]) >= key(x)
    {
      assert top[i] == sorted[i];
    }
  }

  /** Sorting a filtered list keeps exactly the items that pass the filter. */
  lemma {:induction false} SortFilterMembers<T>(s: seq<T>, p: T -> bool, key: T -> real, x: T)
    ensures x in SortDesc(Filter(s, p), key) <==> x in s && p(x)
  {
    var f := Filter(s, p);
    assert multiset(SortDesc(f, key)) == multiset(f);
    assert x in SortDesc(f, key) <==> x in multiset(SortDesc(f, key));
    assert x in f <==> x in multiset(f);
    FilterMembers(s, p, x);
  }

  // ---------------------------------------------------------------------------
  // Grouping by key in first-seen order, as a JavaScript `Map` filled by a
  // `forEach` over the items (items whose key is absent are skipped).
  // ---------------------------------------------------------------------------

  predicate Distinct<K(==,!new)>(ks: seq<K>)
  {
    forall i, j :: 0 <= i < j < |ks| ==> ks[i] != ks[j]
  }

  /** A sequence without repeats has as many distinct items as positions. */
  lemma {:induction false} DistinctCard<K(!new)>(ks: seq<K>)
    requires Distinct(ks)
    ensures |set k | k in ks| == |ks|
    decreases |ks|
  {
    if |ks| > 0 {
      var init := ks[..|ks| - 1];
      var x := ks[|ks| - 1];
      assert Distinct(init);
      DistinctCard(init);
      assert (set k | k in ks) == (set k | k in init) + {x};
      assert x !in (set k | k in init);
    }
  }

  function GroupKeys<T, K(==,!new)>(s: seq<T>, key: T -> Option<K>): (ks: seq<K>)
    ensures Distinct(ks)
    ensures forall k :: k in ks <==> exists i :: 0 <= i < |s| && key(s[i]) == Some(k)
    decreases |s|
  {
    if |s| == 0 then []
    else
      var ks := GroupKeys(s[..|s| - 1], key);
      var x := s[|s| - 1];
      assert forall i :: 0 <= i < |s| - 1 ==> s[..|s| - 1][i] == s[i];
      if key(x).Some? && key(x).value !in ks then ks + [key(x).value] else ks
  }

  /** The predicate "has key `k`". */
  function HasKey<T, K(==,!new)>(key: T -> Option<K>, k: K): T -> bool
  {
    x => key(x) == Some(k)
  }

  /** The predicate "has some key". */
  function Keyed<T, K>(key: T -> Option<K>): T -> bool
  {
    x => key(x).Some?
  }

  /** The items of group `k`, in their original order. */
  function Members<T, K(==,!new)>(s: seq<T>, key: T -> Option<K>, k: K): seq<T>
  {
    Filter(s, HasKey(key, k))
  }

  /** Total size of the groups named in `ks`. */
  function GroupSizes<T, K(==,!new)>(ks: seq<K>, s: seq<T>, key: T -> Option<K>): nat
    decreases |ks|
  {
    if |ks| == 0 then 0
    else GroupSizes(ks[..|ks| - 1], s, key) + |Members(s, key, ks[|ks| - 1])|
  }

  lemma {:induction false} GroupSizesEmpty<T, K(!new)>(ks: seq<K>, key: T -> Option<K>)
    ensures GroupSizes(ks, [], key) == 0
    decreases |ks|
  {
    if |ks| > 0 {
      GroupSizesEmpty(ks[..|ks| - 1], key);
    }
  }

  /** Appending one item grows exactly the group named by its key, if listed. */
  lemma {:induction false} GroupSizesStep<T, K(!new)>(ks: seq<K>, s: seq<T>, key: T -> Option<K>)
    requires |s| > 0 && Distinct(ks)
    ensures GroupSizes(ks, s, key)
         == GroupSizes(ks, s[..|s| - 1], key)
            + (if key(s[|s| - 1]).Some? && key(s[|s| - 1]).value in ks then 1 else 0)
    decreases |ks|
  {
    if |ks| > 0 {
      var init := ks[..|ks| - 1];
      var k := ks[|ks| - 1];
      assert Distinct(init);
      GroupSizesStep(init, s, key);
      assert k !in init;
      assert forall k' :: k' in ks <==> k' in init || k' == k;
    }
  }

  /** When every keyed item's key is listed once in `ks`, the group sizes add up
      to the number of keyed items: grouping neither loses nor duplicates items. */
  lemma {:induction false} GroupSizesCover<T, K(!new)>(ks: seq<K>, s: seq<T>, key: T -> Option<K>)
    requires Distinct(ks)
    requires forall i :: 0 <= i < |s| && key(s[i]).Some? ==> key(s[i]).value in ks
    ensures GroupSizes(ks, s, key) == |Filter(s, Keyed(key))|
    decreases |s|
  {
    if |s| == 0 {
      GroupSizesEmpty(ks, key);
    } else {
      var init := s[..|s| - 1];
      assert forall i :: 0 <= i < |init| ==> init[i] == s[i];
      GroupSizesCover(ks, init, key);
      GroupSizesStep(ks, s, key);
    }
  }

  /** Grouping by `GroupKeys` conserves the number of keyed items. */
  lemma {:induction false} GroupKeysConserve<T, K(!new)>(s: seq<T>, key: T -> Option<K>)
    ensures GroupSizes(GroupKeys(s, key), s, key) == |Filter(s, Keyed(key))|
  {
    GroupSizesCover(GroupKeys(s, key), s, key);
  }

  /** There are no more groups than keyed items. */
  lemma {:induction false} GroupKeysBound<T, K(!new)>(s: seq<T>, key: T -> Option<K>)
    ensures |GroupKeys(s, key)| <= |Filter(s, Keyed(key))|
    decreases |s|
  {
    if |s| > 0 {
      GroupKeysBound(s[..|s| - 1], key);
    }
  }

  lemma {:induction false} MembersOfGroupKey<T, K(!new)>(s: seq<T>, key: T -> Option<K>, k: K)
    requires k in GroupKeys(s, key)
    ensures |Members(s, key, k)| >= 1
  {
    var i :| 0 <= i < |s| && key(s[i]) == Some(k);
    assert HasKey(key, k)(s[i]);
    FilterMembers(s, HasKey(key, k), s[i]);
  }

  // ---------------------------------------------------------------------------
  // Pagination: `Math.ceil(total / limit)` pages, `skip = (page - 1) * limit`,
  // `take = limit`.
  // ---------------------------------------------------------------------------

  function PageCount(total: nat, limit: int): (pages: nat)
    requires limit >= 1
    ensures pages * limit >= total
    ensures total > 0 ==> (pages - 1) * limit < total
    ensures total == 0 ==> pages == 0
  {
    var q := (total + limit - 1) / limit;
    assert total + limit - 1 == q * limit + (total + limit - 1) % limit;
    q
  }

  /** `skip = (page - 1) * limit` */
  function Offset(page: int, limit: int): (skip: nat)
    requires page >= 1 && limit >= 1
  {
    MulNonNegative(page - 1, limit);
    (page - 1) * limit
  }

  lemma {:induction false} MulNonNegative(a: int, b: int)
    requires a >= 0 && b >= 0
    ensures a * b >= 0
  {
  }

  /** The page that shows the item at position `j` of the full list. */
  function PageOf(j: nat, limit: int): (pg: nat)
    requires limit >= 1
    ensures pg >= 1
  {
    j / limit + 1
  }

  /** `skip`/`take`: the items from position `Offset(page, limit)` on, at most
      `limit` of them. */
  function PageSlice<T>(s: seq<T>, page: int, limit: int): (r: seq<T>)
    requires page >= 1 && limit >= 1
    ensures |r| <= limit
    ensures forall i :: 0 <= i < |r| ==> Offset(page, limit) + i < |s| && r[i] == s[Offset(page, limit) + i]
    ensures Offset(page, limit) < |s| ==> |r| == Min(limit, |s| - Offset(page, limit))
  {
    var skip := Offset(page, limit);
    if skip >= |s| then []
    else
      var r := s[skip..Min(skip + limit, |s|)];
      assert forall i :: 0 <= i < |r| ==> r[i] == s[skip + i];
      r
  }

  lemma {:induction false} MulPositive(a: int, b: int)
    requires a * b > 0 && b > 0
    ensures a > 0
  {
  }

  /** A page of a sorted list is sorted and holds only items of the list. */
  lemma {:induction false} PageOfSorted<T>(all: seq<T>, key: T -> real, page: int, limit: int)
    requires page >= 1 && limit >= 1 && SortedDesc(all, key)
    ensures SortedDesc(PageSlice(all, page, limit), key)
    ensures forall i :: 0 <= i < |PageSlice(all, page, limit)| ==> PageSlice(all, page, limit)[i] in all
  {
    var shown := PageSlice(all, page, limit);
    var skip := Offset(page, limit);
    forall i, j | 0 <= i < j < |shown|
      ensures key(shown[i]) >= key(shown[j])
    {
      assert shown[i] == all[skip + i] && shown[j] == all[skip + j];
    }
  }

  /** Every item of the full list appears on page `j / limit + 1`, at position
      `j % limit`: the pages cover the list. */
  lemma {:induction false} PageLocates<T>(s: seq<T>, limit: int, j: int)
    requires limit >= 1 && 0 <= j < |s|
    ensures j / limit + 1 <= PageCount(|s|, limit)
    ensures j % limit < |PageSlice(s, j / limit + 1, limit)|
    ensures PageSlice(s, j / limit + 1, limit)[j % limit] == s[j]
  {
    var q := j / limit;
    var r := j % limit;
    var skip := Offset(q + 1, limit);
    assert skip + r == j && 0 <= r < limit by {
      assert skip == q * limit;
      assert j == q * limit + r;
    }
    PageCountCovers(|s|, limit, q);
    var shown := PageSlice(s, q + 1, limit);
    assert |shown| == Min(limit, |s| - skip);
    assert shown[r] == s[skip + r];
  }

  /** `PageLocates` in terms of the page number of position `j`. */
  lemma {:induction false} PageOfLocates<T>(s: seq<T>, limit: int, j: nat)
    requires limit >= 1 && j < |s|
    ensures PageOf(j, limit) <= PageCount(|s|, limit)
    ensures j % limit < |PageSlice(s, PageOf(j, limit), limit)|
    ensures PageSlice(s, PageOf(j, limit), limit)[j % limit] == s[j]
  {
    PageLocates(s, limit, j);
  }

  /** A page that starts inside the list is within the page count. */
  lemma {:induction false} PageCountCovers(n: nat, limit: int, q: nat)
    requires limit >= 1 && q * limit < n
    ensures q + 1 <= PageCount(n, limit)
  {
    var pages := PageCount(n, limit);
    assert (pages - q) * limit == pages * limit - q * limit;
    MulPositive(pages - q, limit);
  }
}
